=== FILE: README.md ===
# evoke incremental build, modelled in Dafny

This project models the core of evoke, a static-site generator written in
Go. A build turns the files under `content/` into pages under `dist/`. It
rebuilds only what changed since the last build, and it does so in four
steps:

- It fingerprints every file (the hex-encoded SHA-256 of its bytes).
- It compares each fingerprint with a cache persisted in `dist/.cache`.
- A dependency graph records which content files include which partials
  (`{{ partial "name" }}` markers). When a partial changes, every file that
  includes it is rebuilt as well.
- Each selected file goes through a pipeline: Markdown, HTML, copy, or a
  plugin pipeline. HTML output is then wrapped in the `_layout.html` files
  of its directory and every directory above it.

Around this sits the build lifecycle: clean, load plugins, pre-build hooks,
output directory, public copy, assets-copied hooks, configuration, config
hooks, partials, content, post-build hooks. It stops at the first failure.

The model is functional. The disk is a value (`FileSystem.Disk`) holding
files plus per-path faults. Directories are not stored: a path is a
directory exactly when some file lies below it, so `content/a.html` makes
`content` a directory that `os.Stat` finds. Every operation is a pure function from a disk
to a result and a new disk. The following are parameters:

- the SHA-256 sum;
- the cache encoder;
- the YAML decoder;
- the Markdown converter;
- the template engine;
- the diff merge;
- the plugins' answers;
- the JSON image of the configuration;
- the list of entries `filepath.Walk` reports.

Go's `(value, error)` pairs become `Result`. `fmt.Errorf("ctx: %w", err)`
becomes `Wrapped(ctx, err)`.

Modules, one per file:

| Module | Models |
|---|---|
| `Wrappers` | The failure-carrying datatypes |
| `ByteStrings` | `bytes.HasPrefix`, `Index`, `TrimSpace` |
| `FilePath` | `Dir`, `Base`, `Ext`, `Join` of `path/filepath` |
| `FileSystem` | The disk and walk entries |
| `Markers` | The partial-marker scanner |
| `Dag` | The dependency graph |
| `Cache` | The fingerprint cache |
| `Hash` | The fingerprint |
| `Rebuild` | `getFilesToRebuild` |
| `FrontMatter` | The front-matter splitter |
| `Templates` | The template engine interface and the parsed-template memo |
| `Layouts` | Both layout walks and `processLayouts` |
| `Content` | The content processor's `ProcessHTML`/`ProcessMarkdown` |
| `Plugins` | Plugins and the hook runners |
| `Pipelines` | The four asset pipelines |
| `Scheduler` | Routing, the walker filter, writing or merging a page, the sequential walk |
| `Sequencing` | A generic phase runner |
| `Lifecycle` | `ProcessContent` and `Build` |

## Model

| member | source | states |
|---|---|---|
| ByteStrings.Index | pkg/content/content.go:55 | `bytes.Index`: the first position where the pattern occurs, nothing before it matches; none when it occurs nowhere |
| ByteStrings.TrimSpace | pkg/content/content.go:61 | The trimmed slice is no longer than the input and neither starts nor ends with white space; all-space input trims to empty |
| ByteStrings.TrimSpacePadding | pkg/content/content.go:61 | Trimming white-space padding around a core that starts and ends with non-space gives exactly that core |
| ByteStrings.TrimSpaceIdempotent | pkg/content/content.go:61 | Trimming twice is trimming once |
| FilePath.Dir | pkg/build/build.go:389 | `filepath.Dir`: everything before the last `/`; `.` without a separator; never empty |
| FilePath.Base | pkg/build/build.go:443 | `filepath.Base` is never empty and holds no separator, unless it is `/` |
| FilePath.Ext | pkg/build/build.go:231 | `filepath.Ext`: a suffix of the path that starts with the last dot of the final element and holds no further dot or separator; empty when that element has no dot |
| FilePath.DirLowersHeight | pkg/build/build.go:390-399 | Each step up with `Dir` from a directory other than `.` and `/` strictly lowers a rank, so the upward layout walk terminates |
| FilePath.ExtOfSuffix | pkg/build/build.go:231 | A dot-suffix without further dots or separators is what `Ext` reports |
| FilePath.JoinThenDir | pkg/content/content.go:77 | `Dir(Join(d, name)) == d` for a single path element |
| FilePath.JoinThenBase | pkg/build/build.go:443 | `Base(Join(d, name)) == name` for a single path element, so a layout executes under its file name |
| FileSystem.Stat | pkg/build/build.go:392 | `os.Stat` succeeds exactly for a present file or a directory (a path with some file below it) that is not faulted; any other error it reports is the path's fault |
| FileSystem.ReadFile | pkg/dag/dag.go:78 | `os.ReadFile` gives the stored bytes exactly when the file exists; otherwise the error `Stat` reports, or an is-a-directory error for a directory |
| FileSystem.MkdirAll | pkg/build/build.go:90 | `os.MkdirAll` fails only on a faulted directory |
| FileSystem.WriteFile | pkg/content/content.go:148 | A write succeeds exactly when the path is neither faulted nor a directory, and then replaces exactly that file's bytes; over a directory it fails with an is-a-directory error |
| FileSystem.Remove | pkg/build/build.go:485 | `os.Remove` succeeds exactly on an existing file and then removes only that file; otherwise the `Stat` error, or not-empty for a directory |
| FileSystem.WalkedFiles | pkg/dag/dag.go:46-54 | The walked non-directory paths are exactly the visited entries that are not directories |
| FileSystem.FirstWalkFailure | pkg/dag/dag.go:46-57 | A walk fails exactly when some entry reports an error, and the error returned is one of those entries' |
| FileSystem.MissingRootFailsWalk | pkg/dag/dag.go:46-57 | A walk of a root that `os.Stat` cannot find fails with that `Stat` error |
| FileSystem.WalkVisitsFiles | pkg/dag/dag.go:46-54 | A successful walk of a directory lists as non-directories exactly the files below it |
| Markers.MatchAt | pkg/dag/dag.go:83 | A match of `{{\s*partial\s+"([^"]+)"\s*}}` at a position starts there and ends inside the text |
| Markers.MatchAtSound | pkg/dag/dag.go:83 | Every reported match is the text of a marker with the white-space runs, the non-empty quote-free name and the closing braces the pattern demands |
| Markers.MatchAtComplete | pkg/dag/dag.go:83 | Every well-formed marker in the text matches at its start, capturing its name and spanning the whole marker |
| Markers.ScanFrom | pkg/dag/dag.go:84 | `FindAllStringSubmatch`: matches in textual order, non-overlapping, each a match at its start |
| Markers.ScanCovers | pkg/dag/dag.go:84 | Leftmost scanning skips nothing: each position where a match starts lies inside some reported match |
| Markers.PartialPaths | pkg/dag/dag.go:86-89 | One `Join(partialsDir, name)` per match, in order |
| Markers.Dependencies | pkg/dag/dag.go:83-91 | `getDependencies` after the read: one `partialsDir/name` per marker, in textual order, duplicates kept |
| Markers.SingleMarker | pkg/dag/dag.go:83-91 | A file that is exactly one well-formed marker depends on exactly that one partial |
| Dag.NewGraph | pkg/dag/dag.go:24-28 | The new graph is empty and well-formed |
| Dag.AddNode | pkg/dag/dag.go:31-35 | Stores a fresh dependency-free node under the path, replacing any node there; every other node is unchanged; insertion order keeps its prefix |
| Dag.AddEdge | pkg/dag/dag.go:38-40 | Appends exactly one dependency at the end of `from`'s list; the earlier dependencies and all other nodes are unchanged |
| Dag.Link | pkg/dag/dag.go:65-70 | A dependency reuses an existing partial node or adds a fresh one, then the edge is appended; no other node changes |
| Dag.LinkAll | pkg/dag/dag.go:65-70 | After linking a file's dependencies, the nodes are the old ones plus the dependencies |
| Dag.LinkAllAppends | pkg/dag/dag.go:65-70 | The file's dependency list grows by exactly the scanned list, in order |
| Dag.LinkAllKeeps | pkg/dag/dag.go:66-69 | A partial that is already a node is reused, not replaced: every other node keeps its edges |
| Dag.LinkAllFresh | pkg/dag/dag.go:66-68 | Partial nodes created while linking have no dependencies |
| Dag.Referenced | pkg/dag/dag.go:65-68 | The partials some readable file references |
| Dag.LinkFrom | pkg/dag/dag.go:59-71 | The linking loop succeeds exactly when every file reads; it otherwise fails with the first failing file's error; on success the nodes are the files plus the referenced partials |
| Dag.LinkFromKeeps | pkg/dag/dag.go:59-71 | Nodes present before linking that are not scanned keep their node |
| Dag.LinkFromFresh | pkg/dag/dag.go:66-68 | Every partial node created while linking has no dependencies |
| Dag.LinkFromDeps | pkg/dag/dag.go:59-71 | Each scanned file's dependencies grow by exactly what the scan reported for it |
| Dag.GetDependencies | pkg/dag/dag.go:77-92 | The read error of the file, or the marker dependencies of its bytes |
| Dag.AddAll | pkg/dag/dag.go:46-54 | The walk phase makes every walked file a dependency-free node and keeps the other nodes |
| Dag.Build | pkg/dag/dag.go:44-73 | The two phases succeed exactly when every walked file scans; on failure the error is some file's scan error |
| Dag.BuildLinksFiles | pkg/dag/dag.go:59-71 | Every walked file is a node whose dependencies are exactly its scan result |
| Dag.BuildPartialsUnscanned | pkg/dag/dag.go:59-71 | Every other node is a dependency-free partial that some walked file includes |
| Dag.BuildGraph | pkg/dag/dag.go:43-74 | A walk error or a read error aborts with that error and no graph; otherwise the graph is well-formed |
| Dag.WalkedFilesLinked | pkg/dag/dag.go:46-71 | After `BuildGraph` every walked file is a node, and its dependencies are the partials its markers name, in order |
| Dag.PartialNodesReferenced | pkg/dag/dag.go:59-71 | After `BuildGraph` every non-walked node is a partial some walked file includes, with no dependencies of its own |
| Dag.BuildGraphMissingRoot | pkg/dag/dag.go:43-57 | Over the walk of a missing root, `BuildGraph` fails with the root's `Stat` error |
| Dag.BuildGraphCoversDir | pkg/dag/dag.go:43-71 | Over the walk of a directory, a built graph has a node for every file below it, linked to the partials its markers name |
| Dag.EdgesTo | pkg/dag/dag.go:98-102 | One node's contribution: itself once per edge to `x` |
| Dag.DependentsAmong | pkg/dag/dag.go:97-103 | Each listed node appears once per edge to `x` |
| Dag.GetDependents | pkg/dag/dag.go:95-105 | Exactly the nodes whose dependency list names `x`, each once per such edge; no transitive edges |
| Cache.Get | pkg/cache/cache.go:83-87 | The stored fingerprint, or "" for a path never set or loaded |
| Cache.Set | pkg/cache/cache.go:90-94 | The key set only grows, by the path set |
| Cache.SetThenGet | pkg/cache/cache.go:83-94 | After `Set(p, h)`, `Get(p)` is `h` and `Get` of every other path is unchanged |
| Cache.SetKeepsEntries | pkg/cache/cache.go:90-94 | No entry is removed or, apart from `p`, changed: stale entries persist |
| Cache.Load | pkg/cache/cache.go:41-65 | A missing or zero-length file is success with the store untouched; another open error is returned; otherwise decoded entries merge into the store, or the decode error is returned |
| Cache.New | pkg/cache/cache.go:18-38 | The cache is for the given path; an existing file leaves the disk untouched |
| Cache.NewOnMissingFile | pkg/cache/cache.go:24-37 | On a missing file `New` succeeds, creates the file empty and yields an empty store |
| Cache.Save | pkg/cache/cache.go:68-80 | Succeeds exactly when the path is neither faulted nor a directory, and stores exactly the encoded map |
| Cache.SaveThenLoad | pkg/cache/cache.go:41-80 | With a faithful codec, `Load` into a fresh cache after `Save` restores the same mapping |
| Cache.SaveThenNew | pkg/cache/cache.go:18-80 | The next build's `New` over the saved file opens the same cache and changes nothing on disk |
| Hash.DigitValue | pkg/hash/hash.go:23 | Reads one lower-case hex digit back to its value |
| Hash.HexEncode | pkg/hash/hash.go:23 | `hex.EncodeToString` writes two characters per byte |
| Hash.HexRoundTrip | pkg/hash/hash.go:23 | Decoding the hex text gives back the bytes |
| Hash.HexInjective | pkg/hash/hash.go:23 | Different sums give different fingerprints |
| Hash.Fingerprint | pkg/hash/hash.go:11-24 | `hash.New` fails exactly when the file cannot be read, with the read error; otherwise it is the hex image of the file's sum |
| Hash.FingerprintNonEmpty | pkg/hash/hash.go:18-23 | A SHA-256 fingerprint has 64 characters, so it never equals the "" of a cache miss |
| Rebuild.Lookup | pkg/build/build.go:466 | The cached fingerprint, "" on a miss |
| Rebuild.MarksOf | pkg/build/build.go:467-473 | A changed node marks itself and, when it is a partial, exactly its direct dependents |
| Rebuild.SelectFrom | pkg/build/build.go:457-476 | The loop fails exactly when some node's fingerprint fails other than by absence, with that error |
| Rebuild.SelectFromMarks | pkg/build/build.go:457-476 | The loop's marks are exactly the nodes marked by a change against the cache as it was before the loop |
| Rebuild.SelectFromStore | pkg/build/build.go:457-476 | After the loop each readable node's entry is its fingerprint; every other entry is as before |
| Rebuild.Select | pkg/build/build.go:454-479 | Selection fails exactly when some node's fingerprint fails other than by absence |
| Rebuild.KeysCoverNodes | pkg/build/build.go:457-464 | Judging the graph's key list judges every node |
| Rebuild.SelectMarks | pkg/build/build.go:466-474 | A node is marked iff its fingerprint differs from the cached one, or it directly includes a changed partial; nothing transitive |
| Rebuild.SelectStore | pkg/build/build.go:457-476 | Every node whose file exists gets its current fingerprint cached; missing files and other paths keep their entries |
| Rebuild.ColdCacheMarksAll | pkg/build/build.go:466-467 | With an empty cache and non-empty fingerprints every existing node is marked |
| Rebuild.SelectIdempotent | pkg/build/build.go:454-479 | Selecting again over the updated cache with the same fingerprints marks nothing and leaves the cache unchanged |
| Rebuild.PartialFansOut | pkg/build/build.go:469-473 | If only one partial changed, the marks are exactly it and the nodes that include it directly |
| Rebuild.GetFilesToRebuild | pkg/build/build.go:454-479 | `getFilesToRebuild` fails exactly when some node's hash fails other than by absence; the cache keeps its path |
| Rebuild.ColdCacheRebuildsAll | pkg/build/build.go:454-479 | With an empty cache every node whose file exists is rebuilt |
| Rebuild.SecondRunRebuildsNothing | pkg/build/build.go:454-479 | With no file changed, a second run against the updated cache rebuilds nothing |
| FrontMatter.Split | pkg/content/content.go:50-66 | Without a leading `---`, or without a second one after byte 3, the body is the input and there is no metadata |
| FrontMatter.SplitDelimited | pkg/content/content.go:54-62 | With both delimiters the YAML is exactly `content[3:3+end]` and the body is the trimmed rest after the closing `---`; a decode error returns neither |
| FrontMatter.ClosingDelimiter | pkg/content/content.go:55 | The first `---` after YAML holding none is the one right behind it |
| FrontMatter.SplitFramed | pkg/content/content.go:54-62 | A document framed by `---` lines splits into the YAML's decoding and the trimmed rest |
| FrontMatter.SplitCompose | pkg/content/content.go:50-66 | Composing `---`, YAML, `---` and a space-padded body, then splitting, gives back the YAML's decoding and that body |
| Templates.JoinComma | pkg/content/content.go:221 | `strings.Join(l, ",")` begins with the first element, followed by a comma when there are more |
| Templates.SplitComma | pkg/content/content.go:221 | Splitting at commas gives comma-free pieces, never none |
| Templates.SplitJoin | pkg/content/content.go:221 | Splitting the memo key of comma-free layout paths gives the list back |
| Templates.KeyInjective | pkg/content/content.go:221-223 | Two non-empty comma-free layout lists share a memo key only if equal |
| Templates.ParseLayouts | pkg/content/content.go:226-232 | A memo miss clones the partials and parses every layout file into the clone; a clone error is returned |
| Templates.GetTemplate | pkg/content/content.go:220-235 | A hit returns the stored set with the memo unchanged; a miss parses, and stores the set only on success |
| Templates.GetTemplateSound | pkg/content/content.go:220-235 | With a sound memo, `GetTemplate` returns what parsing would, hit or miss, and the memo stays sound |
| Templates.GetTemplateTwice | pkg/content/content.go:222-224 | A second request for the same layouts returns the stored set |
| Layouts.Ancestors | pkg/build/build.go:389-399 | The visited directories start at `Dir(path)` and end at a stop directory (`content`, `.`, `/`), each strictly higher than the next |
| Layouts.LayoutDirs | pkg/build/build.go:390-399 | Exactly the visited directories holding `_layout.html`, innermost first |
| Layouts.LayoutPaths | pkg/build/build.go:391-393 | The layout file of each directory |
| Layouts.LayoutPathNotDefault | pkg/build/build.go:400-403 | A layout path is never the `"default"` sentinel |
| Layouts.Reverse | pkg/content/content.go:87-89 | The in-place swap loop reverses the list |
| Layouts.ReverseReverse | pkg/content/content.go:87-89 | Reversing twice is the identity |
| Layouts.BuildLayouts | pkg/build/build.go:385-404 | `getLayouts` is never empty; it is `["default"]` iff no directory from `Dir(path)` to the stop holds a layout, and otherwise holds exactly the existing layout files |
| Layouts.BuildLayoutsInnermostFirst | pkg/build/build.go:385-404 | The k-th entry is the layout of the k-th directory upward that has one |
| Layouts.Outermost | pkg/content/content.go:74-89 | A memo miss finds as many layouts as there are layout directories |
| Layouts.ContentLayouts | pkg/content/content.go:68-92 | A remembered directory returns its stored list without looking at the disk; a miss walks, reverses and stores the list |
| Layouts.ContentLayoutsSound | pkg/content/content.go:68-92 | With a sound memo the result is the outermost-first list on disk, and the memo stays sound |
| Layouts.ContentLayoutsRemembered | pkg/content/content.go:69-72 | A later call for any file of the same directory returns the first answer, even if the disk changed |
| Layouts.VariantsAgree | pkg/content/content.go:74-89 | The content processor's list is empty iff the build driver falls back to `"default"`; otherwise it is the driver's list reversed |
| Layouts.RenderLayout | pkg/build/build.go:411-447 | A clone error aborts; the default layout is parsed from the built-in text into the clone and its root template executed, a layout file is parsed with `ParseFiles` and executed under its base name; both with `Site`, `Page`, `Content` data, and a parse error returned as it is |
| Layouts.ProcessLayouts | pkg/build/build.go:407-451 | No layouts: the content unchanged; otherwise the first layout's render error or clone error aborts with no output |
| Layouts.ProcessLayoutsAppend | pkg/build/build.go:410-448 | Each layout's output becomes the next layout's `Content`: applying a list is applying its first part and feeding the result to the rest |
| Layouts.ProcessLayoutsNests | pkg/build/build.go:407-451 | When each layout renders content between an opening and a closing part, the result nests the layouts: the first layout directly around the page, the last on the outside |
| Layouts.ProcessOneLayout | pkg/build/build.go:410-448 | One layout is one render |
| Content.Render | pkg/content/content.go:101-141 | No layouts: the page is the body; otherwise the template set is looked up or parsed and only the template named `Base(layouts[0])` is executed with the page data |
| Content.RenderSound | pkg/content/content.go:101-141 | With sound memos, rendering equals a fresh walk and parse of the layouts, and the memos stay sound |
| Content.WritePage | pkg/content/content.go:143-148 | The write fails exactly on a faulted output directory (its directory-creation error is ignored, but the write then finds no directory), a faulted output or a directory in its place, and then leaves the disk unchanged; otherwise it stores the page there |
| Content.FaultedDirFailsPage | pkg/content/content.go:143-148 | A page under a faulted `dist` is not written and the failure is reported |
| Content.ProcessHtml | pkg/content/content.go:94-149 | An open error is returned unchanged with the memos untouched; a file is rendered (layout or template error returned with the disk untouched) and written at `dist + path[len("content"):]`; a directory is opened, both lookups are remembered, and it fails with the template error if that lookup fails, otherwise with the read error |
| Content.HtmlWithoutLayouts | pkg/content/content.go:135-148 | Without layouts, an HTML page is copied unchanged to its mirrored path |
| Content.MarkdownOutputOf | pkg/content/content.go:213 | `content/<rest>.md` is written at `dist/<rest>.html` |
| Content.ProcessMarkdown | pkg/content/content.go:151-218 | Open and front-matter errors returned unchanged; success means the file read, split and converted, and the rendered page was written at the `.html` output path |
| Content.MarkdownWithoutLayouts | pkg/content/content.go:207-217 | Without layouts, the output is the converted body alone; the front matter does not reach it |
| Plugins.RunHooks | pkg/build/build.go:50-59 | The hooks run in plugin order and stop at the first failure, returning its error wrapped with the hook's context; success iff every hook succeeds |
| Plugins.RunHooksAppend | pkg/build/build.go:52-57 | Running two groups of plugins is running the first and, only if all succeeded, the second |
| Plugins.RunConfigHooks | pkg/build/build.go:62-73 | No plugins: the configuration as given. A failure of the first plugin is returned wrapped, with no configuration. Every error carries the config-hook context |
| Plugins.RunConfigHooksAppend | pkg/build/build.go:64-71 | Each plugin gets the configuration the previous one returned |
| Plugins.ConfigHooksIdentity | pkg/build/build.go:62-73 | Hooks that return their input leave the configuration as loaded |
| Pipelines.Name | pkg/pipelines/html.go:19-21 | `html` and `copy` for the built-in pipelines, the registered name for a plugin pipeline; the Markdown pipeline declares none |
| Pipelines.MirrorOfContentPath | pkg/pipelines/copy.go:30 | `content/<rest>` is mirrored at `dist/<rest>` |
| Pipelines.HtmlPath | pkg/pipelines/markdown.go:47 | The rename keeps everything before the last three characters and is two longer |
| Pipelines.HtmlPathRename | pkg/pipelines/markdown.go:47 | A `.md` path becomes the same path with extension `.html` |
| Pipelines.Emit | pkg/pipelines/html.go:37-49 | Directory or file creation failure (a fault, or a directory where the file goes) returns no asset and writes nothing; otherwise exactly the output file is written |
| Pipelines.Convert | pkg/pipelines/markdown.go:29-43 | A read error is returned; success means the front matter split and the body alone converted |
| Pipelines.ProcessMarkdown | pkg/pipelines/markdown.go:24-62 | A non-`.md` asset comes back unchanged; a read, front-matter or conversion error gives no asset; success renames to `.html`, sets the parsed metadata and the converted content, and writes it mirrored |
| Pipelines.MarkdownFrontMatter | pkg/pipelines/markdown.go:35-47 | A document with front matter comes out renamed, with the decoded front matter as metadata and the conversion of the body alone as content |
| Pipelines.ProcessHtml | pkg/pipelines/html.go:24-50 | A non-`.html` asset comes back unchanged; a read error gives no asset; success keeps the path and content and writes exactly the read bytes mirrored |
| Pipelines.ProcessCopy | pkg/pipelines/copy.go:24-43 | `.md` and `.html` come back unchanged. Other assets: no asset iff the directory or the file cannot be created (a fault, or a directory where the file goes). Otherwise the same asset is returned with its content stream drained, and the content is copied byte for byte to the mirrored path; a content read error is returned alongside, leaving the file empty |
| Pipelines.ProcessGrpc | pkg/pipelines/grpc.go:30-49 | The request carries the path, all content bytes and the pipeline's name; the result is the reply's path and content with no metadata; errors give no asset; nothing is written |
| Pipelines.Process | pkg/pipelines/pipelines.go:14-17 | A success returns an asset; a built-in pipeline keeps the path, except the Markdown rename |
| Pipelines.BuiltinsPassOver | pkg/pipelines/markdown.go:25-27 | Each built-in pipeline returns an asset outside its extensions unchanged and writes nothing |
| Scheduler.Adapters | pkg/build/build.go:152-154 | One plugin adapter per declared pipeline, in declaration order, named after it |
| Scheduler.PluginPipelines | pkg/build/build.go:146-155 | A registration failure is returned wrapped as "error registering pipelines" |
| Scheduler.PluginPipelinesOk | pkg/build/build.go:147-151 | The plugin adapters are built exactly when every plugin registers its pipelines without error |
| Scheduler.PluginPipelinesDeclared | pkg/build/build.go:147-154 | Every adapter belongs to a loaded plugin and names a pipeline that plugin declares |
| Scheduler.PluginPipelinesAppend | pkg/build/build.go:147-155 | The adapters of two groups of plugins are the first group's followed by the second's |
| Scheduler.PipelineList | pkg/build/build.go:141-155 | The list is markdown, html, copy, then the plugin adapters in plugin order, or the registration error |
| Scheduler.PluginRoute | pkg/build/build.go:238-269 | The first plugin pipeline whose plugin declares a pipeline of its name listing the extension, or none, or the wrapped error of asking a plugin again |
| Scheduler.PluginRouteTotal | pkg/build/build.go:247-251 | When every plugin registers without error, the search does not fail |
| Scheduler.Route | pkg/build/build.go:231-275 | `.md` goes to pipeline 0 and `.html` to 1 whatever plugins claim; other extensions go to the first claiming plugin pipeline (index 3 or more), else to copy (2) |
| Scheduler.RouteOnBuiltList | pkg/build/build.go:231-275 | On the list `ProcessContent` builds, routing never fails, and an unclaimed extension goes to copy |
| Scheduler.WriteOrMerge | pkg/build/build.go:303-328 | A missing output is written whole; an existing one is replaced by the merge of old and new, or the merge error is returned; a directory in its place fails with an is-a-directory error |
| Scheduler.MergeTransparent | pkg/build/build.go:303-328 | With a merge that yields the new content, write-or-merge is a plain write |
| Scheduler.Finish | pkg/build/build.go:284-329 | A content read error is returned wrapped as "buffer read error for <path>"; a layout error wrapped as "layout error for <path>"; a path shorter than `content` fails the slice; a directory-creation error is returned as it is; otherwise the laid-out page is written or merged at `outputDir + path[len("content"):]` |
| Scheduler.Step | pkg/build/build.go:228-329 | A routing error ends the worker with that error; a pipeline error is wrapped "pipeline error for <path>" and an `.html` result is finished, both naming the worker's asset path; any other result keeps the pipeline's disk |
| Scheduler.WorkerPath | pkg/pipelines/markdown.go:29-47 | The worker's asset path differs from the walked path exactly when the Markdown pipeline converted a `.md` file, and is then its `.html` twin |
| Scheduler.StepCopies | pkg/build/build.go:272-278 | An unclaimed non-page asset is copied byte for byte to its mirrored path and nothing else changes |
| Scheduler.StepHtml | pkg/build/build.go:278-297 | An HTML page is mirrored by its pipeline and then laid out and written again; with `dist` as output directory both land on the same path |
| Scheduler.StepMarkdown | pkg/build/build.go:278-291 | A Markdown page is converted and renamed by its pipeline, then laid out under the `.html` name, which its messages carry |
| Scheduler.StepMarkdownErrorsNameHtml | pkg/build/build.go:278-295 | After a successful conversion, an output-creation failure is a pipeline error and a layout failure a layout error for the `.html` path |
| Scheduler.FinishMerges | pkg/build/build.go:310-327 | Over an existing output, the merge of old and laid-out page is written |
| Scheduler.FinishWritesFresh | pkg/build/build.go:304-309 | Where no output exists, the laid-out page is written as it is |
| Scheduler.Drive | pkg/build/build.go:338-363 | A walk that dispatches nothing leaves the disk untouched |
| Scheduler.DriveAppend | pkg/build/build.go:338-359 | Walking two stretches is walking the first and, if it succeeded, the second from where it left the disk |
| Scheduler.NothingSelectedWritesNothing | pkg/build/build.go:345-346 | Only selected files are dispatched: with nothing selected, a failure-free walk writes nothing |
| Scheduler.ProcessAll | pkg/build/build.go:193-196 | Without a `content` directory there is nothing to do; otherwise the walk |
| Lifecycle.Context | pkg/build/build.go:163-166 | An error comes back wrapped with the step's context; a value passes through |
| Lifecycle.SelectChanged | pkg/build/build.go:162-178 | Each failing step's error is returned wrapped with its context: "error creating cache", "error building dependency graph", "error getting files to rebuild"; success means the cache opened, the graph built and the selection made over it, with the cache at `outputDir/.cache` |
| Lifecycle.MissingContentFails | pkg/build/build.go:168-172 | Without a `content` directory the build stops at the graph, with the `Stat` error wrapped as "error building dependency graph" |
| Lifecycle.ProcessSelected | pkg/build/build.go:180-187 | A processing error is returned as it is and the cache is not saved; after processing, the phase succeeds iff the save does, a save error wrapped as "error saving cache"; on success the saved file holds the selection's store |
| Lifecycle.ProcessContent | pkg/build/build.go:132-190 | A registration error or a selection error is returned before anything is processed |
| Lifecycle.NextBuildOpensSavedCache | pkg/build/build.go:184-187 | The next build opens exactly the cache this one saved |
| Lifecycle.ColdStartSelectsAll | pkg/build/build.go:162-178 | Without a cache file every existing node of the graph is selected |
| Lifecycle.CleanCache | pkg/build/build.go:483-490 | Without `clean` nothing changes; with it no cache file exists afterwards (and the path is absent unless it was a directory); the phase fails iff removal fails other than by absence, wrapped as "error removing cache" |
| Lifecycle.LoadPluginsPhase | pkg/build/build.go:35-47 | No `plugins` directory: no plugins; otherwise the loader's answer, its error wrapped as "error loading plugins" |
| Lifecycle.HookPhase | pkg/build/build.go:50-59 | A hook runner succeeds iff every plugin's hook does |
| Lifecycle.PublicCopyPhase | pkg/build/build.go:94-103 | No `public` directory: the disk as it is; otherwise the copy, its error wrapped |
| Lifecycle.ConfigPhase | pkg/build/build.go:524-535 | Every loaded key survives and every decoded key carries the hooked value; a marshal error is wrapped as "error marshalling config", a hook error is returned unwrapped, an unmarshal error is wrapped as "error unmarshalling config" |
| Lifecycle.ConfigPhaseIdentity | pkg/build/build.go:524-535 | Identity hooks and a faithful JSON image leave the configuration unchanged |
| Lifecycle.PartialsPhase | pkg/build/build.go:117-129 | No `partials` directory: the empty set; otherwise the loaded set, its error wrapped as "error loading partials" |
| Lifecycle.Hooked | pkg/build/build.go:498-501 | A hook phase succeeds iff the runner reported no error |
| Lifecycle.Steps | pkg/build/build.go:482-553 | The step function runs exactly the named phase on the state it is given |
| Lifecycle.RunWith | pkg/build/build.go:482-553 | Phases start in the fixed order and none after a failure; a completed run ran every phase; a failure is that of the last phase started, from the state before it |
| Lifecycle.ContentOf | pkg/build/build.go:543-545 | The content phase is `ProcessContent` |
| Lifecycle.Build | pkg/build/build.go:482-553 | A build without error ran every phase in order |
| Lifecycle.PostBuildIsLast | pkg/build/build.go:546-550 | The post-build hooks are the last phase |
| Lifecycle.PostBuildAfterContent | pkg/build/build.go:482-553 | Post-build hooks run only if every earlier phase succeeded, content included; the config hooks come before content |
| Lifecycle.CleanBuildForgetsCache | pkg/build/build.go:483-490 | A clean build that gets past its first phase leaves no cache file (and, unless a directory stood there, nothing at that path) |
| Sequencing.Fold | pkg/build/build.go:482-553 | Phases run in order until the first failure; the reported error is the failing phase's |
| Sequencing.FoldAppend | pkg/build/build.go:482-553 | Running two stretches is running the first and, only if it completed, the second from its final state |
| Sequencing.FoldPrefix | pkg/build/build.go:482-553 | A phase starts only after every earlier phase completed, from the state they left |

## Left out

- Goroutines, channels and cancellation in `ProcessContentWithProcessor`. The workers and the walker run sequentially here, one file at a time in walk order. With several workers, which error wins and how much was written before cancellation are not modelled.
- `diff.Merge` (`pkg/diff/diff.go`) is a parameter; its patch semantics are not visible.
- The SHA-256 sum, gob encoding, goldmark, yaml.v3, `html/template` and JSON marshalling are parameters. Only their shapes are relied upon: a 32-byte sum, and a codec that reads back what it writes.
- Plugin loading and RPC (`pkg/plugins`), the dev server, extensions, init, the CLI and the logger are out of scope.
- `LoadPlugins`, `LoadConfiguration`, `LoadPartials` and `util.CopyDirectory` are given as their results (`Lifecycle.Env`). Only the directory checks around them are modelled.
- `bytes.TrimSpace` trims ASCII white space only; Unicode spaces are not modelled.
- Strings are byte strings, as in Go: a character of a path stands for one byte, with no UTF-8 decoding (`Markers.ToText`). That is why a partial name scanned from a file spells the disk key of the partial.
- Go's map iteration order is random. The graph keeps insertion order instead, and the lemmas about selection do not depend on it.
- `BuildGraph` ranges over `graph.Nodes` while inserting partial nodes. Go may or may not visit them; the model scans only the walked content files, which is one legal Go behaviour.
- A node's dependencies are stored as paths rather than `*Node` pointers. These are equivalent, because a node already referenced is never replaced while edges are added.
- The same walk of `content` feeds both the graph builder and the scheduler.
- `build.go` calls `content.New` with arguments that `content.New` in `pkg/content/content.go` does not take. That `New` never fails, so the "error creating content processor" branch is not modelled.
- Empty directories are not represented: a directory exists while some file lies below it, and removing its last file removes it.
- `os.MkdirAll` over an existing file does not fail here; only a fault on the directory makes it fail.
- A fault on a directory does not reach the paths below it: only an operation that creates the directory first (writing a page, a pipeline's output or a laid-out page) sees it. Writing the cache file under a faulted output directory succeeds here.
- Content.WritePage: after a failed directory creation, the error returned is the directory's fault, standing for the error `os.WriteFile` would report.
- `Env.walk` is a parameter. `FileSystem.WalkOf` ties a walk to the disk (the root first, every file below it visited, errors as `os.Stat` reports them) for the lemmas that need it; it leaves the walk order open. The scheduler's guard against a path shorter than `content` is reachable only with a walk that is not a walk of `content`.
- Slice expressions that would panic in Go (`path[len("content"):]`) are preconditions or the `SliceFailure` error.
- `filepath.Join` is modelled for a clean first element; `Clean` is applied only to the leading separators of the second.
- Write errors after a successful `os.Create` are not modelled. A failed read in the copy pipeline leaves the created file empty.
- A plugin's `RegisterPipelines` answer is a constant, the same on every call.
- `Graph.String` and the debug logging are not modelled.
- `json.Unmarshal` into the existing configuration map merges: keys that the hooks drop survive. The model does this too.
- Lifecycle.ProcessContent: its contract states only the error paths. The success path is stated by `Lifecycle.ProcessSelected`, `Lifecycle.SelectChanged` and the lemmas about them.
- Lifecycle.Build: its contract states only that an error-free build ran every phase. The ordering facts are stated by `Lifecycle.RunWith` and `Lifecycle.PostBuildAfterContent`.
- Rebuild.GetFilesToRebuild: its contract states only when it fails. What it marks and caches is stated by `Rebuild.SelectMarks` and `Rebuild.SelectStore`, of which it is the path instance.
- Scheduler.Step: its contract states how each outcome of the pipeline is handled. What the disk holds afterwards is stated for each pipeline by `Scheduler.StepCopies`, `Scheduler.StepHtml` and `Scheduler.StepMarkdown`.
- Scheduler.Drive: its contract states only that nothing dispatched means nothing written. Sequencing is stated by `Scheduler.DriveAppend`.

=== FILE: bytestrings.dfy ===
/** The byte-slice helpers of Go's `bytes` package that the front-matter
    splitter relies on: `HasPrefix`, `Index` and `TrimSpace`. */
module ByteStrings {
  import opened Wrappers

  newtype byte = x: int | 0 <= x < 256

  type Bytes = seq<byte>

  /** ASCII white space as `bytes.TrimSpace` sees it: tab, newline, vertical
      tab, form feed, carriage return and space. */
  predicate IsSpace(b: byte) {
    b == 9 || b == 10 || b == 11 || b == 12 || b == 13 || b == 32
  }

  predicate AllSpace(s: Bytes) {
    forall k :: 0 <= k < |s| ==> IsSpace(s[k])
  }

  predicate HasPrefix(s: Bytes, prefix: Bytes) {
    |prefix| <= |s| && s[..|prefix|] == prefix
  }

  /** `pat` occurs in `s` starting at position `k`. */
  predicate OccursAt(s: Bytes, pat: Bytes, k: int) {
    0 <= k && k + |pat| <= |s| && s[k..k + |pat|] == pat
  }

  function IndexFrom(s: Bytes, pat: Bytes, from: nat): (r: Option<nat>)
    decreases |s| - from
    ensures r.Some? ==> from <= r.value && OccursAt(s, pat, r.value)
    ensures r.Some? ==> forall k :: from <= k < r.value ==> !OccursAt(s, pat, k)
    ensures r.None? ==> forall k :: from <= k ==> !OccursAt(s, pat, k)
  {
    if from + |pat| > |s| then None
    else if s[from..from + |pat|] == pat then Some(from)
    else IndexFrom(s, pat, from + 1)
  }

  /** `bytes.Index`: the first occurrence of `pat` in `s`, `None` standing for Go's -1. */
  function Index(s: Bytes, pat: Bytes): (r: Option<nat>)
    ensures r.Some? ==> OccursAt(s, pat, r.value)
    ensures r.Some? ==> forall k :: 0 <= k < r.value ==> !OccursAt(s, pat, k)
    ensures r.None? ==> forall k :: 0 <= k ==> !OccursAt(s, pat, k)
  {
    IndexFrom(s, pat, 0)
  }

  /** The bounds `s[lo..hi]` that `TrimSpace` keeps. */
  datatype Span = Span(lo: nat, hi: nat)

  function SkipLeading(s: Bytes, i: nat): (r: nat)
    requires i <= |s|
    decreases |s| - i
    ensures i <= r <= |s|
    ensures forall k :: i <= k < r ==> IsSpace(s[k])
    ensures r == |s| || !IsSpace(s[r])
  {
    if i == |s| || !IsSpace(s[i]) then i else SkipLeading(s, i + 1)
  }

  function SkipTrailing(s: Bytes, lo: nat, j: nat): (r: nat)
    requires lo <= j <= |s|
    decreases j
    ensures lo <= r <= j
    ensures forall k :: r <= k < j ==> IsSpace(s[k])
    ensures r == lo || !IsSpace(s[r - 1])
  {
    if j == lo || !IsSpace(s[j - 1]) then j else SkipTrailing(s, lo, j - 1)
  }

  /** Everything before `lo` and from `hi` on is white space, and the kept
      part neither starts nor ends with white space. */
  function TrimSpan(s: Bytes): (sp: Span)
    ensures sp.lo <= sp.hi <= |s|
    ensures forall k :: 0 <= k < sp.lo ==> IsSpace(s[k])
    ensures forall k :: sp.hi <= k < |s| ==> IsSpace(s[k])
    ensures sp.lo < sp.hi ==> !IsSpace(s[sp.lo]) && !IsSpace(s[sp.hi - 1])
  {
    var lo := SkipLeading(s, 0);
    Span(lo, SkipTrailing(s, lo, |s|))
  }

  /** `bytes.TrimSpace` restricted to ASCII white space. */
  function TrimSpace(s: Bytes): (r: Bytes)
    ensures |r| <= |s|
    ensures r != [] ==> !IsSpace(r[0]) && !IsSpace(r[|r| - 1])
    ensures AllSpace(s) ==> r == []
  {
    var sp := TrimSpan(s);
    s[sp.lo..sp.hi]
  }

  /** Trimming removes exactly the white-space padding around a trimmed core. */
  lemma TrimSpacePadding(pre: Bytes, core: Bytes, post: Bytes)
    requires AllSpace(pre) && AllSpace(post)
    requires core != [] ==> !IsSpace(core[0]) && !IsSpace(core[|core| - 1])
    ensures TrimSpace(pre + core + post) == core
  {
    var s := pre + core + post;
    var sp := TrimSpan(s);
    if core == [] {
      assert AllSpace(s) by {
        forall k | 0 <= k < |s| ensures IsSpace(s[k]) {
          if k < |pre| { assert s[k] == pre[k]; } else { assert s[k] == post[k - |pre|]; }
        }
      }
    } else {
      assert s[|pre|] == core[0];
      assert s[|pre| + |core| - 1] == core[|core| - 1];
      assert forall k :: 0 <= k < |pre| ==> s[k] == pre[k];
      assert forall k :: |pre| + |core| <= k < |s| ==> s[k] == post[k - |pre| - |core|];
      assert sp.lo == |pre|;
      assert sp.hi == |pre| + |core|;
      assert s[sp.lo..sp.hi] == core;
    }
  }

  /** Trimming an already trimmed slice changes nothing. */
  lemma TrimSpaceIdempotent(s: Bytes)
    ensures TrimSpace(TrimSpace(s)) == TrimSpace(s)
  {
    var t := TrimSpace(s);
    TrimSpacePadding([], t, []);
    assert [] + t + [] == t;
  }
}

=== FILE: cache.dfy ===
/** The fingerprint cache: a map from path to content digest, persisted in
    one file through an encoder/decoder pair that stands for `encoding/gob`.
    Reading a path never stored yields the empty string, which no digest
    equals, so a missing entry always counts as a change. */
module Cache {
  import opened Wrappers
  import opened ByteStrings
  import opened FileSystem
  import FilePath

  type Store = map<string, string>

  datatype Cache = Cache(path: string, store: Store)

  /** The persisted image: `decode` reads back what `encode` wrote. */
  datatype Codec = Codec(encode: Store -> Bytes, decode: Bytes -> Result<Store>)

  /** gob writes a type header before any map, so an encoded store is never
      the empty file, and decoding an encoded store gives it back. */
  ghost predicate Faithful(codec: Codec) {
    forall m :: codec.decode(codec.encode(m)) == Ok(m) && codec.encode(m) != []
  }

  /** `Get`: the stored digest, or "" for a path never set or loaded. */
  function Get(c: Cache, p: string): (r: string)
    ensures p in c.store ==> r == c.store[p]
    ensures p !in c.store ==> r == ""
  {
    if p in c.store then c.store[p] else ""
  }

  /** `Set`: store `h` under `p`. */
  function Set(c: Cache, p: string, h: string): (r: Cache)
    ensures r.path == c.path
    ensures r.store.Keys == c.store.Keys + {p}
  {
    c.(store := c.store[p := h])
  }

  /** Reading back after `Set` sees the new digest under `p` and nothing
      else changed. */
  lemma SetThenGet(c: Cache, p: string, h: string, q: string)
    ensures Get(Set(c, p, h), q) == if q == p then h else Get(c, q)
  {
  }

  /** No operation removes an entry: stale paths persist. */
  lemma SetKeepsEntries(c: Cache, p: string, h: string)
    ensures forall q :: q in c.store ==> q in Set(c, p, h).store
    ensures forall q :: q in c.store && q != p ==> Set(c, p, h).store[q] == c.store[q]
  {
  }

  /** `Load`: a missing or empty file is a cold start and leaves the store as
      it is; otherwise the decoded entries are merged into the store, as gob
      does when decoding into a non-nil map. */
  function Load(c: Cache, disk: Disk, codec: Codec): (r: Result<Cache>)
    ensures r.Ok? ==> r.value.path == c.path
    ensures ReadFile(disk, c.path).Err? ==>
      (r.Ok? <==> IsNotExist(ReadFile(disk, c.path).error)) && (r.Ok? ==> r.value == c)
    ensures ReadFile(disk, c.path) == Ok([]) ==> r == Ok(c)
    ensures ReadFile(disk, c.path).Ok? && ReadFile(disk, c.path).value != [] ==>
      match codec.decode(disk.files[c.path])
      case Ok(m) => r == Ok(c.(store := c.store + m))
      case Err(e) => r == Err(e)
  {
    match ReadFile(disk, c.path)
    case Err(e) => if IsNotExist(e) then Ok(c) else Err(e)
    case Ok(data) =>
      if |data| == 0 then Ok(c)
      else
        var m :- codec.decode(data);
        Ok(c.(store := c.store + m))
  }

  /** The result of `New`: the cache and the disk after the file was created. */
  datatype Opened = Opened(cache: Cache, disk: Disk)

  /** `New`: create the file (and its directory) when it does not exist, then
      load it into an empty store. */
  function New(path: string, disk: Disk, codec: Codec): (r: Result<Opened>)
    ensures r.Ok? ==> r.value.cache.path == path
    ensures r.Ok? && Exists(disk, path) ==> r.value.disk == disk
  {
    var c := Cache(path, map[]);
    var created :- if Stat(disk, path).Some? && IsNotExist(Stat(disk, path).value) then
      match MkdirAll(disk, FilePath.Dir(path))
      case Some(e) => Err(e)
      case None => WriteFile(disk, path, [])
    else Ok(disk);
    var loaded :- Load(c, created, codec);
    Ok(Opened(loaded, created))
  }

  /** `New` on a missing file creates it empty and yields an empty store. */
  lemma NewOnMissingFile(path: string, disk: Disk, codec: Codec)
    requires path !in disk.files && !IsDir(disk, path) && path !in disk.faults && FilePath.Dir(path) !in disk.faults
    ensures New(path, disk, codec).Ok?
    ensures New(path, disk, codec).value.cache.store == map[]
    ensures New(path, disk, codec).value.disk.files == disk.files[path := []]
  {
  }

  /** `Save`: truncate the file and write the encoded store. */
  function Save(c: Cache, disk: Disk, codec: Codec): (r: Result<Disk>)
    ensures r.Ok? <==> c.path !in disk.faults && !IsDir(disk, c.path)
    ensures r.Ok? ==> r.value.files == disk.files[c.path := codec.encode(c.store)]
  {
    WriteFile(disk, c.path, codec.encode(c.store))
  }

  /** Whatever `Save` wrote, `Load` into a fresh cache restores. */
  lemma SaveThenLoad(c: Cache, disk: Disk, codec: Codec)
    requires Faithful(codec) && Save(c, disk, codec).Ok?
    ensures Load(Cache(c.path, map[]), Save(c, disk, codec).value, codec) == Ok(c)
  {
    var d := Save(c, disk, codec).value;
    assert codec.decode(codec.encode(c.store)) == Ok(c.store) && codec.encode(c.store) != [];
    assert ReadFile(d, c.path) == Ok(codec.encode(c.store));
    assert map[] + c.store == c.store;
  }

  /** The next build's `New` over the saved file opens the same cache and
      leaves the disk alone. */
  lemma SaveThenNew(c: Cache, disk: Disk, codec: Codec)
    requires Faithful(codec) && Save(c, disk, codec).Ok?
    ensures New(c.path, Save(c, disk, codec).value, codec) == Ok(Opened(c, Save(c, disk, codec).value))
  {
    SaveThenLoad(c, disk, codec);
  }
}

=== FILE: content.dfy ===
/** The content processor's page builders. A page is wrapped by executing,
    from the template set parsed from all its layouts (outermost first), the
    template named after the outermost layout file; a page without layouts
    is written as it is. Both the layout lists and the parsed sets are
    remembered across pages. */
module Content {
  import opened Wrappers
  import opened ByteStrings
  import opened FileSystem
  import opened FilePath
  import opened FrontMatter
  import Templates
  import Layouts
  import Pipelines

  /** The processor's fixed parts: the template engine, the site
      configuration (`Global`) and the converter and YAML decoder. */
  datatype Processor = Processor(engine: Templates.Engine, config: Meta, tools: Pipelines.Tools)

  /** The layout memo and the template memo. */
  datatype Memos = Memos(layouts: Layouts.LayoutMemo, templates: Templates.TemplateMemo)

  /** The memos are sound for this disk and engine. */
  ghost predicate Sound(cp: Processor, memos: Memos, disk: Disk) {
    Layouts.MemoSound(memos.layouts, disk) && Templates.MemoSound(memos.templates, cp.engine)
  }

  datatype Rendered = Rendered(result: Result<Bytes>, memos: Memos)

  /** Look up the layouts of `path`; with none, the body is the page;
      otherwise get the template set for them and execute the template named
      after the first (outermost) layout with the page data. */
  function Render(cp: Processor, memos: Memos, path: string, disk: Disk, page: Option<Meta>, body: Bytes)
    : (r: Rendered)
    ensures var found := Layouts.ContentLayouts(memos.layouts, path, disk);
      && r.memos.layouts == found.memo
      && (found.layouts == [] ==> r == Rendered(Ok(body), Memos(found.memo, memos.templates)))
      && (found.layouts != [] ==>
           var lookup := Templates.GetTemplate(memos.templates, cp.engine, found.layouts);
           && r.memos.templates == lookup.memo
           && (lookup.result.Err? ==> r.result == Err(lookup.result.error))
           && (lookup.result.Ok? ==> r.result == cp.engine.executeNamed(
                 lookup.result.value, Base(found.layouts[0]), Templates.PageData(cp.config, page, body))))
  {
    var found := Layouts.ContentLayouts(memos.layouts, path, disk);
    if found.layouts == [] then Rendered(Ok(body), Memos(found.memo, memos.templates))
    else
      var lookup := Templates.GetTemplate(memos.templates, cp.engine, found.layouts);
      var next := Memos(found.memo, lookup.memo);
      match lookup.result
      case Err(e) => Rendered(Err(e), next)
      case Ok(t) =>
        Rendered(cp.engine.executeNamed(t, Base(found.layouts[0]), Templates.PageData(cp.config, page, body)), next)
  }

  /** What rendering means without memos: the outermost-first layouts found
      on the disk, parsed afresh. */
  function FreshRender(cp: Processor, path: string, disk: Disk, page: Option<Meta>, body: Bytes)
    : (r: Result<Bytes>)
  {
    var layouts := Layouts.Outermost(disk, Dir(path));
    if layouts == [] then Ok(body)
    else
      var t :- Templates.ParseLayouts(cp.engine, layouts);
      cp.engine.executeNamed(t, Base(layouts[0]), Templates.PageData(cp.config, page, body))
  }

  /** With sound memos and comma-free layout paths, remembering changes
      nothing: rendering gives what a fresh render gives, and the memos stay
      sound. */
  lemma RenderSound(cp: Processor, memos: Memos, path: string, disk: Disk, page: Option<Meta>, body: Bytes)
    requires Sound(cp, memos, disk)
    requires Templates.AllCommaFree(Layouts.Outermost(disk, Dir(path)))
    ensures Render(cp, memos, path, disk, page, body).result == FreshRender(cp, path, disk, page, body)
    ensures Sound(cp, Render(cp, memos, path, disk, page, body).memos, disk)
  {
    Layouts.ContentLayoutsSound(memos.layouts, path, disk);
    var layouts := Layouts.Outermost(disk, Dir(path));
    if layouts != [] {
      Templates.GetTemplateSound(memos.templates, cp.engine, layouts);
    }
  }

  /** The result of building one page: the error (nil when `None`), the disk
      and the memos afterwards. */
  datatype Built = Built(err: Option<Error>, disk: Disk, memos: Memos)

  /** Write the page. The source ignores the error of creating its
      directory, but when that fails the directory is not there and the
      write that follows fails too; the directory's fault stands for the
      write's error. Otherwise the write fails on a fault of its own, or
      over a directory. */
  function WritePage(disk: Disk, out: string, page: Bytes, memos: Memos): (r: Built)
    ensures r.memos == memos
    ensures r.err.None? <==> Dir(out) !in disk.faults && out !in disk.faults && !IsDir(disk, out)
    ensures MkdirAll(disk, Dir(out)).Some? ==> r == Built(MkdirAll(disk, Dir(out)), disk, memos)
    ensures r.err.Some? ==> r.disk == disk
    ensures r.err.None? ==> r.disk.files == disk.files[out := page]
  {
    match MkdirAll(disk, Dir(out))
    case Some(e) => Built(Some(e), disk, memos)
    case None =>
      match WriteFile(disk, out, page)
      case Err(e) => Built(Some(e), disk, memos)
      case Ok(d) => Built(None, d, memos)
  }

  /** A page under a faulted output directory is not written: the build
      reports the failure and the disk keeps no new file. */
  lemma FaultedDirFailsPage(e: Error, page: Bytes, memos: Memos)
    ensures var disk := Disk(map[], map["dist" := e]);
      WritePage(disk, "dist/a.html", page, memos) == Built(Some(e), disk, memos)
  {
    var out := "dist/a.html";
    assert Dir(out) == "dist" by {
      assert out[4] == '/';
      assert forall k :: 4 < k < |out| ==> out[k] != '/';
      assert LastSlash(out) == 4;
    }
  }

  /** `ProcessHTML`: the page is the file wrapped in its layouts, or the file
      itself without layouts, written at `dist + path[len("content"):]`. The
      steps run in the source's order: open the file (which succeeds on a
      directory too), look up the layouts, look up the template set, and only
      then read the file; so a directory fails at the read, after both
      lookups have been remembered, unless the template lookup fails first. */
  function ProcessHtml(cp: Processor, memos: Memos, path: string, disk: Disk): (r: Built)
    requires |path| >= |Pipelines.ContentDir|
    ensures Stat(disk, path).Some? ==> r == Built(Some(Stat(disk, path).value), disk, memos)
    ensures ReadFile(disk, path).Ok? ==>
      var rendered := Render(cp, memos, path, disk, None, disk.files[path]);
      && r.memos == rendered.memos
      && (rendered.result.Err? ==> r.err == Some(rendered.result.error) && r.disk == disk)
      && (rendered.result.Ok? ==> r == WritePage(disk, Pipelines.MirrorPath(path), rendered.result.value, rendered.memos))
    ensures Stat(disk, path).None? && ReadFile(disk, path).Err? ==>
      var found := Layouts.ContentLayouts(memos.layouts, path, disk);
      && IsDir(disk, path)
      && r.disk == disk
      && r.memos == Render(cp, memos, path, disk, None, []).memos
      && (found.layouts != [] && Templates.GetTemplate(memos.templates, cp.engine, found.layouts).result.Err? ==>
            r.err == Some(Templates.GetTemplate(memos.templates, cp.engine, found.layouts).result.error))
      && ((found.layouts == [] || Templates.GetTemplate(memos.templates, cp.engine, found.layouts).result.Ok?) ==>
            r.err == Some(IsDirectory(path)))
  {
    match Stat(disk, path)
    case Some(e) => Built(Some(e), disk, memos)
    case None =>
      var found := Layouts.ContentLayouts(memos.layouts, path, disk);
      if found.layouts == [] then
        var next := Memos(found.memo, memos.templates);
        match ReadFile(disk, path)
        case Err(e) => Built(Some(e), disk, next)
        case Ok(file) => WritePage(disk, Pipelines.MirrorPath(path), file, next)
      else
        var lookup := Templates.GetTemplate(memos.templates, cp.engine, found.layouts);
        var next := Memos(found.memo, lookup.memo);
        match lookup.result
        case Err(e) => Built(Some(e), disk, next)
        case Ok(t) =>
          match ReadFile(disk, path)
          case Err(e) => Built(Some(e), disk, next)
          case Ok(file) =>
            match cp.engine.executeNamed(t, Base(found.layouts[0]), Templates.PageData(cp.config, None, file))
            case Err(e) => Built(Some(e), disk, next)
            case Ok(page) => WritePage(disk, Pipelines.MirrorPath(path), page, next)
  }

  /** Without any layout above it, an HTML page is copied unchanged to its
      mirrored path. */
  lemma HtmlWithoutLayouts(cp: Processor, memos: Memos, path: string, disk: Disk)
    requires |path| >= |Pipelines.ContentDir| && Exists(disk, path)
    requires Layouts.ContentLayouts(memos.layouts, path, disk).layouts == []
    requires ProcessHtml(cp, memos, path, disk).err.None?
    ensures ProcessHtml(cp, memos, path, disk).disk.files ==
      disk.files[Pipelines.MirrorPath(path) := disk.files[path]]
  {
  }

  /** `dist + path[len("content"):len(path)-3] + ".html"`. */
  function MarkdownOutput(path: string): (r: string)
    requires |path| >= |Pipelines.ContentDir| + 3
  {
    Join(Pipelines.OutputDir, path[|Pipelines.ContentDir|..|path| - 3] + ".html")
  }

  /** `content/<rest>.md` is written at `dist/<rest>.html`. */
  lemma MarkdownOutputOf(rest: string)
    requires rest != [] && rest[0] != '/'
    ensures MarkdownOutput("content/" + rest + ".md") == "dist/" + rest + ".html"
  {
    var p := "content/" + rest + ".md";
    assert p[|Pipelines.ContentDir|..|p| - 3] + ".html" == "/" + (rest + ".html");
    assert TrimLeadingSlashes("/" + (rest + ".html")) == TrimLeadingSlashes(rest + ".html");
    assert (rest + ".html")[0] == rest[0];
  }

  /** `ProcessMarkdown`: split off the front matter, convert the body, wrap
      the HTML in the layouts with the front matter as `Page`, and write it
      at the `.html` output path. */
  function ProcessMarkdown(cp: Processor, memos: Memos, path: string, disk: Disk): (r: Built)
    requires |path| >= |Pipelines.ContentDir| + 3
    ensures ReadFile(disk, path).Err? ==> r == Built(Some(ReadFile(disk, path).error), disk, memos)
    ensures ReadFile(disk, path).Ok? && Split(disk.files[path], cp.tools.yaml).Err? ==>
      r == Built(Some(Split(disk.files[path], cp.tools.yaml).error), disk, memos)
    ensures r.err.None? ==> (
      && ReadFile(disk, path).Ok?
      && Split(disk.files[path], cp.tools.yaml).Ok?
      && var parsed := Split(disk.files[path], cp.tools.yaml).value;
      && cp.tools.convert(parsed.body).Ok?
      && var rendered := Render(cp, memos, path, disk, parsed.meta, cp.tools.convert(parsed.body).value);
      && rendered.result.Ok?
      && r == WritePage(disk, MarkdownOutput(path), rendered.result.value, rendered.memos))
  {
    match ReadFile(disk, path)
    case Err(e) => Built(Some(e), disk, memos)
    case Ok(file) =>
      match Split(file, cp.tools.yaml)
      case Err(e) => Built(Some(e), disk, memos)
      case Ok(parsed) =>
        match cp.tools.convert(parsed.body)
        case Err(e) => Built(Some(e), disk, memos)
        case Ok(html) =>
          var rendered := Render(cp, memos, path, disk, parsed.meta, html);
          match rendered.result
          case Err(e) => Built(Some(e), disk, rendered.memos)
          case Ok(page) => WritePage(disk, MarkdownOutput(path), page, rendered.memos)
  }

  /** Without layouts, a Markdown page is its converted body; the front
      matter does not reach the output. */
  lemma MarkdownWithoutLayouts(cp: Processor, memos: Memos, path: string, disk: Disk)
    requires |path| >= |Pipelines.ContentDir| + 3
    requires Layouts.ContentLayouts(memos.layouts, path, disk).layouts == []
    requires ProcessMarkdown(cp, memos, path, disk).err.None?
    ensures var parsed := Split(disk.files[path], cp.tools.yaml).value;
      ProcessMarkdown(cp, memos, path, disk).disk.files ==
        disk.files[MarkdownOutput(path) := cp.tools.convert(parsed.body).value]
  {
  }
}

=== FILE: dag.dfy ===
/** The dependency graph of the content directory: one node per content file
    and per referenced partial, each with the ordered list of partials its
    file includes. Go keys `*Node` values by path in a map; here a node's
    dependencies are stored as keys, which is equivalent because a node that
    is already referenced is never replaced while edges are added. The map's
    iteration order is the insertion order kept in `keys`. The graph
    operations are generic in the key type; the build instantiates it with
    paths. */
module Dag {
  import opened Wrappers
  import opened ByteStrings
  import opened FileSystem
  import Markers

  datatype Node<P> = Node(path: P, deps: seq<P>)

  datatype Graph<P(==)> = Graph(nodes: map<P, Node<P>>, keys: seq<P>)

  /** `keys` lists every node once and each node sits under its own key. */
  ghost predicate Valid<P(!new)>(g: Graph<P>) {
    && Distinct(g.keys)
    && (forall p :: p in g.nodes <==> p in g.keys)
    && (forall p :: p in g.nodes ==> g.nodes[p].path == p)
  }

  /** The previous insertion order survives as a prefix. */
  predicate Extends<P(==)>(g: Graph<P>, h: Graph<P>) {
    |g.keys| <= |h.keys| && h.keys[..|g.keys|] == g.keys
  }

  lemma ExtendsTrans<P>(a: Graph<P>, b: Graph<P>, c: Graph<P>)
    requires Extends(a, b) && Extends(b, c)
    ensures Extends(a, c)
  {
    assert c.keys[..|a.keys|] == c.keys[..|b.keys|][..|a.keys|];
  }

  lemma AppendFirst<T>(a: seq<T>, s: seq<T>)
    requires s != []
    ensures a + [s[0]] + s[1..] == a + s
  {
    assert s == [s[0]] + s[1..];
  }

  function NewGraph<P(!new)>(): (g: Graph<P>)
    ensures Valid(g) && g.nodes == map[]
  {
    Graph(map[], [])
  }

  /** `AddNode`: a fresh node with no dependencies under `p`, replacing any
      node already stored there. */
  function AddNode<P(!new)>(g: Graph<P>, p: P): (r: Graph<P>)
    requires Valid(g)
    ensures Valid(r) && Extends(g, r)
    ensures r.nodes.Keys == g.nodes.Keys + {p}
    ensures r.nodes[p] == Node(p, [])
    ensures forall q :: q in g.nodes && q != p ==> r.nodes[q] == g.nodes[q]
  {
    var nodes := g.nodes[p := Node(p, [])];
    if p in g.nodes then
      assert nodes.Keys == g.nodes.Keys;
      Graph(nodes, g.keys)
    else
      var keys := g.keys + [p];
      assert forall q :: q in keys <==> q in g.keys || q == p;
      assert Distinct(keys) by {
        assert forall k :: 0 <= k < |g.keys| ==> keys[k] == g.keys[k] != p;
      }
      Graph(nodes, keys)
  }

  /** `AddEdge`: one more dependency at the end of `from`'s list. */
  function AddEdge<P(!new)>(g: Graph<P>, from: P, to: P): (r: Graph<P>)
    requires Valid(g) && from in g.nodes && to in g.nodes
    ensures Valid(r) && r.keys == g.keys && r.nodes.Keys == g.nodes.Keys
    ensures |r.nodes[from].deps| == |g.nodes[from].deps| + 1
    ensures r.nodes[from].deps[..|g.nodes[from].deps|] == g.nodes[from].deps
    ensures r.nodes[from].deps[|g.nodes[from].deps|] == to
    ensures forall q :: q in g.nodes && q != from ==> r.nodes[q] == g.nodes[q]
  {
    var n := g.nodes[from];
    g.(nodes := g.nodes[from := n.(deps := n.deps + [to])])
  }

  /** One dependency of `from`: the partial's node is reused when present
      and created otherwise, then the edge is added. */
  function Link<P(!new)>(g: Graph<P>, from: P, dep: P): (r: Graph<P>)
    requires Valid(g) && from in g.nodes
    ensures Valid(r) && Extends(g, r)
    ensures r.nodes.Keys == g.nodes.Keys + {dep}
    ensures r.nodes[from].deps == g.nodes[from].deps + [dep]
    ensures dep !in g.nodes ==> r.nodes[dep] == Node(dep, [])
    ensures forall q :: q in g.nodes && q != from ==> r.nodes[q] == g.nodes[q]
  {
    var g1 := if dep in g.nodes then g else AddNode(g, dep);
    AddEdge(g1, from, dep)
  }

  /** The inner loop of `BuildGraph` for one file's dependency list. */
  function LinkAll<P(!new)>(g: Graph<P>, from: P, deps: seq<P>): (r: Graph<P>)
    requires Valid(g) && from in g.nodes
    decreases |deps|
    ensures Valid(r) && Extends(g, r)
    ensures forall p :: p in r.nodes <==> p in g.nodes || p in deps
  {
    if deps == [] then g
    else
      var g1 := Link(g, from, deps[0]);
      var r := LinkAll(g1, from, deps[1..]);
      ExtendsTrans(g, g1, r);
      assert forall p :: p in deps <==> p == deps[0] || p in deps[1..];
      r
  }

  /** The file's dependency list grows by exactly `deps`, in order. */
  lemma {:induction false} LinkAllAppends<P(!new)>(g: Graph<P>, from: P, deps: seq<P>)
    requires Valid(g) && from in g.nodes
    decreases |deps|
    ensures LinkAll(g, from, deps).nodes[from].deps == g.nodes[from].deps + deps
  {
    if deps != [] {
      var g1 := Link(g, from, deps[0]);
      LinkAllAppends(g1, from, deps[1..]);
      AppendFirst(g.nodes[from].deps, deps);
    }
  }

  /** Every other node present before, a partial included earlier among
      them, is reused as it was: its own edges survive. */
  lemma {:induction false} LinkAllKeeps<P(!new)>(g: Graph<P>, from: P, deps: seq<P>)
    requires Valid(g) && from in g.nodes
    decreases |deps|
    ensures forall q :: q in g.nodes && q != from ==> LinkAll(g, from, deps).nodes[q] == g.nodes[q]
  {
    if deps != [] {
      var g1 := Link(g, from, deps[0]);
      LinkAllKeeps(g1, from, deps[1..]);
    }
  }

  /** The partial nodes `LinkAll` creates have no dependencies of their own. */
  lemma {:induction false} LinkAllFresh<P(!new)>(g: Graph<P>, from: P, deps: seq<P>)
    requires Valid(g) && from in g.nodes
    decreases |deps|
    ensures forall q :: q in LinkAll(g, from, deps).nodes && q !in g.nodes ==> LinkAll(g, from, deps).nodes[q] == Node(q, [])
  {
    if deps != [] {
      var g1 := Link(g, from, deps[0]);
      LinkAllFresh(g1, from, deps[1..]);
      LinkAllKeeps(g1, from, deps[1..]);
    }
  }

  /** The dependencies `scan` reports for the files it can read. */
  function Referenced<P(!new)>(files: seq<P>, scan: P -> Result<seq<P>>): (r: set<P>)
    ensures forall p :: p in r <==> exists k :: 0 <= k < |files| && scan(files[k]).Ok? && p in scan(files[k]).value
  {
    if files == [] then {}
    else
      var here := if scan(files[0]).Ok? then set d | d in scan(files[0]).value else {};
      var rest := Referenced(files[1..], scan);
      assert forall p :: p in here + rest <==> exists k :: 0 <= k < |files| && scan(files[k]).Ok? && p in scan(files[k]).value by {
        forall p
          ensures p in here + rest <==> exists k :: 0 <= k < |files| && scan(files[k]).Ok? && p in scan(files[k]).value
        {
          if p in rest {
            var k :| 0 <= k < |files[1..]| && scan(files[1..][k]).Ok? && p in scan(files[1..][k]).value;
            assert files[k + 1] == files[1..][k];
          }
          if exists k :: 0 < k < |files| && scan(files[k]).Ok? && p in scan(files[k]).value {
            var k :| 0 < k < |files| && scan(files[k]).Ok? && p in scan(files[k]).value;
            assert files[1..][k - 1] == files[k];
          }
        }
      }
      here + rest
  }

  /** `scan` succeeds on every file. */
  ghost predicate AllScan<P>(files: seq<P>, scan: P -> Result<seq<P>>) {
    forall k :: 0 <= k < |files| ==> scan(files[k]).Ok?
  }

  /** `e` is the error `scan` reports on the first file it fails on. */
  ghost predicate FirstScanError<P>(files: seq<P>, scan: P -> Result<seq<P>>, e: Error) {
    exists k :: 0 <= k < |files| && scan(files[k]) == Err(e) && AllScan(files[..k], scan)
  }

  lemma AllScanCons<P>(files: seq<P>, scan: P -> Result<seq<P>>)
    requires files != []
    ensures AllScan(files, scan) <==> scan(files[0]).Ok? && AllScan(files[1..], scan)
  {
    if scan(files[0]).Ok? && AllScan(files[1..], scan) {
      forall k | 0 < k < |files| ensures scan(files[k]).Ok? {
        assert files[k] == files[1..][k - 1];
      }
    }
  }

  lemma FirstScanErrorCons<P>(files: seq<P>, scan: P -> Result<seq<P>>, e: Error)
    requires files != [] && scan(files[0]).Ok? && FirstScanError(files[1..], scan, e)
    ensures FirstScanError(files, scan, e)
  {
    var tail := files[1..];
    var k :| 0 <= k < |tail| && scan(tail[k]) == Err(e) && AllScan(tail[..k], scan);
    assert files[k + 1] == tail[k];
    assert files[..k + 1][1..] == tail[..k];
    AllScanCons(files[..k + 1], scan);
  }

  /** Phase two of `BuildGraph` over the nodes present after phase one:
      each file is scanned and linked to the partials it includes; the first
      file `scan` fails on aborts with that error. */
  function LinkFrom<P(!new)>(g: Graph<P>, files: seq<P>, scan: P -> Result<seq<P>>): (r: Result<Graph<P>>)
    requires Valid(g) && forall k :: 0 <= k < |files| ==> files[k] in g.nodes
    decreases |files|
    ensures r.Ok? <==> AllScan(files, scan)
    ensures r.Err? ==> FirstScanError(files, scan, r.error)
    ensures r.Ok? ==> Valid(r.value) && Extends(g, r.value)
    ensures r.Ok? ==> forall p :: p in r.value.nodes <==> p in g.nodes || p in Referenced(files, scan)
  {
    if files == [] then Ok(g)
    else if scan(files[0]).Err? then
      assert files[..0] == [];
      Err(scan(files[0]).error)
    else
      var deps := scan(files[0]).value;
      var tail := files[1..];
      var g1 := LinkAll(g, files[0], deps);
      var r := LinkFrom(g1, tail, scan);
      AllScanCons(files, scan);
      if r.Err? then
        FirstScanErrorCons(files, scan, r.error);
        r
      else
        ExtendsTrans(g, g1, r.value);
        assert Referenced(files, scan) == (set d | d in deps) + Referenced(tail, scan);
        r
  }

  /** Nodes present before and not scanned are left as they were. */
  lemma {:induction false} LinkFromKeeps<P(!new)>(g: Graph<P>, files: seq<P>, scan: P -> Result<seq<P>>)
    requires Valid(g) && forall k :: 0 <= k < |files| ==> files[k] in g.nodes
    requires LinkFrom(g, files, scan).Ok?
    decreases |files|
    ensures forall p :: p in g.nodes && p !in files ==> LinkFrom(g, files, scan).value.nodes[p] == g.nodes[p]
  {
    if files != [] {
      var g1 := LinkAll(g, files[0], scan(files[0]).value);
      LinkAllKeeps(g, files[0], scan(files[0]).value);
      LinkFromKeeps(g1, files[1..], scan);
    }
  }

  /** Every partial node created while linking has no dependencies. */
  lemma {:induction false} LinkFromFresh<P(!new)>(g: Graph<P>, files: seq<P>, scan: P -> Result<seq<P>>)
    requires Valid(g) && forall k :: 0 <= k < |files| ==> files[k] in g.nodes
    requires LinkFrom(g, files, scan).Ok?
    decreases |files|
    ensures forall p :: p in LinkFrom(g, files, scan).value.nodes && p !in g.nodes ==>
      LinkFrom(g, files, scan).value.nodes[p] == Node(p, [])
  {
    if files != [] {
      var g1 := LinkAll(g, files[0], scan(files[0]).value);
      LinkAllFresh(g, files[0], scan(files[0]).value);
      LinkFromFresh(g1, files[1..], scan);
      LinkFromKeeps(g1, files[1..], scan);
    }
  }

  /** Scanning each file once gives it exactly the dependencies found in it,
      appended to the ones it had. */
  lemma {:induction false} LinkFromDeps<P(!new)>(g: Graph<P>, files: seq<P>, scan: P -> Result<seq<P>>)
    requires Valid(g) && forall k :: 0 <= k < |files| ==> files[k] in g.nodes
    requires LinkFrom(g, files, scan).Ok? && Distinct(files)
    decreases |files|
    ensures forall p :: p in files ==>
      LinkFrom(g, files, scan).value.nodes[p].deps == g.nodes[p].deps + scan(p).value
  {
    if files != [] {
      var deps := scan(files[0]).value;
      var g1 := LinkAll(g, files[0], deps);
      var tail := files[1..];
      DistinctTail(files);
      var r := LinkFrom(g1, tail, scan).value;
      assert LinkFrom(g, files, scan).value == r;
      LinkAllAppends(g, files[0], deps);
      LinkAllKeeps(g, files[0], deps);
      LinkFromKeeps(g1, tail, scan);
      LinkFromDeps(g1, tail, scan);
      assert r.nodes[files[0]] == g1.nodes[files[0]];
      forall p | p in tail
        ensures r.nodes[p].deps == g.nodes[p].deps + scan(p).value
      {
        assert g1.nodes[p] == g.nodes[p];
      }
      assert forall p :: p in files ==> p == files[0] || p in tail;
    }
  }

  /** `getDependencies`: read the file and list the partials its markers name. */
  function GetDependencies(disk: Disk, partialsDir: string, path: string): (r: Result<seq<string>>)
    ensures r.Ok? <==> Exists(disk, path)
    ensures r.Err? ==> ReadFile(disk, path) == Err(r.error)
    ensures r.Ok? ==> r.value == Markers.Dependencies(disk.files[path], partialsDir)
  {
    var content :- ReadFile(disk, path);
    Ok(Markers.Dependencies(content, partialsDir))
  }

  /** Phase one of `BuildGraph`: every walked file becomes a node with no
      dependencies, in walking order. */
  function AddAll<P(!new)>(g: Graph<P>, files: seq<P>): (r: Graph<P>)
    requires Valid(g)
    decreases |files|
    ensures Valid(r) && Extends(g, r)
    ensures forall p :: p in r.nodes <==> p in g.nodes || p in files
    ensures forall p :: p in files ==> r.nodes[p] == Node(p, [])
    ensures forall p :: p in g.nodes && p !in files ==> r.nodes[p] == g.nodes[p]
  {
    if files == [] then g
    else
      var g1 := AddNode(g, files[0]);
      var r := AddAll(g1, files[1..]);
      ExtendsTrans(g, g1, r);
      assert forall p :: p in files <==> p == files[0] || p in files[1..];
      r
  }

  /** `scan` succeeds on every file of `files` exactly when it succeeds on
      every file of a list with the same members. */
  lemma AllScanSameMembers<P>(keys: seq<P>, files: seq<P>, scan: P -> Result<seq<P>>)
    requires forall p :: p in keys <==> p in files
    ensures AllScan(keys, scan) <==> forall p :: p in files ==> scan(p).Ok?
  {
    if AllScan(keys, scan) {
      forall p | p in files ensures scan(p).Ok? {
        var k :| 0 <= k < |keys| && keys[k] == p;
      }
    }
  }

  lemma FirstScanErrorMember<P>(keys: seq<P>, files: seq<P>, scan: P -> Result<seq<P>>, e: Error)
    requires forall p :: p in keys ==> p in files
    requires FirstScanError(keys, scan, e)
    ensures exists p :: p in files && scan(p) == Err(e)
  {
    var k :| 0 <= k < |keys| && scan(keys[k]) == Err(e) && AllScan(keys[..k], scan);
    assert keys[k] in files;
  }

  /** The two phases of `BuildGraph` over the walked files: the graph, or
      the error `scan` reports for one of them. Which one is left open: Go
      ranges over the node map in no fixed order. */
  function Build<P(!new)>(files: seq<P>, scan: P -> Result<seq<P>>): (r: Result<Graph<P>>)
    ensures r.Ok? <==> forall p :: p in files ==> scan(p).Ok?
    ensures r.Err? ==> exists p :: p in files && scan(p) == Err(r.error)
    ensures r.Ok? ==> Valid(r.value)
  {
    var g1 := AddAll(NewGraph(), files);
    AllScanSameMembers(g1.keys, files, scan);
    var r := LinkFrom(g1, g1.keys, scan);
    if r.Err? then
      FirstScanErrorMember(g1.keys, files, scan, r.error);
      r
    else r
  }

  /** Every file is a node whose dependencies are exactly what `scan`
      reports for it, in order. */
  lemma BuildLinksFiles<P(!new)>(files: seq<P>, scan: P -> Result<seq<P>>)
    requires Build(files, scan).Ok?
    ensures forall p :: p in files ==>
      p in Build(files, scan).value.nodes && Build(files, scan).value.nodes[p].deps == scan(p).value
  {
    var g1 := AddAll(NewGraph(), files);
    var g := LinkFrom(g1, g1.keys, scan).value;
    assert Build(files, scan).value == g;
    LinkFromDeps(g1, g1.keys, scan);
    assert forall p :: p in files ==> p in g1.keys && g1.nodes[p].deps == [];
  }

  /** A dependency `scan` reports for one of the keys is reported for one
      of the files. */
  lemma ReferencedByMember<P(!new)>(keys: seq<P>, files: seq<P>, scan: P -> Result<seq<P>>, p: P)
    requires forall q :: q in keys ==> q in files
    requires p in Referenced(keys, scan)
    ensures exists q :: q in files && scan(q).Ok? && p in scan(q).value
  {
    var k :| 0 <= k < |keys| && scan(keys[k]).Ok? && p in scan(keys[k]).value;
    assert keys[k] in files;
  }

  /** Every other node is a partial some file includes, with no
      dependencies of its own: partials are not scanned. */
  lemma BuildPartialsUnscanned<P(!new)>(files: seq<P>, scan: P -> Result<seq<P>>)
    requires Build(files, scan).Ok?
    ensures var g := Build(files, scan).value;
      forall p :: p in g.nodes && p !in files ==>
        g.nodes[p] == Node(p, []) && exists q :: q in files && p in g.nodes[q].deps
  {
    var g1 := AddAll(NewGraph(), files);
    var g := LinkFrom(g1, g1.keys, scan).value;
    assert Build(files, scan).value == g;
    LinkFromFresh(g1, g1.keys, scan);
    BuildLinksFiles(files, scan);
    forall p | p in g.nodes && p !in files
      ensures exists q :: q in files && p in g.nodes[q].deps
    {
      ReferencedByMember(g1.keys, files, scan, p);
    }
  }

  /** Phase two's per-file step as `BuildGraph` runs it. */
  function Scanner(disk: Disk, partialsDir: string): string -> Result<seq<string>> {
    (f: string) => GetDependencies(disk, partialsDir, f)
  }

  /** `BuildGraph`: walk the content directory, adding a node per file, then
      link every walked file to the partials it includes. The first walk
      error ends the walk and is returned with no graph; so is the read
      error of a walked file. */
  function BuildGraph(partialsDir: string, walk: seq<WalkEntry>, disk: Disk): (r: Result<Graph<string>>)
    ensures r.Ok? <==> FirstWalkFailure(walk).None? && forall p :: p in WalkedFiles(walk) ==> Exists(disk, p)
    ensures r.Err? && FirstWalkFailure(walk).Some? ==> r.error == FirstWalkFailure(walk).value
    ensures r.Err? && FirstWalkFailure(walk).None? ==>
      exists p :: p in WalkedFiles(walk) && ReadFile(disk, p) == Err(r.error)
    ensures r.Ok? ==> Valid(r.value)
  {
    match FirstWalkFailure(walk)
    case Some(e) => Err(e)
    case None => Build(WalkedFiles(walk), Scanner(disk, partialsDir))
  }

  /** Every walked file is a node whose dependencies are exactly the partials
      its markers name, in textual order. */
  lemma WalkedFilesLinked(partialsDir: string, walk: seq<WalkEntry>, disk: Disk)
    requires BuildGraph(partialsDir, walk, disk).Ok?
    ensures var g := BuildGraph(partialsDir, walk, disk).value;
      forall p :: p in WalkedFiles(walk) ==>
        p in g.nodes && g.nodes[p].deps == Markers.Dependencies(disk.files[p], partialsDir)
  {
    BuildLinksFiles(WalkedFiles(walk), Scanner(disk, partialsDir));
  }

  /** Every other node is a partial some walked file includes, with no
      dependencies of its own. */
  lemma PartialNodesReferenced(partialsDir: string, walk: seq<WalkEntry>, disk: Disk)
    requires BuildGraph(partialsDir, walk, disk).Ok?
    ensures var g := BuildGraph(partialsDir, walk, disk).value;
      forall p :: p in g.nodes && p !in WalkedFiles(walk) ==>
        g.nodes[p] == Node(p, []) && exists q :: q in WalkedFiles(walk) && p in g.nodes[q].deps
  {
    BuildPartialsUnscanned(WalkedFiles(walk), Scanner(disk, partialsDir));
  }

  /** Over the walk of a root that is missing or cannot be stat-ed,
      `BuildGraph` fails with the error `os.Stat` gives for the root. */
  lemma BuildGraphMissingRoot(partialsDir: string, root: string, walk: seq<WalkEntry>, disk: Disk)
    requires WalkOf(disk, root, walk) && Stat(disk, root).Some?
    ensures BuildGraph(partialsDir, walk, disk) == Err(Stat(disk, root).value)
  {
    MissingRootFailsWalk(disk, root, walk);
  }

  /** Over the walk of a directory, a built graph holds every file below it,
      each linked to the partials its markers name. */
  lemma BuildGraphCoversDir(partialsDir: string, root: string, walk: seq<WalkEntry>, disk: Disk)
    requires WalkOf(disk, root, walk) && IsDir(disk, root)
    requires BuildGraph(partialsDir, walk, disk).Ok?
    ensures var g := BuildGraph(partialsDir, walk, disk).value;
      forall p :: p in disk.files && Below(p, root) ==>
        p in g.nodes && g.nodes[p].deps == Markers.Dependencies(disk.files[p], partialsDir)
  {
    WalkVisitsFiles(disk, root, walk);
    WalkedFilesLinked(partialsDir, walk, disk);
  }

  /** The dependents contributed by one node: itself once per edge to `x`. */
  function EdgesTo<P(==,!new)>(n: P, deps: seq<P>, x: P): (r: seq<P>)
    ensures forall m :: multiset(r)[m] == if m == n then multiset(deps)[x] else 0
  {
    if deps == [] then []
    else
      assert deps == [deps[0]] + deps[1..];
      (if deps[0] == x then [n] else []) + EdgesTo(n, deps[1..], x)
  }

  function DependentsAmong<P(!new)>(g: Graph<P>, ks: seq<P>, x: P): (r: seq<P>)
    requires Distinct(ks) && forall k :: 0 <= k < |ks| ==> ks[k] in g.nodes
    decreases |ks|
    ensures forall m :: multiset(r)[m] == if m in ks then multiset(g.nodes[m].deps)[x] else 0
  {
    if ks == [] then []
    else
      assert forall k :: 0 < k < |ks| ==> ks[k] == ks[1..][k - 1];
      assert ks[0] !in ks[1..];
      EdgesTo(ks[0], g.nodes[ks[0]].deps, x) + DependentsAmong(g, ks[1..], x)
  }

  /** `GetDependents`: every node whose dependency list names `x`, once per
      such edge, and nothing reached only through further edges. */
  function GetDependents<P(!new)>(g: Graph<P>, x: P): (r: seq<P>)
    requires Valid(g)
    ensures forall m :: multiset(r)[m] == if m in g.nodes then multiset(g.nodes[m].deps)[x] else 0
    ensures forall m :: m in r <==> m in g.nodes && x in g.nodes[m].deps
  {
    DependentsAmong(g, g.keys, x)
  }
}

=== FILE: filepath.dfy ===
/** `Dir`, `Base`, `Ext` and `Join` of Go's `path/filepath` for `/`-separated
    paths. On clean paths (no `..`, no `.` element, no doubled or trailing
    separator) each function returns what Go's does; `Join` also absorbs the
    leading separators of its second argument, as Go's `Clean` does for
    `filepath.Join("dist", "/index.html")`. */
module FilePath {

  /** The largest index below `n` holding `c`, or -1. */
  function LastIndexBefore(p: string, c: char, n: nat): (r: int)
    requires n <= |p|
    ensures -1 <= r < n
    ensures r >= 0 ==> p[r] == c
    ensures forall k :: r < k < n ==> p[k] != c
  {
    if n == 0 then -1
    else if p[n - 1] == c then n - 1
    else LastIndexBefore(p, c, n - 1)
  }

  function LastSlash(p: string): (r: int)
    ensures -1 <= r < |p|
    ensures r >= 0 ==> p[r] == '/'
    ensures forall k :: r < k < |p| ==> p[k] != '/'
  {
    LastIndexBefore(p, '/', |p|)
  }

  predicate SlashFree(s: string) {
    forall k :: 0 <= k < |s| ==> s[k] != '/'
  }

  /** `filepath.Dir`: everything before the last separator; "." when there is
      none and "/" when the only separator is the leading one. */
  function Dir(p: string): (r: string)
    ensures r != ""
    ensures LastSlash(p) < 0 ==> r == "."
    ensures LastSlash(p) > 0 ==> r == p[..LastSlash(p)]
  {
    var i := LastSlash(p);
    if i < 0 then "." else if i == 0 then "/" else p[..i]
  }

  function TrimTrailingSlashes(p: string): (r: string)
    ensures |r| <= |p| && r == p[..|r|]
    ensures r == "" || r[|r| - 1] != '/'
    ensures forall k :: |r| <= k < |p| ==> p[k] == '/'
  {
    if p == "" || p[|p| - 1] != '/' then p else TrimTrailingSlashes(p[..|p| - 1])
  }

  function TrimLeadingSlashes(p: string): (r: string)
    ensures |r| <= |p| && r == p[|p| - |r|..]
    ensures r == "" || r[0] != '/'
    ensures forall k :: 0 <= k < |p| - |r| ==> p[k] == '/'
  {
    if p == "" || p[0] != '/' then p else TrimLeadingSlashes(p[1..])
  }

  /** `filepath.Base`: the last element after trailing separators are
      dropped; "." for the empty path and "/" for a path of separators only. */
  function Base(p: string): (r: string)
    ensures r != ""
    ensures r != "/" ==> SlashFree(r)
  {
    if p == "" then "."
    else
      var q := TrimTrailingSlashes(p);
      if q == "" then "/" else q[LastSlash(q) + 1..]
  }

  function ExtBefore(p: string, n: nat): (r: string)
    requires n <= |p|
    ensures |r| <= |p| && r == p[|p| - |r|..]
    ensures r != "" ==> r[0] == '.' && |p| - |r| < n
    ensures r != "" ==> forall k :: |p| - |r| < k < n ==> p[k] != '.' && p[k] != '/'
    ensures r == "" ==> forall k :: LastIndexBefore(p, '/', n) < k < n ==> p[k] != '.'
  {
    if n == 0 || p[n - 1] == '/' then ""
    else if p[n - 1] == '.' then p[n - 1..]
    else ExtBefore(p, n - 1)
  }

  /** `filepath.Ext`: the suffix starting at the last dot of the final
      element, or "" when that element has no dot. */
  function Ext(p: string): (r: string)
    ensures |r| <= |p| && r == p[|p| - |r|..]
    ensures r != "" ==> r[0] == '.' && forall k :: 0 < k < |r| ==> r[k] != '.' && r[k] != '/'
    ensures r == "" ==> forall k :: LastSlash(p) < k < |p| ==> p[k] != '.'
  {
    ExtBefore(p, |p|)
  }

  /** `filepath.Join` of two elements followed by `Clean`, for a clean first element. */
  function Join(a: string, b: string): string {
    var rest := TrimLeadingSlashes(b);
    if a == "" then b
    else if rest == "" then a
    else if a == "." then rest
    else if a == "/" then "/" + rest
    else a + "/" + rest
  }

  /** The rank that `Dir` strictly lowers until it reaches "." or "/". */
  function Height(d: string): nat {
    if d == "." || d == "/" then 0 else |d| + 1
  }

  /** The upward layout walks terminate: every step up lowers the height. */
  lemma DirLowersHeight(d: string)
    requires d != "." && d != "/"
    ensures Height(Dir(d)) < Height(d)
  {
  }

  /** A dot-extension at the end of a path is what `Ext` reports. */
  lemma ExtOfSuffix(p: string, e: string)
    requires |e| >= 1 && e[0] == '.'
    requires forall k :: 0 < k < |e| ==> e[k] != '.' && e[k] != '/'
    requires |e| <= |p| && p[|p| - |e|..] == e
    ensures Ext(p) == e
  {
    assert p[|p| - |e|] == '.';
  }

  /** The separator placed by `Join` is the last one of the result. */
  lemma LastSlashAfterPrefix(d: string, name: string)
    requires SlashFree(name)
    ensures LastSlash(d + "/" + name) == |d|
  {
    var j := d + "/" + name;
    assert j[|d|] == '/';
    assert forall k :: |d| < k < |j| ==> j[k] == name[k - |d| - 1];
  }

  /** Joining a directory with a single element is undone by `Dir`. */
  lemma JoinThenDir(d: string, name: string)
    requires d != "" && (d == "/" || d[|d| - 1] != '/')
    requires name != "" && SlashFree(name)
    ensures Dir(Join(d, name)) == d
  {
    assert TrimLeadingSlashes(name) == name;
    if d == "." {
      assert LastSlash(name) == -1;
    } else if d == "/" {
      LastSlashAfterPrefix("", name);
      assert "" + "/" + name == "/" + name;
    } else {
      LastSlashAfterPrefix(d, name);
      assert (d + "/" + name)[..|d|] == d;
    }
  }

  lemma BaseOfUnslashedEnd(j: string)
    requires j != "" && j[|j| - 1] != '/'
    ensures Base(j) == j[LastSlash(j) + 1..]
  {
    assert TrimTrailingSlashes(j) == j;
  }

  /** Joining a directory with a single element is undone by `Base`. */
  lemma JoinThenBase(d: string, name: string)
    requires d != "" && (d == "/" || d[|d| - 1] != '/')
    requires name != "" && SlashFree(name)
    ensures Base(Join(d, name)) == name
  {
    assert TrimLeadingSlashes(name) == name;
    if d == "." {
      assert Join(d, name) == name;
      BaseOfUnslashedEnd(name);
      assert LastSlash(name) == -1;
      assert name[0..] == name;
    } else if d == "/" {
      var j := "/" + name;
      assert Join(d, name) == j;
      assert j[|j| - 1] == name[|name| - 1];
      BaseOfUnslashedEnd(j);
      LastSlashAfterPrefix("", name);
      assert "" + "/" + name == j;
      assert j[1..] == name;
    } else {
      var j := d + "/" + name;
      assert Join(d, name) == j;
      assert j[|j| - 1] == name[|name| - 1];
      BaseOfUnslashedEnd(j);
      LastSlashAfterPrefix(d, name);
      assert j[|d| + 1..] == name;
    }
  }
}

=== FILE: filesystem.dfy ===
/** The part of the file system the build reads and writes, as a value.
    A path listed in `faults` makes every operation on it fail with that
    error. Directories are not stored: a path is a directory when some file
    lies below it. A path that is neither a file, nor a directory, nor a
    fault does not exist. Directory creation succeeds unless the directory
    itself is a fault. */
module FileSystem {
  import opened Wrappers
  import opened ByteStrings

  datatype Disk = Disk(files: map<string, Bytes>, faults: map<string, Error>)

  /** One callback of `filepath.Walk`: a visited entry, or the error Walk
      passes for an entry it could not stat or list. */
  datatype WalkEntry =
    | Visit(path: string, isDir: bool)
    | WalkFailed(path: string, err: Error)

  predicate IsNotExist(e: Error) {
    e.NotExist?
  }

  /** `q` lies strictly below the directory `p`. */
  predicate Below(q: string, p: string) {
    |p| < |q| && q[..|p|] == p && q[|p|] == '/'
  }

  /** `p` is a directory: some file lies below it. */
  predicate IsDir(d: Disk, p: string) {
    exists q :: q in d.files && Below(q, p)
  }

  /** `os.Stat` / `os.Open`: `None` when a file or a directory is there. */
  function Stat(d: Disk, p: string): (r: Option<Error>)
    ensures r.None? <==> (p in d.files || IsDir(d, p)) && p !in d.faults
    ensures r.Some? && !IsNotExist(r.value) ==> p in d.faults && r.value == d.faults[p]
  {
    if p in d.faults then Some(d.faults[p])
    else if p in d.files || IsDir(d, p) then None
    else Some(NotExist(p))
  }

  /** A regular file the build can read. */
  predicate Exists(d: Disk, p: string) {
    p in d.files && p !in d.faults
  }

  /** `os.ReadFile`: the bytes of a file; a directory cannot be read. */
  function ReadFile(d: Disk, p: string): (r: Result<Bytes>)
    ensures r.Ok? <==> Exists(d, p)
    ensures r.Ok? ==> r.value == d.files[p]
    ensures r.Err? && Stat(d, p).Some? ==> r.error == Stat(d, p).value
    ensures r.Err? && Stat(d, p).None? ==> IsDir(d, p) && r.error == IsDirectory(p)
  {
    if p in d.faults then Err(d.faults[p])
    else if p in d.files then Ok(d.files[p])
    else if IsDir(d, p) then Err(IsDirectory(p))
    else Err(NotExist(p))
  }

  /** `os.MkdirAll`. */
  function MkdirAll(d: Disk, dir: string): (r: Option<Error>)
    ensures r.None? <==> dir !in d.faults
  {
    if dir in d.faults then Some(d.faults[dir]) else None
  }

  /** `os.WriteFile`, or `os.Create` followed by a complete write: a
      directory cannot be written over. */
  function WriteFile(d: Disk, p: string, data: Bytes): (r: Result<Disk>)
    ensures r.Ok? <==> p !in d.faults && !IsDir(d, p)
    ensures r.Err? && p !in d.faults ==> r.error == IsDirectory(p)
    ensures r.Ok? ==> r.value.files == d.files[p := data] && r.value.faults == d.faults
  {
    if p in d.faults then Err(d.faults[p])
    else if IsDir(d, p) then Err(IsDirectory(p))
    else Ok(d.(files := d.files[p := data]))
  }

  /** What `os.Remove` reports for a directory, which always holds a file. */
  const NotEmpty: Error := Failed("directory not empty")

  /** `os.Remove`: a file is removed; a directory, never empty here, is not. */
  function Remove(d: Disk, p: string): (r: Result<Disk>)
    ensures r.Ok? <==> Exists(d, p)
    ensures r.Ok? ==> r.value.files == d.files - {p} && r.value.faults == d.faults
    ensures r.Err? && Stat(d, p).Some? ==> r.error == Stat(d, p).value
    ensures r.Err? && Stat(d, p).None? ==> r.error == NotEmpty
  {
    if p in d.faults then Err(d.faults[p])
    else if p in d.files then Ok(d.(files := d.files - {p}))
    else if IsDir(d, p) then Err(NotEmpty)
    else Err(NotExist(p))
  }

  /** The non-directory paths a walk visits, in visiting order. */
  function WalkedFiles(walk: seq<WalkEntry>): (r: seq<string>)
    ensures forall p :: p in r <==> exists k :: 0 <= k < |walk| && walk[k] == Visit(p, false)
  {
    if walk == [] then []
    else
      var rest := WalkedFiles(walk[1..]);
      assert forall k :: 0 < k < |walk| ==> walk[k] == walk[1..][k - 1];
      if walk[0].Visit? && !walk[0].isDir then [walk[0].path] + rest else rest
  }

  /** The first failure a walk reports, if any. */
  function FirstWalkFailure(walk: seq<WalkEntry>): (r: Option<Error>)
    ensures r.None? <==> forall k :: 0 <= k < |walk| ==> walk[k].Visit?
    ensures r.Some? ==> exists k :: 0 <= k < |walk| && walk[k].WalkFailed? && walk[k].err == r.value
  {
    if walk == [] then None
    else if walk[0].WalkFailed? then Some(walk[0].err)
    else
      assert forall k :: 0 < k < |walk| ==> walk[k] == walk[1..][k - 1];
      FirstWalkFailure(walk[1..])
  }

  /** `walk` is what `filepath.Walk(root, …)` reports on `d`, in some order:
      a root that cannot be stat-ed is reported as the one failed entry; a
      root that is a file is visited alone; a root directory is visited
      first, every file visited lies below it, and a walk that reports no
      failure visits every file below it. */
  ghost predicate WalkOf(d: Disk, root: string, walk: seq<WalkEntry>) {
    match Stat(d, root)
    case Some(e) => walk == [WalkFailed(root, e)]
    case None =>
      if !IsDir(d, root) then walk == [Visit(root, false)]
      else
        && walk != [] && walk[0] == Visit(root, true)
        && (forall k :: 0 <= k < |walk| && walk[k].Visit? && !walk[k].isDir ==>
              walk[k].path in d.files && Below(walk[k].path, root))
        && (FirstWalkFailure(walk).None? ==>
              forall p :: p in d.files && Below(p, root) ==> Visit(p, false) in walk)
  }

  /** Walking a root that is missing, or cannot be stat-ed, fails with the
      error `os.Stat` gives for it. */
  lemma MissingRootFailsWalk(d: Disk, root: string, walk: seq<WalkEntry>)
    requires WalkOf(d, root, walk) && Stat(d, root).Some?
    ensures FirstWalkFailure(walk) == Stat(d, root)
  {
    assert walk == [WalkFailed(root, Stat(d, root).value)];
    assert walk[1..] == [];
  }

  /** A walk of a directory that reports no failure visits exactly the files
      below it. */
  lemma WalkVisitsFiles(d: Disk, root: string, walk: seq<WalkEntry>)
    requires WalkOf(d, root, walk) && IsDir(d, root) && FirstWalkFailure(walk).None?
    ensures forall p :: p in WalkedFiles(walk) <==> p in d.files && Below(p, root)
  {
    if Stat(d, root).Some? {
      MissingRootFailsWalk(d, root, walk);
    } else {
      forall p | p in d.files && Below(p, root) ensures p in WalkedFiles(walk) {
        var k :| 0 <= k < |walk| && walk[k] == Visit(p, false);
      }
    }
  }
}

=== FILE: frontmatter.dfy ===
/** The front-matter splitter shared by the content processor and the
    Markdown pipeline: a document that starts with `---` and has a second
    `---` later is split into the YAML between them and the trimmed text
    after; any other document is all body. YAML decoding is a parameter. */
module FrontMatter {
  import opened Wrappers
  import opened ByteStrings

  /** "---" */
  const Delimiter: Bytes := [45, 45, 45]

  /** `yaml.Unmarshal` into a nil `map[string]any`: `None` when the document
      leaves the map nil. */
  type YamlDecoder = Bytes -> Result<Option<Meta>>

  /** The front matter (nil when absent) and the body. */
  datatype Parsed = Parsed(meta: Option<Meta>, body: Bytes)

  /** `ParseFrontMatter` / `parseFrontMatter`. */
  function Split(content: Bytes, decode: YamlDecoder): (r: Result<Parsed>)
    ensures !HasPrefix(content, Delimiter) ==> r == Ok(Parsed(None, content))
    ensures HasPrefix(content, Delimiter) && Index(content[3..], Delimiter).None? ==>
      r == Ok(Parsed(None, content))
  {
    if !HasPrefix(content, Delimiter) then Ok(Parsed(None, content))
    else
      match Index(content[3..], Delimiter)
      case None => Ok(Parsed(None, content))
      case Some(end) =>
        var meta :- decode(content[3..3 + end]);
        Ok(Parsed(meta, TrimSpace(content[end + 6..])))
  }

  /** With both delimiters, the YAML is exactly the bytes between them and
      the body is the trimmed rest; a decoding error is returned with
      neither. */
  lemma SplitDelimited(content: Bytes, decode: YamlDecoder)
    requires HasPrefix(content, Delimiter) && Index(content[3..], Delimiter).Some?
    ensures var end := Index(content[3..], Delimiter).value;
      && end + 6 <= |content|
      && content[3 + end..end + 6] == Delimiter
      && Split(content, decode) ==
        match decode(content[3..3 + end])
        case Ok(meta) => Ok(Parsed(meta, TrimSpace(content[end + 6..])))
        case Err(e) => Err(e)
  {
    var end := Index(content[3..], Delimiter).value;
    assert content[3..][end..end + 3] == content[3 + end..end + 6];
  }

  /** No `---` starts inside `y` or straddles its end, so the closing
      delimiter placed right after `y` is the first one found. */
  predicate Undelimited(y: Bytes) {
    && (forall k :: 0 <= k && k + 3 <= |y| ==> !OccursAt(y, Delimiter, k))
    && (|y| >= 1 ==> y[|y| - 1] != 45)
  }

  /** The first `---` after undelimited `y` is the one right behind it. */
  lemma ClosingDelimiter(y: Bytes, rest: Bytes)
    requires Undelimited(y)
    ensures Index(y + Delimiter + rest, Delimiter) == Some(|y|)
  {
    var t := y + Delimiter + rest;
    assert OccursAt(t, Delimiter, |y|) by {
      assert t[|y|..|y| + 3] == Delimiter;
    }
    forall k | 0 <= k < |y| ensures !OccursAt(t, Delimiter, k) {
      if k + 3 <= |y| {
        assert t[k..k + 3] == y[k..k + 3];
        assert !OccursAt(y, Delimiter, k);
      } else {
        assert t[|y| - 1] == y[|y| - 1];
      }
    }
  }

  /** `---`, undelimited YAML, `---` and any rest split into the YAML's
      decoding and the trimmed rest. */
  lemma SplitFramed(y: Bytes, rest: Bytes, decode: YamlDecoder)
    requires Undelimited(y)
    ensures Split(Delimiter + y + Delimiter + rest, decode) ==
      match decode(y)
      case Ok(meta) => Ok(Parsed(meta, TrimSpace(rest)))
      case Err(e) => Err(e)
  {
    var content := Delimiter + y + Delimiter + rest;
    assert content == Delimiter + (y + Delimiter + rest);
    assert HasPrefix(content, Delimiter) by {
      assert content[..3] == Delimiter;
    }
    assert content[3..] == y + Delimiter + rest;
    ClosingDelimiter(y, rest);
    assert content[3..3 + |y|] == y;
    assert content[|y| + 6..] == rest;
  }

  /** A document written as `---`, YAML, `---`, blank-padded body splits
      back into that YAML's decoding and that body. */
  lemma SplitCompose(y: Bytes, pre: Bytes, body: Bytes, post: Bytes, decode: YamlDecoder)
    requires Undelimited(y)
    requires AllSpace(pre) && AllSpace(post)
    requires body != [] ==> !IsSpace(body[0]) && !IsSpace(body[|body| - 1])
    ensures Split(Delimiter + y + Delimiter + pre + body + post, decode) ==
      match decode(y)
      case Ok(meta) => Ok(Parsed(meta, body))
      case Err(e) => Err(e)
  {
    var rest := pre + body + post;
    assert Delimiter + y + Delimiter + pre + body + post == Delimiter + y + Delimiter + rest;
    SplitFramed(y, rest, decode);
    TrimSpacePadding(pre, body, post);
  }
}

=== FILE: hash.dfy ===
/** The file fingerprint: the SHA-256 sum of the file's bytes, written as
    lower-case hexadecimal. The sum itself is a parameter; only its length
    (32 bytes, FIPS 180-4) is relied upon. */
module Hash {
  import opened Wrappers
  import opened ByteStrings
  import opened FileSystem

  const HexDigits: string := "0123456789abcdef"

  /** The digest function `sha256.Sum256` stands for. */
  datatype Hasher = Hasher(sum: Bytes -> Bytes)

  ghost predicate Sha256Shaped(h: Hasher) {
    forall b :: |h.sum(b)| == 32
  }

  function DigitValue(c: char): (r: Option<nat>)
    ensures r.Some? ==> r.value < 16 && HexDigits[r.value] == c
    ensures forall n :: 0 <= n < 16 && HexDigits[n] == c ==> r == Some(n)
  {
    if '0' <= c <= '9' then Some(c as nat - '0' as nat)
    else if 'a' <= c <= 'f' then Some(c as nat - 'a' as nat + 10)
    else None
  }

  /** `hex.EncodeToString`: two digits per byte, high nibble first. */
  function HexEncode(b: Bytes): (r: string)
    ensures |r| == 2 * |b|
  {
    if b == [] then ""
    else [HexDigits[b[0] as int / 16], HexDigits[b[0] as int % 16]] + HexEncode(b[1..])
  }

  /** Reads two digits per byte back; `None` on an odd length or a
      character that is not a lower-case hex digit. */
  function HexDecode(s: string): (r: Option<Bytes>)
    decreases |s|
  {
    if s == [] then Some([])
    else if |s| == 1 then None
    else
      match (DigitValue(s[0]), DigitValue(s[1]))
      case (Some(hi), Some(lo)) =>
        var rest :- HexDecode(s[2..]);
        Some([(hi * 16 + lo) as byte] + rest)
      case _ => None
  }

  lemma Nibbles(x: int)
    requires 0 <= x < 256
    ensures 0 <= x / 16 < 16 && 0 <= x % 16 < 16 && (x / 16) * 16 + x % 16 == x
  {
  }

  lemma EncodeStep(b: Bytes)
    requires b != []
    ensures |HexEncode(b)| >= 2
    ensures HexEncode(b)[0] == HexDigits[b[0] as int / 16]
    ensures HexEncode(b)[1] == HexDigits[b[0] as int % 16]
    ensures HexEncode(b)[2..] == HexEncode(b[1..])
  {
  }

  lemma DecodeStep(s: string, hi: nat, lo: nat)
    requires |s| >= 2 && DigitValue(s[0]) == Some(hi) && DigitValue(s[1]) == Some(lo)
    ensures HexDecode(s) ==
      match HexDecode(s[2..])
      case Some(rest) => Some([(hi * 16 + lo) as byte] + rest)
      case None => None
  {
  }

  /** Decoding the two digits of the first byte gives that byte back. */
  lemma HexHead(b: Bytes)
    requires b != []
    ensures HexDecode(HexEncode(b)) ==
      match HexDecode(HexEncode(b[1..]))
      case Some(rest) => Some([b[0]] + rest)
      case None => None
  {
    var hi, lo := b[0] as int / 16, b[0] as int % 16;
    Nibbles(b[0] as int);
    EncodeStep(b);
    DecodeStep(HexEncode(b), hi, lo);
  }

  /** Decoding undoes encoding. */
  lemma {:induction false} HexRoundTrip(b: Bytes)
    ensures HexDecode(HexEncode(b)) == Some(b)
  {
    if b != [] {
      HexHead(b);
      HexRoundTrip(b[1..]);
      assert b == [b[0]] + b[1..];
    }
  }

  /** Different sums give different fingerprints, so comparing fingerprints
      compares sums. */
  lemma HexInjective(a: Bytes, b: Bytes)
    requires HexEncode(a) == HexEncode(b)
    ensures a == b
  {
    HexRoundTrip(a);
    HexRoundTrip(b);
  }

  /** `hash.New`: the fingerprint of the file at `p`, or the error opening
      or reading it. */
  function Fingerprint(disk: Disk, h: Hasher, p: string): (r: Result<string>)
    ensures r.Ok? <==> Exists(disk, p)
    ensures r.Err? ==> ReadFile(disk, p) == Err(r.error)
    ensures r.Ok? ==> HexDecode(r.value) == Some(h.sum(disk.files[p]))
  {
    var data :- ReadFile(disk, p);
    HexRoundTrip(h.sum(data));
    Ok(HexEncode(h.sum(data)))
  }

  /** A fingerprint is 64 characters long, never the empty string a cache
      miss reads as. */
  lemma FingerprintNonEmpty(disk: Disk, h: Hasher, p: string)
    requires Sha256Shaped(h) && Fingerprint(disk, h, p).Ok?
    ensures |Fingerprint(disk, h, p).value| == 64
  {
    assert |h.sum(disk.files[p])| == 32;
  }
}

=== FILE: layouts.dfy ===
/** Layout resolution and application. A page is wrapped by the
    `_layout.html` files of its directory and of every directory above it, up
    to and including the first of `content`, `.` or `/`. Two variants exist:
    the build driver's lists the layouts innermost-first and falls back to
    the built-in default, the content processor's lists them outermost-first,
    has no fallback and remembers its answer per directory. */
module Layouts {
  import opened Wrappers
  import opened ByteStrings
  import opened FileSystem
  import opened FilePath
  import opened Templates

  const LayoutName: string := "_layout.html"

  /** The sentinel the build driver uses for "no layout file found". */
  const DefaultLayout: string := "default"

  /** Where the upward walk stops, after looking in that directory. */
  predicate IsStop(d: string) {
    d == "content" || d == "." || d == "/"
  }

  /** The directories the walk visits from `d`, innermost first, each lower
      in `Height` than the one before and the last a stop directory. */
  function Ancestors(d: string): (r: seq<string>)
    decreases Height(d)
    ensures r != [] && r[0] == d && IsStop(r[|r| - 1])
    ensures forall a :: a in r ==> Height(a) <= Height(d)
    ensures forall i, j :: 0 <= i < j < |r| ==> Height(r[j]) < Height(r[i])
  {
    if IsStop(d) then [d]
    else
      DirLowersHeight(d);
      [d] + Ancestors(Dir(d))
  }

  /** `os.Stat` of the directory's layout path succeeds. */
  predicate HasLayout(disk: Disk, d: string) {
    Stat(disk, Join(d, LayoutName)).None?
  }

  /** The visited directories holding a layout, in the order the walk meets
      them. */
  function LayoutDirs(disk: Disk, d: string): (r: seq<string>)
    decreases Height(d)
    ensures forall a :: a in r <==> a in Ancestors(d) && HasLayout(disk, a)
    ensures forall i, j :: 0 <= i < j < |r| ==> Height(r[j]) < Height(r[i])
  {
    if IsStop(d) then (if HasLayout(disk, d) then [d] else [])
    else
      DirLowersHeight(d);
      var up := LayoutDirs(disk, Dir(d));
      assert Ancestors(d) == [d] + Ancestors(Dir(d));
      if !HasLayout(disk, d) then up
      else
        assert forall a :: a in up ==> Height(a) < Height(d);
        DescendingCons(d, up);
        [d] + up
  }

  /** Putting a directory above all of `up` in front keeps the heights
      strictly decreasing. */
  lemma DescendingCons(d: string, up: seq<string>)
    requires forall a :: a in up ==> Height(a) < Height(d)
    requires forall i, j :: 0 <= i < j < |up| ==> Height(up[j]) < Height(up[i])
    ensures var r := [d] + up; forall i, j :: 0 <= i < j < |r| ==> Height(r[j]) < Height(r[i])
  {
    var r := [d] + up;
    forall i, j | 0 <= i < j < |r| ensures Height(r[j]) < Height(r[i]) {
      assert r[j] == up[j - 1];
      if i == 0 {
        assert up[j - 1] in up;
      } else {
        assert r[i] == up[i - 1];
      }
    }
  }

  /** The layout file of each directory. */
  function LayoutPaths(dirs: seq<string>): (r: seq<string>)
    ensures |r| == |dirs|
    ensures forall k :: 0 <= k < |dirs| ==> r[k] == Join(dirs[k], LayoutName)
  {
    if dirs == [] then [] else [Join(dirs[0], LayoutName)] + LayoutPaths(dirs[1..])
  }

  /** A layout path ends in `_layout.html`, so it is never the sentinel. */
  lemma LayoutPathNotDefault(d: string)
    ensures Join(d, LayoutName) != DefaultLayout
  {
    var j := Join(d, LayoutName);
    assert TrimLeadingSlashes(LayoutName) == LayoutName;
    assert |j| >= |LayoutName|;
  }

  function Reverse<T>(s: seq<T>): (r: seq<T>)
    ensures |r| == |s|
    ensures forall k :: 0 <= k < |s| ==> r[k] == s[|s| - 1 - k]
  {
    if s == [] then [] else Reverse(s[1..]) + [s[0]]
  }

  lemma ReverseReverse<T>(s: seq<T>)
    ensures Reverse(Reverse(s)) == s
  {
    assert forall k :: 0 <= k < |s| ==> Reverse(Reverse(s))[k] == s[k];
  }

  /** `getLayouts` of the build driver: the existing layout files from
      `Dir(path)` upward, innermost first, or `["default"]` when there is
      none. */
  function BuildLayouts(path: string, disk: Disk): (r: seq<string>)
    ensures r != []
    ensures r == [DefaultLayout] <==>
      forall a :: a in Ancestors(Dir(path)) ==> !HasLayout(disk, a)
    ensures r != [DefaultLayout] ==> forall x :: x in r <==>
      exists a :: a in Ancestors(Dir(path)) && HasLayout(disk, a) && x == Join(a, LayoutName)
  {
    var dirs := LayoutDirs(disk, Dir(path));
    var found := LayoutPaths(dirs);
    if found == [] then [DefaultLayout]
    else
      LayoutPathNotDefault(dirs[0]);
      assert found[0] != DefaultLayout;
      forall x | x in found
        ensures exists a :: a in dirs && x == Join(a, LayoutName)
      {
        var k :| 0 <= k < |found| && found[k] == x;
        assert dirs[k] in dirs;
      }
      forall a | a in dirs ensures Join(a, LayoutName) in found {
        var k :| 0 <= k < |dirs| && dirs[k] == a;
        assert found[k] == Join(a, LayoutName);
      }
      found
  }

  /** The innermost-first layout list reads directory by directory upward:
      the k-th entry is the layout of the k-th directory that has one, and
      those directories (see `LayoutDirs`) rise strictly. */
  lemma BuildLayoutsInnermostFirst(path: string, disk: Disk)
    requires BuildLayouts(path, disk) != [DefaultLayout]
    ensures var dirs := LayoutDirs(disk, Dir(path));
      && |BuildLayouts(path, disk)| == |dirs|
      && forall k :: 0 <= k < |dirs| ==> BuildLayouts(path, disk)[k] == Join(dirs[k], LayoutName)
  {
  }

  /** Layout lists by directory, as the content processor remembers them. */
  type LayoutMemo = map<string, seq<string>>

  /** What a memo miss computes for directory `d`: the existing layout files
      outermost first. */
  function Outermost(disk: Disk, d: string): (r: seq<string>)
    ensures |r| == |LayoutDirs(disk, d)|
  {
    Reverse(LayoutPaths(LayoutDirs(disk, d)))
  }

  datatype Memoised = Memoised(layouts: seq<string>, memo: LayoutMemo)

  /** `GetLayouts` of the content processor: the list remembered for
      `Dir(path)`, or the outermost-first list of existing layout files, which
      is then remembered. */
  function ContentLayouts(memo: LayoutMemo, path: string, disk: Disk): (r: Memoised)
    ensures Dir(path) in memo ==> r == Memoised(memo[Dir(path)], memo)
    ensures r.memo == memo[Dir(path) := r.layouts]
    ensures Dir(path) !in memo ==> r.layouts == Outermost(disk, Dir(path))
  {
    var dir := Dir(path);
    if dir in memo then Memoised(memo[dir], memo)
    else
      var layouts := Outermost(disk, dir);
      Memoised(layouts, memo[dir := layouts])
  }

  /** Every remembered list is what the walk would find on `disk`. */
  ghost predicate MemoSound(memo: LayoutMemo, disk: Disk) {
    forall d :: d in memo ==> memo[d] == Outermost(disk, d)
  }

  /** While the layout files do not change, the memo changes nothing about
      the answer, and stays sound. */
  lemma ContentLayoutsSound(memo: LayoutMemo, path: string, disk: Disk)
    requires MemoSound(memo, disk)
    ensures ContentLayouts(memo, path, disk).layouts == Outermost(disk, Dir(path))
    ensures MemoSound(ContentLayouts(memo, path, disk).memo, disk)
  {
  }

  /** Once a directory is remembered, every later call for a file in it
      returns the remembered list without looking at the disk, even if the
      layout files have changed since. */
  lemma ContentLayoutsRemembered(memo: LayoutMemo, path: string, disk: Disk,
                                 other: string, later: Disk)
    requires Dir(other) == Dir(path)
    ensures var first := ContentLayouts(memo, path, disk);
      ContentLayouts(first.memo, other, later) == first
  {
  }

  /** The two variants agree up to order: the content processor finds no
      layout exactly when the build driver falls back to the default, and
      otherwise lists the same files in reverse. */
  lemma VariantsAgree(path: string, disk: Disk)
    ensures Outermost(disk, Dir(path)) == [] <==> BuildLayouts(path, disk) == [DefaultLayout]
    ensures Outermost(disk, Dir(path)) != [] ==>
      Outermost(disk, Dir(path)) == Reverse(BuildLayouts(path, disk))
  {
    var found := LayoutPaths(LayoutDirs(disk, Dir(path)));
    if found != [] {
      ReverseReverse(found);
      assert BuildLayouts(path, disk) == found;
    }
  }

  /** Render `content` inside one layout: clone the partials, parse the
      built-in default or the layout file into the clone, and execute it
      (the default by its root template, a file by its base name). */
  function RenderLayout(e: Engine, layout: string, content: Bytes, page: Option<Meta>,
                        site: Meta): (r: Result<Bytes>)
    ensures e.clone.Err? ==> r == Err(e.clone.error)
    ensures e.clone.Ok? && layout == DefaultLayout ==>
      match e.parseDefault(e.clone.value)
      case Err(err) => r == Err(err)
      case Ok(parsed) => r == e.execute(parsed, LayoutData(site, page, content))
    ensures e.clone.Ok? && layout != DefaultLayout ==>
      match e.parseFiles(e.clone.value, [layout])
      case Err(err) => r == Err(err)
      case Ok(parsed) => r == e.executeNamed(parsed, Base(layout), LayoutData(site, page, content))
  {
    var t :- e.clone;
    var data := LayoutData(site, page, content);
    if layout == DefaultLayout then
      var parsed :- e.parseDefault(t);
      e.execute(parsed, data)
    else
      var parsed :- e.parseFiles(t, [layout]);
      e.executeNamed(parsed, Base(layout), data)
  }

  /** `processLayouts`: each layout's output becomes the next layout's
      `Content`; the first failure ends the fold with that error. */
  function ProcessLayouts(e: Engine, layouts: seq<string>, content: Bytes, page: Option<Meta>,
                          site: Meta): (r: Result<Bytes>)
    ensures layouts == [] ==> r == Ok(content)
    ensures layouts != [] && RenderLayout(e, layouts[0], content, page, site).Err? ==>
      r == Err(RenderLayout(e, layouts[0], content, page, site).error)
    ensures e.clone.Err? && layouts != [] ==> r == Err(e.clone.error)
  {
    if layouts == [] then Ok(content)
    else
      var out :- RenderLayout(e, layouts[0], content, page, site);
      ProcessLayouts(e, layouts[1..], out, page, site)
  }

  /** Applying a list of layouts is applying its first part and feeding the
      result to the rest. */
  lemma {:induction false} ProcessLayoutsAppend(e: Engine, a: seq<string>, b: seq<string>,
                                                content: Bytes, page: Option<Meta>, site: Meta)
    ensures ProcessLayouts(e, a + b, content, page, site) ==
      match ProcessLayouts(e, a, content, page, site)
      case Ok(mid) => ProcessLayouts(e, b, mid, page, site)
      case Err(err) => Err(err)
  {
    if a == [] {
      assert a + b == b;
    } else {
      assert (a + b)[0] == a[0];
      assert (a + b)[1..] == a[1..] + b;
      match RenderLayout(e, a[0], content, page, site)
      case Ok(out) =>
        ProcessLayoutsAppend(e, a[1..], b, out, page, site);
      case Err(_) =>
    }
  }

  /** One layout is one render. */
  lemma ProcessOneLayout(e: Engine, layout: string, content: Bytes, page: Option<Meta>, site: Meta)
    ensures ProcessLayouts(e, [layout], content, page, site) ==
      RenderLayout(e, layout, content, page, site)
  {
    var r := RenderLayout(e, layout, content, page, site);
    if r.Ok? {
      assert [layout][1..] == [];
    }
  }

  /** The page inside `layouts`, innermost first: the first layout wraps the
      content and the last one wraps everything. */
  function Nested(open: string -> Bytes, close: string -> Bytes, layouts: seq<string>, content: Bytes): (r: Bytes)
    decreases |layouts|
  {
    if layouts == [] then content
    else
      var last := layouts[|layouts| - 1];
      open(last) + Nested(open, close, layouts[..|layouts| - 1], content) + close(last)
  }

  /** When each layout renders any content between an opening and a closing
      part of its own, applying the layouts nests them: the innermost layout
      sits directly around the page and the outermost one is on the outside. */
  lemma {:induction false} ProcessLayoutsNests(e: Engine, layouts: seq<string>, content: Bytes,
                                               page: Option<Meta>, site: Meta,
                                               open: string -> Bytes, close: string -> Bytes)
    requires forall k, c :: 0 <= k < |layouts| ==>
      RenderLayout(e, layouts[k], c, page, site) == Ok(open(layouts[k]) + c + close(layouts[k]))
    ensures ProcessLayouts(e, layouts, content, page, site) == Ok(Nested(open, close, layouts, content))
    decreases |layouts|
  {
    if layouts != [] {
      var n := |layouts| - 1;
      var init, last := layouts[..n], layouts[n];
      assert layouts == init + [last];
      forall k, c | 0 <= k < |init|
        ensures RenderLayout(e, init[k], c, page, site) == Ok(open(init[k]) + c + close(init[k]))
      {
        assert init[k] == layouts[k];
      }
      ProcessLayoutsNests(e, init, content, page, site, open, close);
      ProcessLayoutsAppend(e, init, [last], content, page, site);
      var mid := Nested(open, close, init, content);
      ProcessOneLayout(e, last, mid, page, site);
      assert RenderLayout(e, layouts[n], mid, page, site) == Ok(open(last) + mid + close(last));
    }
  }
}

=== FILE: lifecycle.dfy ===
/** The build driver: `ProcessContent`, which wires the pipelines, the
    fingerprint cache, the dependency graph and the scheduler together, and
    `Build`, which runs the build phases in a fixed order and stops at the
    first failure. Everything the driver consults outside the model (plugin
    loading, copying the public directory, the configuration file and its
    JSON image, the partials set, the walk of `content`) is part of `Env`. */
module Lifecycle {
  import opened Wrappers
  import opened ByteStrings
  import opened FileSystem
  import opened FilePath
  import opened Plugins
  import Templates
  import Pipelines
  import Cache
  import Dag
  import Hash
  import Rebuild
  import Scheduler
  import opened Sequencing

  const CacheName: string := ".cache"
  const PluginsDir: string := "plugins"
  const PublicDir: string := "public"
  const PartialsDir: string := "partials"

  /** The world outside the model. `loadPlugins`, `loadConfig` and
      `loadPartials` are what the loaders return when they run; `copyPublic`
      is `util.CopyDirectory("public", outputDir)`; `marshal` and `unmarshal`
      are `encoding/json` on the configuration map (`unmarshal` gives the
      decoded object); `noPartials` is the empty partials set; `walk` is
      what `filepath.Walk("content")` reports, used by both the graph builder
      and the scheduler. */
  datatype Env = Env(
    outputDir: string,
    loadPlugins: Result<seq<Plugin>>,
    copyPublic: Disk -> Result<Disk>,
    loadConfig: Result<Meta>,
    marshal: Meta -> Result<Bytes>,
    unmarshal: Bytes -> Result<Meta>,
    loadPartials: Result<Templates.Engine>,
    noPartials: Templates.Engine,
    tools: Pipelines.Tools,
    merge: (Bytes, Bytes) -> Result<Bytes>,
    codec: Cache.Codec,
    hasher: Hash.Hasher,
    walk: seq<WalkEntry>)

  /** `fmt.Errorf("<context>: %w", err)` on the error path. */
  function Context<T>(ctx: string, r: Result<T>): (s: Result<T>)
    ensures r.Ok? ==> s == r
    ensures r.Err? ==> s == Err(Wrapped(ctx, r.error))
  {
    match r
    case Ok(v) => Ok(v)
    case Err(e) => Err(Wrapped(ctx, e))
  }

  /** The path of the cache file. */
  function CachePath(env: Env): string {
    Join(env.outputDir, CacheName)
  }

  /** Absent, according to `os.Stat` and `os.IsNotExist`. */
  predicate Absent(disk: Disk, p: string) {
    Stat(disk, p).Some? && IsNotExist(Stat(disk, p).value)
  }

  /** What `ProcessContent` has decided before processing anything: the
      opened cache, the dependency graph and the selection. */
  datatype Selected = Selected(start: Cache.Opened, graph: Dag.Graph<string>, selection: Rebuild.Rebuild)

  /** Open the cache, build the graph over `content` and select the files to
      rebuild, each failure wrapped with its step's context. */
  function SelectChanged(env: Env, disk: Disk): (r: Result<Selected>)
    ensures Cache.New(CachePath(env), disk, env.codec).Err? ==>
      r == Err(Wrapped("error creating cache", Cache.New(CachePath(env), disk, env.codec).error))
    ensures r.Ok? ==> (
      && Cache.New(CachePath(env), disk, env.codec) == Ok(r.value.start)
      && Dag.BuildGraph(PartialsDir, env.walk, r.value.start.disk) == Ok(r.value.graph)
      && Dag.Valid(r.value.graph)
      && Rebuild.GetFilesToRebuild(r.value.start.cache, r.value.graph, r.value.start.disk, env.hasher)
           == Ok(r.value.selection)
      && r.value.selection.cache.path == CachePath(env))
    ensures Cache.New(CachePath(env), disk, env.codec).Ok? ==>
      var start := Cache.New(CachePath(env), disk, env.codec).value;
      var g := Dag.BuildGraph(PartialsDir, env.walk, start.disk);
      && (g.Err? ==> r == Err(Wrapped("error building dependency graph", g.error)))
      && (g.Ok? && Rebuild.GetFilesToRebuild(start.cache, g.value, start.disk, env.hasher).Err? ==>
            r == Err(Wrapped("error getting files to rebuild",
                             Rebuild.GetFilesToRebuild(start.cache, g.value, start.disk, env.hasher).error)))
  {
    var start :- Context("error creating cache", Cache.New(CachePath(env), disk, env.codec));
    var g :- Context("error building dependency graph", Dag.BuildGraph(PartialsDir, env.walk, start.disk));
    var selection :- Context("error getting files to rebuild",
                             Rebuild.GetFilesToRebuild(start.cache, g, start.disk, env.hasher));
    Ok(Selected(start, g, selection))
  }

  /** Over a walk of `content` that matches the disk, a missing `content`
      directory stops the build at the graph, with the `os.Stat` error. */
  lemma MissingContentFails(env: Env, disk: Disk)
    requires Cache.New(CachePath(env), disk, env.codec).Ok?
    requires var d := Cache.New(CachePath(env), disk, env.codec).value.disk;
      WalkOf(d, Pipelines.ContentDir, env.walk) && Stat(d, Pipelines.ContentDir).Some?
    ensures var d := Cache.New(CachePath(env), disk, env.codec).value.disk;
      SelectChanged(env, disk) == Err(Wrapped("error building dependency graph", Stat(d, Pipelines.ContentDir).value))
  {
    var d := Cache.New(CachePath(env), disk, env.codec).value.disk;
    Dag.BuildGraphMissingRoot(PartialsDir, Pipelines.ContentDir, env.walk, d);
  }

  /** The scheduler's view of the build: the pipelines, the tools, the
      partials, the configuration and the output directory. */
  function ProcessorOf(env: Env, config: Meta, engine: Templates.Engine, pipelines: seq<Pipelines.Pipeline>)
    : Scheduler.Processor
  {
    Scheduler.Processor(pipelines, env.tools, engine, config, env.outputDir, env.merge)
  }

  /** Process the selection, then save the cache. A processing error is
      returned as it is and the cache is not saved; what is saved is the
      selection's store. */
  function ProcessSelected(env: Env, proc: Scheduler.Processor, sel: Selected): (r: Result<Disk>)
    requires Scheduler.Ready(proc) && Scheduler.UnderContent(env.walk)
    ensures var written := Scheduler.ProcessAll(proc, env.walk, sel.selection.toRebuild, sel.start.disk);
      && (written.Err? ==> r == Err(written.error))
      && (r.Ok? ==> (
            && written.Ok?
            && r.value.files ==
                 written.value.files[sel.selection.cache.path := env.codec.encode(sel.selection.cache.store)]))
      && (written.Ok? ==> (r.Ok? <==> Cache.Save(sel.selection.cache, written.value, env.codec).Ok?))
      && (written.Ok? && Cache.Save(sel.selection.cache, written.value, env.codec).Err? ==>
            r == Err(Wrapped("error saving cache", Cache.Save(sel.selection.cache, written.value, env.codec).error)))
  {
    var written :- Scheduler.ProcessAll(proc, env.walk, sel.selection.toRebuild, sel.start.disk);
    Context("error saving cache", Cache.Save(sel.selection.cache, written, env.codec))
  }

  /** `ProcessContent`: build the pipeline list, select, then process the
      selection and save the cache. */
  function ProcessContent(env: Env, config: Meta, engine: Templates.Engine, plugins: seq<Plugin>, disk: Disk)
    : (r: Result<Disk>)
    requires Scheduler.UnderContent(env.walk)
    ensures Scheduler.PipelineList(plugins).Err? ==> r == Err(Scheduler.PipelineList(plugins).error)
    ensures Scheduler.PipelineList(plugins).Ok? && SelectChanged(env, disk).Err? ==>
      r == Err(SelectChanged(env, disk).error)
  {
    var pipelines :- Scheduler.PipelineList(plugins);
    var sel :- SelectChanged(env, disk);
    var proc := ProcessorOf(env, config, engine, pipelines);
    BuiltInsFirst(pipelines, Scheduler.PluginPipelines(plugins).value);
    ProcessSelected(env, proc, sel)
  }

  /** The built-in pipelines head the list, so the scheduler is ready. */
  lemma BuiltInsFirst(pipelines: seq<Pipelines.Pipeline>, adapters: seq<Pipelines.Pipeline>)
    requires pipelines == [Pipelines.Markdown, Pipelines.Html, Pipelines.Copy] + adapters
    ensures |pipelines| >= 3 && pipelines[0].Markdown? && pipelines[1].Html? && pipelines[2].Copy?
  {
  }

  /** After a successful `ProcessContent`, the next build opens exactly the
      cache this one selected with: the fingerprints recorded now are the
      baseline of the next comparison. */
  lemma NextBuildOpensSavedCache(env: Env, proc: Scheduler.Processor, sel: Selected)
    requires Scheduler.Ready(proc) && Scheduler.UnderContent(env.walk) && Cache.Faithful(env.codec)
    requires ProcessSelected(env, proc, sel).Ok?
    ensures var after := ProcessSelected(env, proc, sel).value;
      Cache.New(sel.selection.cache.path, after, env.codec) == Ok(Cache.Opened(sel.selection.cache, after))
  {
    var written := Scheduler.ProcessAll(proc, env.walk, sel.selection.toRebuild, sel.start.disk).value;
    Cache.SaveThenNew(sel.selection.cache, written, env.codec);
  }

  /** Without a cache file, every file of the graph that exists is selected:
      the cache opens empty and a SHA-256 fingerprint is never "". */
  lemma ColdStartSelectsAll(env: Env, disk: Disk)
    requires Hash.Sha256Shaped(env.hasher)
    requires CachePath(env) !in disk.files && CachePath(env) !in disk.faults
    requires SelectChanged(env, disk).Ok?
    ensures var sel := SelectChanged(env, disk).value;
      forall p :: p in sel.graph.nodes && Exists(sel.start.disk, p) ==> p in sel.selection.toRebuild
  {
    var sel := SelectChanged(env, disk).value;
    assert sel.start.cache.store == map[];
    Rebuild.ColdCacheRebuildsAll(sel.start.cache, sel.graph, sel.start.disk, env.hasher);
  }

  /** The build phases, in the order `Build` runs them. */
  datatype Phase =
    | Clean | LoadPlugins | RunPreBuild | OutputDir | PublicCopy | RunAssetsCopied
    | LoadConfig | ConfigHooks | LoadPartials | Content | RunPostBuild

  const Order: seq<Phase> :=
    [Clean, LoadPlugins, RunPreBuild, OutputDir, PublicCopy, RunAssetsCopied,
     LoadConfig, ConfigHooks, LoadPartials, Content, RunPostBuild]

  /** What the phases hand on to each other. */
  datatype State = State(disk: Disk, plugins: seq<Plugin>, config: Meta, engine: Templates.Engine)

  /** With `clean`, remove the cache file; its absence is no error. */
  function CleanCache(env: Env, clean: bool, disk: Disk): (r: Result<Disk>)
    ensures !clean ==> r == Ok(disk)
    ensures clean && r.Ok? ==> !Exists(r.value, CachePath(env)) && r.value.faults == disk.faults
    ensures clean && r.Ok? && !IsDir(disk, CachePath(env)) ==> Absent(r.value, CachePath(env))
    ensures r.Err? <==> clean && Remove(disk, CachePath(env)).Err? && !IsNotExist(Remove(disk, CachePath(env)).error)
    ensures r.Err? ==> r.error == Wrapped("error removing cache", Remove(disk, CachePath(env)).error)
  {
    if !clean then Ok(disk)
    else
      match Remove(disk, CachePath(env))
      case Ok(d) => Ok(d)
      case Err(e) => if IsNotExist(e) then Ok(disk) else Err(Wrapped("error removing cache", e))
  }

  /** `LoadPlugins`: no plugins without a `plugins` directory. */
  function LoadPluginsPhase(env: Env, disk: Disk): (r: Result<seq<Plugin>>)
    ensures Absent(disk, PluginsDir) ==> r == Ok([])
    ensures !Absent(disk, PluginsDir) ==> r == Context("error loading plugins", env.loadPlugins)
  {
    if Absent(disk, PluginsDir) then Ok([]) else Context("error loading plugins", env.loadPlugins)
  }

  /** A hook runner's error, unwrapped further by nobody. */
  function HookPhase(plugins: seq<Plugin>, h: Hook): (r: Option<Error>)
    ensures r.None? <==> forall j :: 0 <= j < |plugins| ==> Outcome(plugins[j], h).None?
  {
    RunHooks(plugins, h).err
  }

  /** `CopyPublicDirectory`: copy `public` into the output directory unless it
      is known not to exist. */
  function PublicCopyPhase(env: Env, disk: Disk): (r: Result<Disk>)
    ensures Absent(disk, PublicDir) ==> r == Ok(disk)
    ensures !Absent(disk, PublicDir) ==> r == Context("error copying public directory", env.copyPublic(disk))
  {
    if Absent(disk, PublicDir) then Ok(disk) else Context("error copying public directory", env.copyPublic(disk))
  }

  /** Marshal the configuration, pass it through the plugins' config hooks
      and unmarshal the result into the same map: decoded keys overwrite,
      keys the hooks dropped survive. */
  function ConfigPhase(env: Env, plugins: seq<Plugin>, config: Meta): (r: Result<Meta>)
    ensures r.Ok? ==> config.Keys <= r.value.Keys
    ensures r.Ok? ==> (
      && env.marshal(config).Ok?
      && RunConfigHooks(plugins, env.marshal(config).value).Ok?
      && var decoded := env.unmarshal(RunConfigHooks(plugins, env.marshal(config).value).value);
      && decoded.Ok?
      && forall k :: k in decoded.value ==> k in r.value && r.value[k] == decoded.value[k])
    ensures env.marshal(config).Err? ==> r == Err(Wrapped("error marshalling config", env.marshal(config).error))
    ensures env.marshal(config).Ok? ==>
      var hooked := RunConfigHooks(plugins, env.marshal(config).value);
      && (hooked.Err? ==> r == Err(hooked.error))
      && (hooked.Ok? && env.unmarshal(hooked.value).Err? ==>
            r == Err(Wrapped("error unmarshalling config", env.unmarshal(hooked.value).error)))
  {
    var bytes :- Context("error marshalling config", env.marshal(config));
    var hooked :- RunConfigHooks(plugins, bytes);
    var decoded :- Context("error unmarshalling config", env.unmarshal(hooked));
    Ok(config + decoded)
  }

  /** Plugins that leave the configuration alone, with a JSON image that
      reads back as written, leave the loaded configuration unchanged. */
  lemma ConfigPhaseIdentity(env: Env, plugins: seq<Plugin>, config: Meta)
    requires forall k, c :: 0 <= k < |plugins| ==> plugins[k].onConfigLoaded(c) == Ok(c)
    requires env.marshal(config).Ok? && env.unmarshal(env.marshal(config).value) == Ok(config)
    ensures ConfigPhase(env, plugins, config) == Ok(config)
  {
    ConfigHooksIdentity(plugins, env.marshal(config).value);
    assert config + config == config;
  }

  /** `LoadPartials`: the partials set, or the empty one without a
      `partials` directory. */
  function PartialsPhase(env: Env, disk: Disk): (r: Result<Templates.Engine>)
    ensures Absent(disk, PartialsDir) ==> r == Ok(env.noPartials)
    ensures !Absent(disk, PartialsDir) ==> r == Context("error loading partials", env.loadPartials)
  {
    if Absent(disk, PartialsDir) then Ok(env.noPartials) else Context("error loading partials", env.loadPartials)
  }

  /** Lift a hook runner's error into the phase result. */
  function Hooked(err: Option<Error>, st: State): (r: Result<State>)
    ensures r.Ok? <==> err.None?
  {
    match err
    case Some(e) => Err(e)
    case None => Ok(st)
  }

  /** The content phase: the configuration, the partials, the plugins and
      the disk in, the disk out. */
  type ContentStep = (Meta, Templates.Engine, seq<Plugin>, Disk) -> Result<Disk>

  /** One phase of `Build`, from the state the phases before it left. */
  function RunPhase(env: Env, clean: bool, content: ContentStep, ph: Phase, st: State): (r: Result<State>)
  {
    match ph
    case Clean =>
      var d :- CleanCache(env, clean, st.disk);
      Ok(st.(disk := d))
    case LoadPlugins =>
      var ps :- LoadPluginsPhase(env, st.disk);
      Ok(st.(plugins := ps))
    case RunPreBuild => Hooked(HookPhase(st.plugins, Hook.PreBuild), st)
    case OutputDir =>
      if MkdirAll(st.disk, env.outputDir).Some? then
        Err(Wrapped("error creating output directory", MkdirAll(st.disk, env.outputDir).value))
      else Ok(st)
    case PublicCopy =>
      var d :- PublicCopyPhase(env, st.disk);
      Ok(st.(disk := d))
    case RunAssetsCopied => Hooked(HookPhase(st.plugins, Hook.PublicAssetsCopied), st)
    case LoadConfig =>
      var c :- Context("error loading config", env.loadConfig);
      Ok(st.(config := c))
    case ConfigHooks =>
      var c :- ConfigPhase(env, st.plugins, st.config);
      Ok(st.(config := c))
    case LoadPartials =>
      var e :- PartialsPhase(env, st.disk);
      Ok(st.(engine := e))
    case Content =>
      var d :- content(st.config, st.engine, st.plugins, st.disk);
      Ok(st.(disk := d))
    case RunPostBuild => Hooked(HookPhase(st.plugins, Hook.PostBuild), st)
  }

  /** `Build`'s step: one phase from the state the phases before it left. */
  function Steps(env: Env, clean: bool, content: ContentStep): (step: (Phase, State) -> Result<State>)
    ensures forall ph, st :: step(ph, st) == RunPhase(env, clean, content, ph, st)
  {
    (ph: Phase, st: State) => RunPhase(env, clean, content, ph, st)
  }

  function Start(env: Env, disk: Disk): State {
    State(disk, [], map[], env.noPartials)
  }

  /** The phases of `Order` from the disk as it is, with `content` as the
      content phase. A run that stops early reports the error of the phase
      that failed, computed from the state the phases before it left, and
      starts no later phase. */
  function RunWith(env: Env, clean: bool, content: ContentStep, disk: Disk): (r: Progress<Phase, State>)
    ensures |r.ran| <= |Order| && r.ran == Order[..|r.ran|]
    ensures r.err.None? ==> r.ran == Order
    ensures r.err.Some? ==> r.ran != [] && RunPhase(env, clean, content, r.ran[|r.ran| - 1], r.state) == Err(r.err.value)
  {
    Fold(Steps(env, clean, content), Order, Start(env, disk))
  }

  /** The content phase of `Build`. */
  function ContentOf(env: Env): (content: ContentStep)
    requires Scheduler.UnderContent(env.walk)
    ensures forall c, e, ps, d :: content(c, e, ps, d) == ProcessContent(env, c, e, ps, d)
  {
    (c: Meta, e: Templates.Engine, ps: seq<Plugin>, d: Disk) => ProcessContent(env, c, e, ps, d)
  }

  /** `Build`: every phase in order, with `ProcessContent` as the content
      phase. */
  function Build(env: Env, clean: bool, disk: Disk): (r: Progress<Phase, State>)
    requires Scheduler.UnderContent(env.walk)
    ensures r.err.None? ==> r.ran == Order
  {
    RunWith(env, clean, ContentOf(env), disk)
  }

  lemma PostBuildIsLast(i: int)
    requires 0 <= i < |Order| && Order[i] == RunPostBuild
    ensures i == |Order| - 1
  {
  }

  /** The post-build hooks run only when every phase before them succeeded,
      content processing included; content is processed only after the
      configuration went through the plugins' hooks. */
  lemma PostBuildAfterContent(env: Env, clean: bool, content: ContentStep, disk: Disk)
    requires RunPostBuild in RunWith(env, clean, content, disk).ran
    ensures Order[7] == ConfigHooks && Order[9] == Content && Order[10] == RunPostBuild
    ensures Fold(Steps(env, clean, content), Order[..10], Start(env, disk)).err.None?
    ensures Fold(Steps(env, clean, content), Order[..10], Start(env, disk)).ran == Order[..10]
  {
    var run := RunWith(env, clean, content, disk);
    assert run == Fold(Steps(env, clean, content), Order, Start(env, disk));
    var i :| 0 <= i < |run.ran| && run.ran[i] == RunPostBuild;
    assert run.ran[i] == Order[i];
    PostBuildIsLast(i);
    FoldPrefix(Steps(env, clean, content), Order, Start(env, disk), 10);
  }

  /** A clean build removes the cache file before anything else runs: once
      the build gets past the first phase, the cache file is absent. */
  lemma CleanBuildForgetsCache(env: Env, content: ContentStep, disk: Disk)
    requires |RunWith(env, true, content, disk).ran| >= 2
    ensures !Exists(Fold(Steps(env, true, content), Order[..1], Start(env, disk)).state.disk, CachePath(env))
    ensures !IsDir(disk, CachePath(env)) ==>
      Absent(Fold(Steps(env, true, content), Order[..1], Start(env, disk)).state.disk, CachePath(env))
  {
    assert RunWith(env, true, content, disk) == Fold(Steps(env, true, content), Order, Start(env, disk));
    FoldPrefix(Steps(env, true, content), Order, Start(env, disk), 1);
    assert Order[..1] == [Clean];
    assert [Clean][1..] == [];
  }
}

=== FILE: markers.dfy ===
/** The partial-inclusion scanner of the dependency graph: a hand-written
    matcher equivalent to the regular expression `{{\s*partial\s+"([^"]+)"\s*}}`
    under Go's `FindAllStringSubmatch` (leftmost matches, scanning resumes
    after each match). The pattern is ASCII and `[^"]` accepts every byte but
    the quote, so matching bytes is the same as matching the UTF-8 text. */
module Markers {
  import opened Wrappers
  import opened ByteStrings
  import FilePath

  /** `\s` in Go's regexp syntax: tab, newline, form feed, carriage return and
      space (unlike `bytes.TrimSpace`, no vertical tab). */
  predicate IsBlank(b: byte) {
    b == 9 || b == 10 || b == 12 || b == 13 || b == 32
  }

  predicate Blank(w: Bytes) {
    forall k :: 0 <= k < |w| ==> IsBlank(w[k])
  }

  const Quote: byte := 34

  predicate QuoteFree(w: Bytes) {
    forall k :: 0 <= k < |w| ==> w[k] != Quote
  }

  /** "{{" */
  const Open: Bytes := [123, 123]
  /** "}}" */
  const Close: Bytes := [125, 125]
  /** "partial" */
  const Keyword: Bytes := [112, 97, 114, 116, 105, 97, 108]

  /** The text of one marker, given the white-space runs around its parts. */
  function Marker(w1: Bytes, w2: Bytes, name: Bytes, w3: Bytes): Bytes {
    Open + w1 + Keyword + w2 + [Quote] + name + [Quote] + w3 + Close
  }

  /** The runs the regular expression allows: `\s*`, `\s+`, `[^"]+`, `\s*`. */
  predicate WellFormed(w1: Bytes, w2: Bytes, name: Bytes, w3: Bytes) {
    Blank(w1) && w2 != [] && Blank(w2) && name != [] && QuoteFree(name) && Blank(w3)
  }

  predicate LiteralAt(s: Bytes, k: nat, lit: Bytes) {
    k + |lit| <= |s| && s[k..k + |lit|] == lit
  }

  /** The end of the run of blanks starting at `k`. */
  function SkipBlank(s: Bytes, k: nat): (r: nat)
    requires k <= |s|
    decreases |s| - k
    ensures k <= r <= |s|
    ensures forall m :: k <= m < r ==> IsBlank(s[m])
    ensures r == |s| || !IsBlank(s[r])
  {
    if k == |s| || !IsBlank(s[k]) then k else SkipBlank(s, k + 1)
  }

  /** The first quote at or after `k`, or the end of `s`. */
  function NextQuote(s: Bytes, k: nat): (r: nat)
    requires k <= |s|
    decreases |s| - k
    ensures k <= r <= |s|
    ensures forall m :: k <= m < r ==> s[m] != Quote
    ensures r == |s| || s[r] == Quote
  {
    if k == |s| || s[k] == Quote then k else NextQuote(s, k + 1)
  }

  /** One match: the captured name and the half-open span `[start, end)`. */
  datatype Hit = Hit(name: Bytes, start: nat, end: nat)

  /** The match starting exactly at `i`, if the pattern matches there. Each
      repetition in the pattern is followed by a byte it cannot consume, so
      greedy scanning never needs to back off. */
  function MatchAt(s: Bytes, i: nat): (r: Option<Hit>)
    requires i <= |s|
    ensures r.Some? ==> r.value.start == i && i < r.value.end <= |s|
  {
    if !LiteralAt(s, i, Open) then None
    else AfterOpen(s, i, SkipBlank(s, i + 2))
  }

  function AfterOpen(s: Bytes, i: nat, a: nat): (r: Option<Hit>)
    requires i + 2 <= a <= |s|
    ensures r.Some? ==> r.value.start == i && i < r.value.end <= |s|
  {
    if !LiteralAt(s, a, Keyword) then None
    else AfterKeyword(s, i, a, SkipBlank(s, a + 7))
  }

  function AfterKeyword(s: Bytes, i: nat, a: nat, b: nat): (r: Option<Hit>)
    requires i + 2 <= a && a + 7 <= b <= |s|
    ensures r.Some? ==> r.value.start == i && i < r.value.end <= |s|
  {
    if b == a + 7 || b == |s| || s[b] != Quote then None
    else AfterName(s, i, b, NextQuote(s, b + 1))
  }

  function AfterName(s: Bytes, i: nat, b: nat, c: nat): (r: Option<Hit>)
    requires i < b && b + 1 <= c <= |s|
    ensures r.Some? ==> r.value.start == i && i < r.value.end <= |s|
  {
    if c == b + 1 || c == |s| then None
    else
      var d := SkipBlank(s, c + 1);
      if !LiteralAt(s, d, Close) then None
      else Some(Hit(s[b + 1..c], i, d + 2))
  }

  lemma SkipBlankExact(s: Bytes, k: nat, r: nat)
    requires k <= r <= |s|
    requires forall m :: k <= m < r ==> IsBlank(s[m])
    requires r == |s| || !IsBlank(s[r])
    ensures SkipBlank(s, k) == r
  {
  }

  lemma NextQuoteExact(s: Bytes, k: nat, r: nat)
    requires k <= r <= |s|
    requires forall m :: k <= m < r ==> s[m] != Quote
    requires r == |s| || s[r] == Quote
    ensures NextQuote(s, k) == r
  {
  }

  /** Two adjacent slices equal to `x` and `y` make one equal to `x + y`. */
  lemma SliceJoin<T>(s: seq<T>, lo: nat, mid: nat, hi: nat, x: seq<T>, y: seq<T>)
    requires lo <= mid <= hi <= |s| && s[lo..mid] == x && s[mid..hi] == y
    ensures s[lo..hi] == x + y
  {
    assert s[lo..hi] == s[lo..mid] + s[mid..hi];
  }

  /** A slice equal to a concatenation splits into the two parts. */
  lemma SliceSplit<T>(s: seq<T>, lo: nat, hi: nat, x: seq<T>, y: seq<T>)
    requires lo <= hi <= |s| && s[lo..hi] == x + y
    ensures lo + |x| <= hi
    ensures s[lo..lo + |x|] == x && s[lo + |x|..hi] == y
  {
    assert s[lo..hi] == s[lo..lo + |x|] + s[lo + |x|..hi];
    assert s[lo..hi][..|x|] == x;
  }

  lemma BlankSlice(s: Bytes, k: nat, r: nat)
    requires k <= r <= |s| && Blank(s[k..r])
    ensures forall m :: k <= m < r ==> IsBlank(s[m])
  {
    assert forall m :: k <= m < r ==> s[m] == s[k..r][m - k];
  }

  lemma QuoteFreeSlice(s: Bytes, k: nat, r: nat)
    requires k <= r <= |s| && QuoteFree(s[k..r])
    ensures forall m :: k <= m < r ==> s[m] != Quote
  {
    assert forall m :: k <= m < r ==> s[m] == s[k..r][m - k];
  }

  /** A marker read back from its five fixed pieces, one piece at a time. */
  lemma MarkerFromSlices(s: Bytes, i: nat, a: nat, b: nat, c: nat, d: nat)
    requires i + 2 <= a && a + 7 <= b && b + 1 <= c && c + 1 <= d && d + 2 <= |s|
    requires s[i..i + 2] == Open && s[a..a + 7] == Keyword && s[d..d + 2] == Close
    requires s[b] == Quote && s[c] == Quote
    ensures s[i..d + 2] == Marker(s[i + 2..a], s[a + 7..b], s[b + 1..c], s[c + 1..d])
  {
    var w1, w2, name, w3 := s[i + 2..a], s[a + 7..b], s[b + 1..c], s[c + 1..d];
    assert s[b..b + 1] == [Quote] && s[c..c + 1] == [Quote];
    SliceJoin(s, i, i + 2, a, Open, w1);
    SliceJoin(s, i, a, a + 7, Open + w1, Keyword);
    SliceJoin(s, i, a + 7, b, Open + w1 + Keyword, w2);
    SliceJoin(s, i, b, b + 1, Open + w1 + Keyword + w2, [Quote]);
    SliceJoin(s, i, b + 1, c, Open + w1 + Keyword + w2 + [Quote], name);
    SliceJoin(s, i, c, c + 1, Open + w1 + Keyword + w2 + [Quote] + name, [Quote]);
    SliceJoin(s, i, c + 1, d, Open + w1 + Keyword + w2 + [Quote] + name + [Quote], w3);
    SliceJoin(s, i, d, d + 2, Open + w1 + Keyword + w2 + [Quote] + name + [Quote] + w3, Close);
  }

  /** The length of a marker is the sum of its parts. */
  lemma MarkerLength(w1: Bytes, w2: Bytes, name: Bytes, w3: Bytes)
    ensures |Marker(w1, w2, name, w3)| == 13 + |w1| + |w2| + |name| + |w3|
  {
  }

  /** The five fixed pieces of a marker found in a slice equal to it. */
  lemma SlicesFromMarker(s: Bytes, i: nat, w1: Bytes, w2: Bytes, name: Bytes, w3: Bytes)
    requires i + |Marker(w1, w2, name, w3)| <= |s|
    requires s[i..i + |Marker(w1, w2, name, w3)|] == Marker(w1, w2, name, w3)
    ensures var a := i + 2 + |w1|; var b := a + 7 + |w2|;
      var c := b + 1 + |name|; var d := c + 1 + |w3|;
      && s[i..i + 2] == Open && s[i + 2..a] == w1 && s[a..a + 7] == Keyword
      && s[a + 7..b] == w2 && s[b] == Quote && s[b + 1..c] == name
      && s[c] == Quote && s[c + 1..d] == w3 && s[d..d + 2] == Close
  {
    var a := i + 2 + |w1|;
    var b := a + 7 + |w2|;
    var c := b + 1 + |name|;
    var d := c + 1 + |w3|;
    SliceSplit(s, i, d + 2, Open + w1 + Keyword + w2 + [Quote] + name + [Quote] + w3, Close);
    SliceSplit(s, i, d, Open + w1 + Keyword + w2 + [Quote] + name + [Quote], w3);
    SliceSplit(s, i, c + 1, Open + w1 + Keyword + w2 + [Quote] + name, [Quote]);
    SliceSplit(s, i, c, Open + w1 + Keyword + w2 + [Quote], name);
    SliceSplit(s, i, b + 1, Open + w1 + Keyword + w2, [Quote]);
    SliceSplit(s, i, b, Open + w1 + Keyword, w2);
    SliceSplit(s, i, a + 7, Open + w1, Keyword);
    SliceSplit(s, i, a, Open, w1);
    assert s[b] == s[b..b + 1][0] && s[c] == s[c..c + 1][0];
  }

  /** The positions `MatchAt` reaches when it succeeds, and what lies
      between them. */
  lemma MatchAtParts(s: Bytes, i: nat) returns (a: nat, b: nat, c: nat, d: nat)
    requires i <= |s| && MatchAt(s, i).Some?
    ensures i + 2 <= a && a + 7 < b && b + 1 < c && c + 1 <= d && d + 2 <= |s|
    ensures MatchAt(s, i).value == Hit(s[b + 1..c], i, d + 2)
    ensures s[i..i + 2] == Open && s[a..a + 7] == Keyword && s[d..d + 2] == Close
    ensures s[b] == Quote && s[c] == Quote
    ensures forall m :: i + 2 <= m < a ==> IsBlank(s[m])
    ensures forall m :: a + 7 <= m < b ==> IsBlank(s[m])
    ensures forall m :: b + 1 <= m < c ==> s[m] != Quote
    ensures forall m :: c + 1 <= m < d ==> IsBlank(s[m])
  {
    a := SkipBlank(s, i + 2);
    b := SkipBlank(s, a + 7);
    c := NextQuote(s, b + 1);
    d := SkipBlank(s, c + 1);
  }

  /** Every match the scanner reports is the text of a well-formed marker. */
  lemma MatchAtSound(s: Bytes, i: nat)
    requires i <= |s| && MatchAt(s, i).Some?
    ensures var h := MatchAt(s, i).value;
      exists w1, w2, w3 :: WellFormed(w1, w2, h.name, w3) && s[i..h.end] == Marker(w1, w2, h.name, w3)
  {
    var a, b, c, d := MatchAtParts(s, i);
    MarkerFromSlices(s, i, a, b, c, d);
    var w1, w2, name, w3 := s[i + 2..a], s[a + 7..b], s[b + 1..c], s[c + 1..d];
    assert Blank(w1) && Blank(w2) && QuoteFree(name) && Blank(w3);
    assert WellFormed(w1, w2, name, w3);
  }

  /** `MatchAt` succeeds once each stage lands where expected. */
  lemma MatchAtStages(s: Bytes, i: nat, a: nat, b: nat, c: nat, d: nat)
    requires i + 2 <= a && a + 7 < b && b + 1 < c && c + 1 <= d && d + 2 <= |s|
    requires s[i..i + 2] == Open && SkipBlank(s, i + 2) == a && s[a..a + 7] == Keyword
    requires SkipBlank(s, a + 7) == b && s[b] == Quote
    requires NextQuote(s, b + 1) == c && SkipBlank(s, c + 1) == d && s[d..d + 2] == Close
    ensures MatchAt(s, i) == Some(Hit(s[b + 1..c], i, d + 2))
  {
    assert LiteralAt(s, i, Open) && LiteralAt(s, a, Keyword) && LiteralAt(s, d, Close);
  }

  /** `MatchAt` succeeds on text laid out as a well-formed marker. */
  lemma CompleteFromSlices(s: Bytes, i: nat, a: nat, b: nat, c: nat, d: nat)
    requires i + 2 <= a && a + 7 < b && b + 1 < c && c + 1 <= d && d + 2 <= |s|
    requires s[i..i + 2] == Open && s[a..a + 7] == Keyword && s[d..d + 2] == Close
    requires s[b] == Quote && s[c] == Quote
    requires Blank(s[i + 2..a]) && Blank(s[a + 7..b]) && QuoteFree(s[b + 1..c]) && Blank(s[c + 1..d])
    ensures MatchAt(s, i) == Some(Hit(s[b + 1..c], i, d + 2))
  {
    assert s[a] == s[a..a + 7][0] && s[d] == s[d..d + 2][0];
    BlankSlice(s, i + 2, a);
    SkipBlankExact(s, i + 2, a);
    BlankSlice(s, a + 7, b);
    SkipBlankExact(s, a + 7, b);
    QuoteFreeSlice(s, b + 1, c);
    NextQuoteExact(s, b + 1, c);
    BlankSlice(s, c + 1, d);
    SkipBlankExact(s, c + 1, d);
    MatchAtStages(s, i, a, b, c, d);
  }

  /** Every well-formed marker in the text is found where it starts. */
  lemma MatchAtComplete(s: Bytes, i: nat, w1: Bytes, w2: Bytes, name: Bytes, w3: Bytes)
    requires WellFormed(w1, w2, name, w3)
    requires i + |Marker(w1, w2, name, w3)| <= |s|
    requires s[i..i + |Marker(w1, w2, name, w3)|] == Marker(w1, w2, name, w3)
    ensures MatchAt(s, i) == Some(Hit(name, i, i + |Marker(w1, w2, name, w3)|))
  {
    var a := i + 2 + |w1|;
    var b := a + 7 + |w2|;
    var c := b + 1 + |name|;
    var d := c + 1 + |w3|;
    MarkerLength(w1, w2, name, w3);
    SlicesFromMarker(s, i, w1, w2, name, w3);
    CompleteFromSlices(s, i, a, b, c, d);
  }

  /** Some reported match spans position `p`. */
  ghost predicate Covered(hits: seq<Hit>, p: nat) {
    exists k :: 0 <= k < |hits| && hits[k].start <= p < hits[k].end
  }

  /** `FindAll` from position `i`: matches in textual order, never
      overlapping, each one a match at its start. */
  function ScanFrom(s: Bytes, i: nat): (hits: seq<Hit>)
    requires i <= |s|
    decreases |s| - i
    ensures forall k :: 0 <= k < |hits| ==>
      i <= hits[k].start < hits[k].end <= |s| && MatchAt(s, hits[k].start) == Some(hits[k])
    ensures forall j, k :: 0 <= j < k < |hits| ==> hits[j].end <= hits[k].start
  {
    if i == |s| then []
    else match MatchAt(s, i)
      case Some(h) =>
        var rest := ScanFrom(s, h.end);
        ConsOrdered(h, rest);
        [h] + rest
      case None =>
        ScanFrom(s, i + 1)
  }

  /** A match followed by matches that start after it stays ordered. */
  lemma ConsOrdered(h: Hit, rest: seq<Hit>)
    requires h.start < h.end
    requires forall k :: 0 <= k < |rest| ==> h.end <= rest[k].start < rest[k].end
    requires forall j, k :: 0 <= j < k < |rest| ==> rest[j].end <= rest[k].start
    ensures forall j, k :: 0 <= j < k < |[h] + rest| ==> ([h] + rest)[j].end <= ([h] + rest)[k].start
  {
    var hits := [h] + rest;
    forall j, k | 0 <= j < k < |hits| ensures hits[j].end <= hits[k].start {
      assert hits[k] == rest[k - 1];
      if j > 0 {
        assert hits[j] == rest[j - 1];
      }
    }
  }

  /** Every position where a match could start is reported or lies inside
      an earlier match: leftmost matching skips nothing. */
  lemma {:induction false} ScanFromCovers(s: Bytes, i: nat, p: nat)
    requires i <= p < |s| && MatchAt(s, p).Some?
    decreases |s| - i
    ensures Covered(ScanFrom(s, i), p)
  {
    var m := MatchAt(s, i);
    if i == p {
      assert m.Some?;
    }
    if m.Some? {
      var h := MatchAt(s, i).value;
      var rest := ScanFrom(s, h.end);
      assert ScanFrom(s, i) == [h] + rest;
      if p >= h.end {
        ScanFromCovers(s, h.end, p);
      }
      CoveredCons(h, rest, p);
    } else {
      assert ScanFrom(s, i) == ScanFrom(s, i + 1);
      ScanFromCovers(s, i + 1, p);
    }
  }

  lemma CoveredCons(h: Hit, rest: seq<Hit>, p: nat)
    requires h.start <= p < h.end || Covered(rest, p)
    ensures Covered([h] + rest, p)
  {
    var hits := [h] + rest;
    if h.start <= p < h.end {
      assert hits[0] == h;
    } else {
      var k :| 0 <= k < |rest| && rest[k].start <= p < rest[k].end;
      assert hits[k + 1] == rest[k];
    }
  }

  function Scan(s: Bytes): (hits: seq<Hit>)
    ensures forall k :: 0 <= k < |hits| ==>
      hits[k].start < hits[k].end <= |s| && MatchAt(s, hits[k].start) == Some(hits[k])
    ensures forall j, k :: 0 <= j < k < |hits| ==> hits[j].end <= hits[k].start
  {
    ScanFrom(s, 0)
  }

  /** Every match position of the text is inside some reported match. */
  lemma ScanCovers(s: Bytes, p: nat)
    requires p < |s| && MatchAt(s, p).Some?
    ensures Covered(Scan(s), p)
  {
    ScanFromCovers(s, 0, p);
  }

  /** `string(b)` for a byte slice. Go strings are byte strings, and so are
      the paths of this model: each character stands for one byte (its code
      is the byte's value), with no UTF-8 decoding. A partial name scanned
      from a file therefore spells the disk key of the partial it names. */
  function ToText(b: Bytes): (t: string)
    ensures |t| == |b|
  {
    seq(|b|, k requires 0 <= k < |b| => (b[k] as int) as char)
  }

  function PartialPaths(hits: seq<Hit>, partialsDir: string): (r: seq<string>)
    ensures |r| == |hits|
    ensures forall k :: 0 <= k < |hits| ==> r[k] == FilePath.Join(partialsDir, ToText(hits[k].name))
  {
    if hits == [] then []
    else [FilePath.Join(partialsDir, ToText(hits[0].name))] + PartialPaths(hits[1..], partialsDir)
  }

  /** `getDependencies` after the file is read: one `partialsDir/name` per
      marker, in textual order, duplicates kept. */
  function Dependencies(content: Bytes, partialsDir: string): (r: seq<string>)
    ensures |r| == |Scan(content)|
    ensures forall k :: 0 <= k < |r| ==> r[k] == FilePath.Join(partialsDir, ToText(Scan(content)[k].name))
  {
    PartialPaths(Scan(content), partialsDir)
  }

  /** A file that is exactly one marker depends on exactly that partial. */
  lemma SingleMarker(w1: Bytes, w2: Bytes, name: Bytes, w3: Bytes, partialsDir: string)
    requires WellFormed(w1, w2, name, w3)
    ensures Dependencies(Marker(w1, w2, name, w3), partialsDir) == [FilePath.Join(partialsDir, ToText(name))]
  {
    var m := Marker(w1, w2, name, w3);
    assert m[0..|m|] == m;
    MatchAtComplete(m, 0, w1, w2, name, w3);
    assert ScanFrom(m, |m|) == [];
    assert Scan(m) == [Hit(name, 0, |m|)];
  }
}

=== FILE: pipelines.dfy ===
/** The per-asset pipelines: Markdown, HTML, copy, and the adapter that
    hands an asset to a plugin. Each takes an asset (a path, a content stream
    and metadata), may write a mirrored file under `dist`, and returns the
    asset for the scheduler, an error, or both. */
module Pipelines {
  import opened Wrappers
  import opened ByteStrings
  import opened FileSystem
  import opened FilePath
  import opened FrontMatter
  import opened Plugins

  const ContentDir: string := "content"
  const OutputDir: string := "dist"

  /** An asset in flight. `content` is the stream: `Err` when reading it
      fails. A nil metadata map is `None`. */
  datatype Asset = Asset(path: string, content: Result<Bytes>, metadata: Option<Meta>)

  datatype Pipeline = Markdown | Html | Copy | Grpc(plugin: Plugin, name: string)

  /** The Markdown converter and the YAML decoder. */
  datatype Tools = Tools(convert: Bytes -> Result<Bytes>, yaml: YamlDecoder)

  /** What `Process` returns: the asset (nil when `None`), the error (nil
      when `None`), and the disk after any write. */
  datatype Processed = Processed(asset: Option<Asset>, err: Option<Error>, disk: Disk)

  function Unchanged(a: Asset, disk: Disk): Processed {
    Processed(Some(a), None, disk)
  }

  function Failure(e: Error, disk: Disk): Processed {
    Processed(None, Some(e), disk)
  }

  /** `Name()`. The Markdown pipeline declares none. */
  function Name(p: Pipeline): (r: Option<string>)
    ensures p.Html? ==> r == Some("html")
    ensures p.Copy? ==> r == Some("copy")
    ensures p.Grpc? ==> r == Some(p.name)
    ensures r.None? <==> p.Markdown?
  {
    match p
    case Markdown => None
    case Html => Some("html")
    case Copy => Some("copy")
    case Grpc(_, name) => Some(name)
  }

  /** `filepath.Join("dist", path[len("content"):])`; the slice requires the
      path to be at least as long as "content". */
  function MirrorPath(path: string): (r: string)
    requires |path| >= |ContentDir|
  {
    Join(OutputDir, path[|ContentDir|..])
  }

  /** A file under `content/` is mirrored at the same relative place under
      `dist/`. */
  lemma MirrorOfContentPath(rest: string)
    requires rest != [] && rest[0] != '/'
    ensures MirrorPath(ContentDir + "/" + rest) == OutputDir + "/" + rest
  {
    var p := ContentDir + "/" + rest;
    assert p[|ContentDir|..] == "/" + rest;
    assert TrimLeadingSlashes("/" + rest) == TrimLeadingSlashes(rest);
  }

  /** `path[:len(path)-3] + ".html"`: the Markdown rename. */
  function HtmlPath(path: string): (r: string)
    requires |path| >= 3
    ensures |r| == |path| + 2
    ensures r[..|path| - 3] == path[..|path| - 3]
  {
    path[..|path| - 3] + ".html"
  }

  /** A `.md` path becomes the same path with extension `.html`. */
  lemma HtmlPathRename(path: string)
    requires Ext(path) == ".md"
    ensures Ext(HtmlPath(path)) == ".html"
    ensures HtmlPath(path)[..|path| - 3] + ".md" == path
  {
    var r := HtmlPath(path);
    assert r[|r| - 5..] == ".html";
    ExtOfSuffix(r, ".html");
    assert path[|path| - 3..] == ".md";
  }

  /** The slices the pipeline takes of the asset path are in range: Go
      panics otherwise. */
  predicate Sliceable(p: Pipeline, path: string) {
    match p
    case Markdown => Ext(path) == ".md" ==> |path| >= 5
    case Html => Ext(path) == ".html" ==> |path| >= |ContentDir|
    case Copy => Ext(path) != ".md" && Ext(path) != ".html" ==> |path| >= |ContentDir|
    case Grpc(_, _) => true
  }

  /** Create the output file's directory, then the file with `data`; a
      failure of either returns no asset. */
  function Emit(disk: Disk, out: string, data: Bytes, a: Asset): (r: Processed)
    ensures r.err.None? <==> Dir(out) !in disk.faults && out !in disk.faults && !IsDir(disk, out)
    ensures r.err.None? ==> r == Processed(Some(a), None, disk.(files := disk.files[out := data]))
    ensures r.err.Some? ==> r.asset.None? && r.disk == disk
  {
    match MkdirAll(disk, Dir(out))
    case Some(e) => Failure(e, disk)
    case None =>
      match WriteFile(disk, out, data)
      case Err(e) => Failure(e, disk)
      case Ok(d) => Processed(Some(a), None, d)
  }

  /** The front matter and converted HTML of a Markdown asset, or the first
      read, front-matter or conversion error. */
  datatype Page = Page(meta: Option<Meta>, html: Bytes)

  function Convert(a: Asset, tools: Tools): (r: Result<Page>)
    ensures a.content.Err? ==> r == Err(a.content.error)
    ensures r.Ok? ==> a.content.Ok? && Split(a.content.value, tools.yaml).Ok?
    ensures r.Ok? ==> var parsed := Split(a.content.value, tools.yaml).value;
      r.value.meta == parsed.meta && tools.convert(parsed.body) == Ok(r.value.html)
  {
    var data :- a.content;
    var parsed :- Split(data, tools.yaml);
    var html :- tools.convert(parsed.body);
    Ok(Page(parsed.meta, html))
  }

  /** `MarkdownPipeline.Process`. */
  function ProcessMarkdown(a: Asset, disk: Disk, tools: Tools): (r: Processed)
    requires Sliceable(Markdown, a.path)
    ensures Ext(a.path) != ".md" ==> r == Unchanged(a, disk)
    ensures Ext(a.path) == ".md" && Convert(a, tools).Err? ==>
      r == Failure(Convert(a, tools).error, disk)
    ensures Ext(a.path) == ".md" && r.err.None? ==> (
      && Convert(a, tools).Ok?
      && r.asset == Some(Asset(HtmlPath(a.path), Ok(Convert(a, tools).value.html), Convert(a, tools).value.meta))
      && r.disk.files == disk.files[MirrorPath(HtmlPath(a.path)) := Convert(a, tools).value.html])
  {
    if Ext(a.path) != ".md" then Unchanged(a, disk)
    else
      match Convert(a, tools)
      case Err(e) => Failure(e, disk)
      case Ok(page) =>
        var path := HtmlPath(a.path);
        Emit(disk, MirrorPath(path), page.html, Asset(path, Ok(page.html), page.meta))
  }

  /** A Markdown document with front matter comes out renamed to `.html`,
      with the decoded front matter as its metadata and the conversion of
      the body alone as its content. */
  lemma MarkdownFrontMatter(path: string, y: Bytes, body: Bytes, disk: Disk, tools: Tools)
    requires Ext(path) == ".md" && |path| >= 5
    requires Undelimited(y)
    requires body != [] ==> !IsSpace(body[0]) && !IsSpace(body[|body| - 1])
    requires tools.yaml(y).Ok? && tools.convert(body).Ok?
    requires ProcessMarkdown(Asset(path, Ok(Delimiter + y + Delimiter + body), None), disk, tools).err.None?
    ensures var r := ProcessMarkdown(Asset(path, Ok(Delimiter + y + Delimiter + body), None), disk, tools);
      r.asset == Some(Asset(HtmlPath(path), Ok(tools.convert(body).value), tools.yaml(y).value))
  {
    var content := Delimiter + y + Delimiter + body;
    SplitCompose(y, [], body, [], tools.yaml);
    var head: Bytes := Delimiter + y + Delimiter;
    assert head + [] == head;
    assert head + body + [] == content;
    var a := Asset(path, Ok(content), None);
    assert Convert(a, tools) == Ok(Page(tools.yaml(y).value, tools.convert(body).value));
  }

  /** `HTMLPipeline.Process`: read the stream and mirror those bytes. */
  function ProcessHtml(a: Asset, disk: Disk): (r: Processed)
    requires Sliceable(Html, a.path)
    ensures Ext(a.path) != ".html" ==> r == Unchanged(a, disk)
    ensures Ext(a.path) == ".html" && a.content.Err? ==> r == Failure(a.content.error, disk)
    ensures Ext(a.path) == ".html" && r.err.None? ==> (
      && a.content.Ok?
      && r.asset == Some(a)
      && r.disk.files == disk.files[MirrorPath(a.path) := a.content.value])
  {
    if Ext(a.path) != ".html" then Unchanged(a, disk)
    else
      match a.content
      case Err(e) => Failure(e, disk)
      case Ok(data) => Emit(disk, MirrorPath(a.path), data, a.(content := Ok(data)))
  }

  /** `CopyPipeline.Process`: stream the content into the mirrored file. The
      file exists once it is created, even when reading the stream then
      fails; the returned asset's stream is drained. */
  function ProcessCopy(a: Asset, disk: Disk): (r: Processed)
    requires Sliceable(Copy, a.path)
    ensures Ext(a.path) == ".md" || Ext(a.path) == ".html" ==> r == Unchanged(a, disk)
    ensures Ext(a.path) != ".md" && Ext(a.path) != ".html" ==> (
      && (r.asset.None? <==>
            Dir(MirrorPath(a.path)) in disk.faults || MirrorPath(a.path) in disk.faults || IsDir(disk, MirrorPath(a.path)))
      && (r.asset.Some? ==> r.asset.value == a.(content := Ok([])))
      && (r.asset.Some? && a.content.Ok? ==>
           r.err.None? && r.disk.files == disk.files[MirrorPath(a.path) := a.content.value])
      && (r.asset.Some? && a.content.Err? ==>
           r.err == Some(a.content.error) && r.disk.files == disk.files[MirrorPath(a.path) := []]))
  {
    if Ext(a.path) == ".md" || Ext(a.path) == ".html" then Unchanged(a, disk)
    else
      var out := MirrorPath(a.path);
      var drained := a.(content := Ok([]));
      match a.content
      case Ok(data) => Emit(disk, out, data, drained)
      case Err(e) =>
        var created := Emit(disk, out, [], drained);
        if created.err.Some? then created else created.(err := Some(e))
  }

  /** `GRPC.Process`: send the whole content to the plugin under this
      pipeline's name; the reply's path and content are the result, with no
      metadata. Nothing is written. */
  function ProcessGrpc(plugin: Plugin, name: string, a: Asset, disk: Disk): (r: Processed)
    ensures r.disk == disk
    ensures a.content.Err? ==> r == Failure(a.content.error, disk)
    ensures a.content.Ok? ==>
      var reply := plugin.processAsset(Request(a.path, a.content.value, name));
      && (reply.Err? ==> r == Failure(reply.error, disk))
      && (reply.Ok? ==> r == Unchanged(Asset(reply.value.path, Ok(reply.value.content), None), disk))
  {
    match a.content
    case Err(e) => Failure(e, disk)
    case Ok(data) =>
      match plugin.processAsset(Request(a.path, data, name))
      case Err(e) => Failure(e, disk)
      case Ok(reply) => Unchanged(Asset(reply.path, Ok(reply.content), None), disk)
  }

  /** `Process` of any pipeline. */
  function Process(p: Pipeline, a: Asset, disk: Disk, tools: Tools): (r: Processed)
    requires Sliceable(p, a.path)
    ensures r.err.None? ==> r.asset.Some?
    ensures !p.Grpc? && r.asset.Some? ==>
      r.asset.value.path == a.path || (p.Markdown? && Ext(a.path) == ".md" && r.asset.value.path == HtmlPath(a.path))
  {
    match p
    case Markdown => ProcessMarkdown(a, disk, tools)
    case Html => ProcessHtml(a, disk)
    case Copy => ProcessCopy(a, disk)
    case Grpc(plugin, name) => ProcessGrpc(plugin, name, a, disk)
  }

  /** Each built-in pipeline passes over what it does not handle: an asset
      outside its extension comes back as it was, and nothing is written. */
  lemma BuiltinsPassOver(a: Asset, disk: Disk, tools: Tools)
    requires |a.path| >= |ContentDir|
    ensures Ext(a.path) != ".md" ==> Process(Markdown, a, disk, tools) == Unchanged(a, disk)
    ensures Ext(a.path) != ".html" ==> Process(Html, a, disk, tools) == Unchanged(a, disk)
    ensures Ext(a.path) == ".md" || Ext(a.path) == ".html" ==>
      Process(Copy, a, disk, tools) == Unchanged(a, disk)
  {
  }
}

=== FILE: plugins.dfy ===
/** Build plugins as the build driver uses them: four lifecycle hooks, the
    pipelines a plugin declares, and the asset-processing call behind a
    plugin pipeline. Each plugin's answers are given as values and
    functions; the process and RPC plumbing behind them is not modelled. */
module Plugins {
  import opened Wrappers
  import opened ByteStrings

  /** A pipeline a plugin declares: its name and the extensions it claims. */
  datatype PipelineDecl = PipelineDecl(name: string, extensions: seq<string>)

  /** The request a plugin pipeline sends and the reply it gets back. */
  datatype Request = Request(path: string, content: Bytes, pipelineName: string)
  datatype Reply = Reply(path: string, content: Bytes)

  /** A loaded plugin. The hooks without payload report only their error;
      `registerPipelines` gives the same answer on every call. */
  datatype Plugin = Plugin(
    name: string,
    onPreBuild: Option<Error>,
    onConfigLoaded: Bytes -> Result<Bytes>,
    onPublicAssetsCopied: Option<Error>,
    onPostBuild: Option<Error>,
    registerPipelines: Result<seq<PipelineDecl>>,
    processAsset: Request -> Result<Reply>)

  /** The hooks that carry no payload. */
  datatype Hook = PreBuild | PublicAssetsCopied | PostBuild

  function Outcome(p: Plugin, h: Hook): Option<Error> {
    match h
    case PreBuild => p.onPreBuild
    case PublicAssetsCopied => p.onPublicAssetsCopied
    case PostBuild => p.onPostBuild
  }

  /** The context each runner puts in front of a hook's error. */
  function HookContext(h: Hook): string {
    match h
    case PreBuild => "error running OnPreBuild hook"
    case PublicAssetsCopied => "error running OnPublicAssetsCopied hook"
    case PostBuild => "error running OnPostBuild hook"
  }

  const ConfigHookContext: string := "error running OnConfigLoaded hook"

  /** How far a runner got: how many plugins' hooks were called, and the
      wrapped error that stopped it, if any. */
  datatype HookRun = HookRun(invoked: nat, err: Option<Error>)

  /** `RunOnPreBuildHooks`, `RunOnPublicAssetsCopiedHooks` and
      `RunOnPostBuildHooks`: call the hook of each plugin in order and stop at
      the first one that fails, returning its error wrapped. */
  function RunHooks(plugins: seq<Plugin>, h: Hook): (r: HookRun)
    ensures r.invoked <= |plugins|
    ensures forall j :: 0 <= j < r.invoked && (r.err.Some? ==> j < r.invoked - 1) ==>
      Outcome(plugins[j], h).None?
    ensures r.err.None? <==> r.invoked == |plugins| && forall j :: 0 <= j < |plugins| ==> Outcome(plugins[j], h).None?
    ensures r.err.Some? ==> (
      && r.invoked >= 1
      && Outcome(plugins[r.invoked - 1], h).Some?
      && r.err.value == Wrapped(HookContext(h), Outcome(plugins[r.invoked - 1], h).value))
  {
    if plugins == [] then HookRun(0, None)
    else
      match Outcome(plugins[0], h)
      case Some(e) => HookRun(1, Some(Wrapped(HookContext(h), e)))
      case None =>
        var rest := RunHooks(plugins[1..], h);
        HookRun(rest.invoked + 1, rest.err)
  }

  /** Running the hooks of two groups of plugins is running the first group
      and, only if all of it succeeded, the second. */
  lemma {:induction false} RunHooksAppend(a: seq<Plugin>, b: seq<Plugin>, h: Hook)
    ensures RunHooks(a + b, h) ==
      if RunHooks(a, h).err.Some? then RunHooks(a, h)
      else HookRun(|a| + RunHooks(b, h).invoked, RunHooks(b, h).err)
  {
    if a == [] {
      assert a + b == b;
    } else {
      assert (a + b)[0] == a[0];
      assert (a + b)[1..] == a[1..] + b;
      RunHooksAppend(a[1..], b, h);
    }
  }

  /** `RunOnConfigLoadedHooks`: each plugin gets the configuration the one
      before returned; the first failure ends the run with its error wrapped
      and no configuration. */
  function RunConfigHooks(plugins: seq<Plugin>, config: Bytes): (r: Result<Bytes>)
    ensures plugins == [] ==> r == Ok(config)
    ensures plugins != [] && plugins[0].onConfigLoaded(config).Err? ==>
      r == Err(Wrapped(ConfigHookContext, plugins[0].onConfigLoaded(config).error))
    ensures r.Err? ==> r.error.Wrapped? && r.error.context == ConfigHookContext
  {
    if plugins == [] then Ok(config)
    else
      match plugins[0].onConfigLoaded(config)
      case Err(e) => Err(Wrapped(ConfigHookContext, e))
      case Ok(next) => RunConfigHooks(plugins[1..], next)
  }

  /** Threading the configuration through two groups of plugins is threading
      it through the first and feeding the result to the second. */
  lemma {:induction false} RunConfigHooksAppend(a: seq<Plugin>, b: seq<Plugin>, config: Bytes)
    ensures RunConfigHooks(a + b, config) ==
      match RunConfigHooks(a, config)
      case Ok(mid) => RunConfigHooks(b, mid)
      case Err(e) => Err(e)
  {
    if a == [] {
      assert a + b == b;
    } else {
      assert (a + b)[0] == a[0];
      assert (a + b)[1..] == a[1..] + b;
      match a[0].onConfigLoaded(config)
      case Ok(next) =>
        RunConfigHooksAppend(a[1..], b, next);
      case Err(_) =>
    }
  }

  /** Plugins whose config hook returns its input leave the configuration as
      loaded. */
  lemma {:induction false} ConfigHooksIdentity(plugins: seq<Plugin>, config: Bytes)
    requires forall k, c :: 0 <= k < |plugins| ==> plugins[k].onConfigLoaded(c) == Ok(c)
    ensures RunConfigHooks(plugins, config) == Ok(config)
  {
    if plugins != [] {
      assert plugins[0].onConfigLoaded(config) == Ok(config);
      ConfigHooksIdentity(plugins[1..], config);
    }
  }
}

=== FILE: rebuild.dfy ===
/** `getFilesToRebuild`: compare every node's current fingerprint with the
    cached one, mark the nodes that changed, and when a changed node is a
    partial also mark every node that includes it directly. Each node's
    cache entry is then set to its current fingerprint. A node whose file is
    gone is skipped; any other fingerprint error aborts. The selection is
    generic in the key type; the build instantiates it with paths. */
module Rebuild {
  import opened Wrappers
  import opened FileSystem
  import opened Dag
  import FilePath
  import Hash
  import Cache

  /** The cached fingerprint, "" on a miss (`Cache.Get`). */
  function Lookup<P(!new)>(store: map<P, string>, p: P): (r: string)
    ensures p in store ==> r == store[p]
    ensures p !in store ==> r == ""
  {
    if p in store then store[p] else ""
  }

  datatype Selection<P(==)> = Selection(marked: set<P>, store: map<P, string>)

  /** The node's file is there and its fingerprint differs from the cache. */
  ghost predicate Changed<P(!new)>(store: map<P, string>, fp: P -> Result<string>, p: P) {
    fp(p).Ok? && Lookup(store, p) != fp(p).value
  }

  /** `q`'s change marks `x`: `x` is `q` itself, or `q` is a partial and
      `x` names it among its dependencies. */
  ghost predicate MarkedBy<P(!new)>(g: Graph<P>, store: map<P, string>, fp: P -> Result<string>,
                                    isPartial: P -> bool, q: P, x: P) {
    && q in g.nodes && Changed(store, fp, q)
    && (x == q || (isPartial(q) && x in g.nodes && q in g.nodes[x].deps))
  }

  /** A fingerprint failure other than a missing file. */
  ghost predicate Fatal<P>(fp: P -> Result<string>, p: P) {
    fp(p).Err? && !IsNotExist(fp(p).error)
  }

  /** What one node contributes to the marked set. */
  function MarksOf<P(!new)>(g: Graph<P>, isPartial: P -> bool, p: P): (r: set<P>)
    requires Valid(g)
    ensures forall x :: x in r <==> x == p || (isPartial(p) && x in g.nodes && p in g.nodes[x].deps)
  {
    {p} + if isPartial(p) then set d | d in GetDependents(g, p) else {}
  }

  /** The loop over `ks`, with `acc` holding the marks and cache so far. */
  function SelectFrom<P(!new)>(g: Graph<P>, ks: seq<P>, fp: P -> Result<string>, isPartial: P -> bool,
                               acc: Selection<P>): (r: Result<Selection<P>>)
    requires Valid(g)
    decreases |ks|
    ensures r.Ok? <==> forall k :: 0 <= k < |ks| ==> !Fatal(fp, ks[k])
    ensures r.Err? ==> exists k :: 0 <= k < |ks| && fp(ks[k]) == Err(r.error) && Fatal(fp, ks[k])
  {
    if ks == [] then Ok(acc)
    else
      var p := ks[0];
      assert forall k :: 0 < k < |ks| ==> ks[k] == ks[1..][k - 1];
      match fp(p)
      case Err(e) =>
        if IsNotExist(e) then SelectFrom(g, ks[1..], fp, isPartial, acc) else Err(e)
      case Ok(h) =>
        var marked := if Lookup(acc.store, p) != h then acc.marked + MarksOf(g, isPartial, p) else acc.marked;
        SelectFrom(g, ks[1..], fp, isPartial, Selection(marked, acc.store[p := h]))
  }

  /** The marked set after the loop: the marks so far plus every mark a
      changed node of `ks` makes, judged against the cache as it was before
      the loop reached that node. */
  lemma {:induction false} SelectFromMarks<P(!new)>(g: Graph<P>, ks: seq<P>, fp: P -> Result<string>,
                                                    isPartial: P -> bool, acc: Selection<P>, store: map<P, string>)
    requires Valid(g) && Distinct(ks) && forall k :: 0 <= k < |ks| ==> ks[k] in g.nodes
    requires forall k :: 0 <= k < |ks| ==> Lookup(acc.store, ks[k]) == Lookup(store, ks[k])
    requires SelectFrom(g, ks, fp, isPartial, acc).Ok?
    decreases |ks|
    ensures forall x :: x in SelectFrom(g, ks, fp, isPartial, acc).value.marked <==>
      x in acc.marked || exists k :: 0 <= k < |ks| && MarkedBy(g, store, fp, isPartial, ks[k], x)
  {
    if ks != [] {
      var p, tail := ks[0], ks[1..];
      DistinctTail(ks);
      var next := if fp(p).Err? then acc else
        var h := fp(p).value;
        Selection(if Lookup(acc.store, p) != h then acc.marked + MarksOf(g, isPartial, p) else acc.marked,
                  acc.store[p := h]);
      assert SelectFrom(g, ks, fp, isPartial, acc) == SelectFrom(g, tail, fp, isPartial, next);
      forall k | 0 <= k < |tail| ensures Lookup(next.store, tail[k]) == Lookup(store, tail[k]) {
        assert tail[k] == ks[k + 1];
      }
      SelectFromMarks(g, tail, fp, isPartial, next, store);
      forall x
        ensures (x in next.marked || exists k :: 0 <= k < |tail| && MarkedBy(g, store, fp, isPartial, tail[k], x))
          <==> (x in acc.marked || exists k :: 0 <= k < |ks| && MarkedBy(g, store, fp, isPartial, ks[k], x))
      {
        assert x in next.marked <==> x in acc.marked || MarkedBy(g, store, fp, isPartial, p, x);
        MarkedBySplit(g, store, fp, isPartial, ks, x);
      }
    }
  }

  /** Some node of `ks` marks `x` exactly when its head does or some node of
      its tail does. */
  lemma MarkedBySplit<P(!new)>(g: Graph<P>, store: map<P, string>, fp: P -> Result<string>,
                               isPartial: P -> bool, ks: seq<P>, x: P)
    requires ks != []
    ensures (exists k :: 0 <= k < |ks| && MarkedBy(g, store, fp, isPartial, ks[k], x)) <==>
      MarkedBy(g, store, fp, isPartial, ks[0], x) ||
      exists k :: 0 <= k < |ks[1..]| && MarkedBy(g, store, fp, isPartial, ks[1..][k], x)
  {
    var tail := ks[1..];
    if exists k :: 0 <= k < |tail| && MarkedBy(g, store, fp, isPartial, tail[k], x) {
      var k :| 0 <= k < |tail| && MarkedBy(g, store, fp, isPartial, tail[k], x);
      assert ks[k + 1] == tail[k];
    }
    if exists k :: 0 < k < |ks| && MarkedBy(g, store, fp, isPartial, ks[k], x) {
      var k :| 0 < k < |ks| && MarkedBy(g, store, fp, isPartial, ks[k], x);
      assert tail[k - 1] == ks[k];
    }
  }

  /** The cache after the loop: every node of `ks` whose file is there holds
      its current fingerprint; every other entry is as it was. */
  lemma {:induction false} SelectFromStore<P(!new)>(g: Graph<P>, ks: seq<P>, fp: P -> Result<string>,
                                                    isPartial: P -> bool, acc: Selection<P>)
    requires Valid(g)
    requires SelectFrom(g, ks, fp, isPartial, acc).Ok?
    decreases |ks|
    ensures var s := SelectFrom(g, ks, fp, isPartial, acc).value.store;
      && (forall p :: p in ks && fp(p).Ok? ==> p in s && s[p] == fp(p).value)
      && (forall p :: !(p in ks && fp(p).Ok?) ==> (p in s <==> p in acc.store))
      && (forall p :: !(p in ks && fp(p).Ok?) && p in acc.store ==> s[p] == acc.store[p])
  {
    if ks != [] {
      var p, tail := ks[0], ks[1..];
      var next := if fp(p).Err? then acc else
        var h := fp(p).value;
        Selection(if Lookup(acc.store, p) != h then acc.marked + MarksOf(g, isPartial, p) else acc.marked,
                  acc.store[p := h]);
      assert SelectFrom(g, ks, fp, isPartial, acc) == SelectFrom(g, tail, fp, isPartial, next);
      SelectFromStore(g, tail, fp, isPartial, next);
      assert forall q :: q in ks <==> q == p || q in tail;
    }
  }

  /** `getFilesToRebuild` over the graph's nodes, from an empty marked set. */
  function Select<P(!new)>(g: Graph<P>, store: map<P, string>, fp: P -> Result<string>, isPartial: P -> bool)
    : (r: Result<Selection<P>>)
    requires Valid(g)
    ensures r.Ok? <==> forall p :: p in g.nodes ==> !Fatal(fp, p)
    ensures r.Err? ==> exists p :: p in g.nodes && fp(p) == Err(r.error) && Fatal(fp, p)
  {
    var r := SelectFrom(g, g.keys, fp, isPartial, Selection({}, store));
    KeysCoverNodes(g, fp);
    r
  }

  /** Judging the keys one by one judges every node. */
  lemma KeysCoverNodes<P(!new)>(g: Graph<P>, fp: P -> Result<string>)
    requires Valid(g)
    ensures (forall k :: 0 <= k < |g.keys| ==> !Fatal(fp, g.keys[k])) <==> forall p :: p in g.nodes ==> !Fatal(fp, p)
    ensures forall e :: (exists k :: 0 <= k < |g.keys| && fp(g.keys[k]) == Err(e) && Fatal(fp, g.keys[k])) ==>
      exists p :: p in g.nodes && fp(p) == Err(e) && Fatal(fp, p)
  {
    forall p | p in g.nodes ensures exists k :: 0 <= k < |g.keys| && g.keys[k] == p {
      assert p in g.keys;
    }
  }

  /** A node is marked exactly when it changed, or it includes a changed
      partial directly; dependents of dependents are not followed. */
  lemma SelectMarks<P(!new)>(g: Graph<P>, store: map<P, string>, fp: P -> Result<string>, isPartial: P -> bool)
    requires Valid(g) && Select(g, store, fp, isPartial).Ok?
    ensures forall x :: x in Select(g, store, fp, isPartial).value.marked <==>
      (x in g.nodes && Changed(store, fp, x))
      || exists q :: q in g.nodes && Changed(store, fp, q) && isPartial(q) && x in g.nodes && q in g.nodes[x].deps
  {
    var acc := Selection({}, store);
    SelectFromMarks(g, g.keys, fp, isPartial, acc, store);
    assert Select(g, store, fp, isPartial) == SelectFrom(g, g.keys, fp, isPartial, acc);
    forall x
      ensures (exists k :: 0 <= k < |g.keys| && MarkedBy(g, store, fp, isPartial, g.keys[k], x)) <==>
        (x in g.nodes && Changed(store, fp, x))
        || exists q :: q in g.nodes && Changed(store, fp, q) && isPartial(q) && x in g.nodes && q in g.nodes[x].deps
    {
      MarkedByKeys(g, store, fp, isPartial, x);
    }
  }

  /** Some key marks `x` exactly when `x` changed itself or includes a
      changed partial. */
  lemma MarkedByKeys<P(!new)>(g: Graph<P>, store: map<P, string>, fp: P -> Result<string>, isPartial: P -> bool, x: P)
    requires Valid(g)
    ensures (exists k :: 0 <= k < |g.keys| && MarkedBy(g, store, fp, isPartial, g.keys[k], x)) <==>
      (x in g.nodes && Changed(store, fp, x))
      || exists q :: q in g.nodes && Changed(store, fp, q) && isPartial(q) && x in g.nodes && q in g.nodes[x].deps
  {
    if x in g.nodes && Changed(store, fp, x) {
      assert x in g.keys;
      var k :| 0 <= k < |g.keys| && g.keys[k] == x;
      assert MarkedBy(g, store, fp, isPartial, g.keys[k], x);
    }
    if exists q :: q in g.nodes && Changed(store, fp, q) && isPartial(q) && x in g.nodes && q in g.nodes[x].deps {
      var q :| q in g.nodes && Changed(store, fp, q) && isPartial(q) && x in g.nodes && q in g.nodes[x].deps;
      assert q in g.keys;
      var k :| 0 <= k < |g.keys| && g.keys[k] == q;
      assert MarkedBy(g, store, fp, isPartial, g.keys[k], x);
    }
  }

  /** After selection every node whose file is there has its current
      fingerprint cached; missing files and other paths keep their entries. */
  lemma SelectStore<P(!new)>(g: Graph<P>, store: map<P, string>, fp: P -> Result<string>, isPartial: P -> bool)
    requires Valid(g) && Select(g, store, fp, isPartial).Ok?
    ensures var s := Select(g, store, fp, isPartial).value.store;
      && (forall p :: p in g.nodes && fp(p).Ok? ==> p in s && s[p] == fp(p).value)
      && (forall p :: !(p in g.nodes && fp(p).Ok?) ==> (p in s <==> p in store))
      && (forall p :: !(p in g.nodes && fp(p).Ok?) && p in store ==> s[p] == store[p])
  {
    SelectFromStore(g, g.keys, fp, isPartial, Selection({}, store));
  }

  /** A cold cache marks every node whose file is there, provided no
      fingerprint is the empty string. */
  lemma ColdCacheMarksAll<P(!new)>(g: Graph<P>, fp: P -> Result<string>, isPartial: P -> bool)
    requires Valid(g) && Select(g, map[], fp, isPartial).Ok?
    requires forall p :: fp(p).Ok? ==> fp(p).value != ""
    ensures forall p :: p in g.nodes && fp(p).Ok? ==> p in Select(g, map[], fp, isPartial).value.marked
  {
    SelectMarks(g, map[], fp, isPartial);
  }

  /** A second selection with the same fingerprints over the updated cache
      marks nothing and leaves the cache as it is. */
  lemma SelectIdempotent<P(!new)>(g: Graph<P>, store: map<P, string>, fp: P -> Result<string>, isPartial: P -> bool)
    requires Valid(g) && Select(g, store, fp, isPartial).Ok?
    ensures var s := Select(g, store, fp, isPartial).value.store;
      Select(g, s, fp, isPartial) == Ok(Selection({}, s))
  {
    var s := Select(g, store, fp, isPartial).value.store;
    SelectStore(g, store, fp, isPartial);
    assert Select(g, s, fp, isPartial).Ok?;
    SelectMarks(g, s, fp, isPartial);
    SelectStore(g, s, fp, isPartial);
    var s2 := Select(g, s, fp, isPartial).value.store;
    assert s2 == s;
    assert Select(g, s, fp, isPartial).value.marked == {};
  }

  /** When only a partial changed, exactly it and the nodes that include it
      directly are marked. */
  lemma PartialFansOut<P(!new)>(g: Graph<P>, store: map<P, string>, fp: P -> Result<string>,
                                isPartial: P -> bool, q: P)
    requires Valid(g) && Select(g, store, fp, isPartial).Ok?
    requires q in g.nodes && Changed(store, fp, q) && isPartial(q)
    requires forall p :: p in g.nodes && p != q ==> !Changed(store, fp, p)
    ensures Select(g, store, fp, isPartial).value.marked ==
      {q} + set x | x in g.nodes && q in g.nodes[x].deps
  {
    SelectMarks(g, store, fp, isPartial);
  }

  /** A path whose parent directory is named `partials`. */
  predicate InPartials(p: string) {
    FilePath.Base(FilePath.Dir(p)) == "partials"
  }

  /** The fingerprint the selection reads, `hash.New`. */
  function Fingerprints(disk: Disk, h: Hash.Hasher): string -> Result<string> {
    (p: string) => Hash.Fingerprint(disk, h, p)
  }

  /** The result of `getFilesToRebuild`: the marked paths and the cache. */
  datatype Rebuild = Rebuild(toRebuild: set<string>, cache: Cache.Cache)

  /** `getFilesToRebuild(c, d)` with the fingerprints of the files on `disk`. */
  function GetFilesToRebuild(c: Cache.Cache, g: Graph<string>, disk: Disk, h: Hash.Hasher): (r: Result<Rebuild>)
    requires Valid(g)
    ensures r.Ok? <==> forall p :: p in g.nodes ==> !Fatal(Fingerprints(disk, h), p)
    ensures r.Ok? ==> r.value.cache.path == c.path
  {
    var s :- Select(g, c.store, Fingerprints(disk, h), InPartials);
    Ok(Rebuild(s.marked, Cache.Cache(c.path, s.store)))
  }

  /** On a cold cache every node whose file exists is rebuilt: a SHA-256
      fingerprint is never the empty string. */
  lemma ColdCacheRebuildsAll(c: Cache.Cache, g: Graph<string>, disk: Disk, h: Hash.Hasher)
    requires Valid(g) && c.store == map[] && Hash.Sha256Shaped(h)
    requires GetFilesToRebuild(c, g, disk, h).Ok?
    ensures forall p :: p in g.nodes && Exists(disk, p) ==> p in GetFilesToRebuild(c, g, disk, h).value.toRebuild
  {
    var fp := Fingerprints(disk, h);
    forall p | fp(p).Ok? ensures fp(p).value != "" {
      Hash.FingerprintNonEmpty(disk, h, p);
    }
    ColdCacheMarksAll(g, fp, InPartials);
  }

  /** Rebuilding again against the saved cache, with no file changed,
      selects nothing. */
  lemma SecondRunRebuildsNothing(c: Cache.Cache, g: Graph<string>, disk: Disk, h: Hash.Hasher)
    requires Valid(g) && GetFilesToRebuild(c, g, disk, h).Ok?
    ensures var c2 := GetFilesToRebuild(c, g, disk, h).value.cache;
      GetFilesToRebuild(c2, g, disk, h) == Ok(Rebuild({}, c2))
  {
    SelectIdempotent(g, c.store, Fingerprints(disk, h), InPartials);
  }
}

=== FILE: scheduler.dfy ===
/** The content scheduler without its goroutines: which pipelines exist,
    which one an asset goes to, which walked files become assets, how a page
    result is laid out and written (or merged into the file already there),
    and the walk over `content` that stops at the first error. */
module Scheduler {
  import opened Wrappers
  import opened ByteStrings
  import opened FileSystem
  import opened FilePath
  import opened Plugins
  import opened Pipelines
  import opened Templates
  import opened Layouts

  const RegisterContext: string := "error registering pipelines"
  const RouteContext: string := "error getting plugin pipelines"

  /** One adapter per declared pipeline, in declaration order. */
  function Adapters(plugin: Plugin, decls: seq<PipelineDecl>): (r: seq<Pipeline>)
    ensures |r| == |decls|
    ensures forall k :: 0 <= k < |decls| ==> r[k] == Grpc(plugin, decls[k].name)
  {
    if decls == [] then [] else [Grpc(plugin, decls[0].name)] + Adapters(plugin, decls[1..])
  }

  /** The plugin declares a pipeline of this name. */
  predicate Declares(plugin: Plugin, name: string) {
    plugin.registerPipelines.Ok? &&
    exists i :: 0 <= i < |plugin.registerPipelines.value| && plugin.registerPipelines.value[i].name == name
  }

  /** The adapters of every plugin, plugin by plugin; the first registration
      error ends the construction. */
  function PluginPipelines(plugins: seq<Plugin>): (r: Result<seq<Pipeline>>)
    ensures r.Err? ==> r.error.Wrapped? && r.error.context == RegisterContext
  {
    if plugins == [] then Ok([])
    else
      match plugins[0].registerPipelines
      case Err(e) => Err(Wrapped(RegisterContext, e))
      case Ok(decls) =>
        var rest :- PluginPipelines(plugins[1..]);
        Ok(Adapters(plugins[0], decls) + rest)
  }

  /** The construction succeeds exactly when every plugin registers its
      pipelines without error. */
  lemma {:induction false} PluginPipelinesOk(plugins: seq<Plugin>)
    ensures PluginPipelines(plugins).Ok? <==> forall i :: 0 <= i < |plugins| ==> plugins[i].registerPipelines.Ok?
  {
    if plugins != [] {
      PluginPipelinesOk(plugins[1..]);
      assert forall i :: 1 <= i < |plugins| ==> plugins[i] == plugins[1..][i - 1];
    }
  }

  /** Every adapter belongs to one of the plugins and carries the name of a
      pipeline that plugin declares. */
  lemma {:induction false} PluginPipelinesDeclared(plugins: seq<Plugin>)
    requires PluginPipelines(plugins).Ok?
    ensures var ps := PluginPipelines(plugins).value;
      forall k :: 0 <= k < |ps| ==> ps[k].Grpc? && ps[k].plugin in plugins && Declares(ps[k].plugin, ps[k].name)
  {
    if plugins != [] {
      var decls := plugins[0].registerPipelines.value;
      var mine := Adapters(plugins[0], decls);
      var rest := PluginPipelines(plugins[1..]).value;
      PluginPipelinesDeclared(plugins[1..]);
      var ps := PluginPipelines(plugins).value;
      assert ps == mine + rest;
      forall k | 0 <= k < |ps|
        ensures ps[k].Grpc? && ps[k].plugin in plugins && Declares(ps[k].plugin, ps[k].name)
      {
        if k < |mine| {
          assert ps[k] == Grpc(plugins[0], decls[k].name);
        } else {
          assert ps[k] == rest[k - |mine|];
          assert ps[k].plugin in plugins[1..];
        }
      }
    }
  }

  /** The adapters of two groups of plugins are those of the first group
      followed by those of the second. */
  lemma {:induction false} PluginPipelinesAppend(a: seq<Plugin>, b: seq<Plugin>)
    requires PluginPipelines(a).Ok? && PluginPipelines(b).Ok?
    ensures PluginPipelines(a + b) == Ok(PluginPipelines(a).value + PluginPipelines(b).value)
  {
    if a == [] {
      assert a + b == b;
      assert PluginPipelines(a).value + PluginPipelines(b).value == PluginPipelines(b).value;
    } else {
      assert (a + b)[0] == a[0];
      assert (a + b)[1..] == a[1..] + b;
      match a[0].registerPipelines
      case Ok(decls) =>
        var x := PluginPipelines(a[1..]).value;
        var y := PluginPipelines(b).value;
        PluginPipelinesAppend(a[1..], b);
        var mine := Adapters(a[0], decls);
        assert mine + (x + y) == (mine + x) + y;
    }
  }

  /** The pipeline list of `ProcessContent`: Markdown, HTML and copy, then
      the plugin adapters. */
  function PipelineList(plugins: seq<Plugin>): (r: Result<seq<Pipeline>>)
    ensures r.Ok? <==> PluginPipelines(plugins).Ok?
    ensures r.Ok? ==> r.value == [Markdown, Html, Copy] + PluginPipelines(plugins).value
    ensures r.Err? ==> r.error == PluginPipelines(plugins).error
  {
    var adapters :- PluginPipelines(plugins);
    Ok([Markdown, Html, Copy] + adapters)
  }

  /** One of the declarations has this name and lists this extension. */
  predicate Claims(decls: seq<PipelineDecl>, name: string, ext: string) {
    exists i :: 0 <= i < |decls| && decls[i].name == name && ext in decls[i].extensions
  }

  /** A plugin pipeline whose plugin, asked again, declares a pipeline of its
      name that lists `ext`. */
  predicate ClaimedBy(p: Pipeline, ext: string) {
    p.Grpc? && p.plugin.registerPipelines.Ok? && Claims(p.plugin.registerPipelines.value, p.name, ext)
  }

  /** The search over the plugin pipelines from position `k`: the first that
      claims `ext`, none, or the error of asking a plugin again. */
  function PluginRoute(ps: seq<Pipeline>, k: nat, ext: string): (r: Result<Option<nat>>)
    requires k <= |ps|
    decreases |ps| - k
    ensures r.Ok? && r.value.Some? ==>
      k <= r.value.value < |ps| && ClaimedBy(ps[r.value.value], ext) &&
      forall i :: k <= i < r.value.value ==> !ClaimedBy(ps[i], ext)
    ensures r == Ok(None) ==> forall i :: k <= i < |ps| ==> !ClaimedBy(ps[i], ext)
    ensures r.Err? ==> (
      && r.error.Wrapped? && r.error.context == RouteContext
      && exists i :: k <= i < |ps| && ps[i].Grpc? && ps[i].plugin.registerPipelines == Err(r.error.cause))
  {
    if k == |ps| then Ok(None)
    else
      match ps[k]
      case Grpc(plugin, name) =>
        (match plugin.registerPipelines
         case Err(e) => Err(Wrapped(RouteContext, e))
         case Ok(decls) =>
           if Claims(decls, name, ext) then Ok(Some(k)) else PluginRoute(ps, k + 1, ext))
      case _ => PluginRoute(ps, k + 1, ext)
  }

  /** When every plugin pipeline's plugin registers without error, the search
      cannot fail. */
  lemma {:induction false} PluginRouteTotal(ps: seq<Pipeline>, k: nat, ext: string)
    requires k <= |ps|
    requires forall i :: k <= i < |ps| && ps[i].Grpc? ==> ps[i].plugin.registerPipelines.Ok?
    ensures PluginRoute(ps, k, ext).Ok?
    decreases |ps| - k
  {
    if k < |ps| {
      PluginRouteTotal(ps, k + 1, ext);
    }
  }

  /** The routing switch: `.md` to the first pipeline and `.html` to the
      second whatever the plugins claim, any other extension to the first
      plugin pipeline claiming it, else to the copy pipeline. */
  function Route(ps: seq<Pipeline>, ext: string): (r: Result<nat>)
    requires |ps| >= 3
    ensures ext == ".md" ==> r == Ok(0)
    ensures ext == ".html" ==> r == Ok(1)
    ensures r.Ok? ==> r.value < |ps|
    ensures r.Ok? && r.value >= 3 ==> (
      && ext != ".md" && ext != ".html" && ClaimedBy(ps[r.value], ext)
      && forall i :: 3 <= i < r.value ==> !ClaimedBy(ps[i], ext))
    ensures r == Ok(2) <==> ext != ".md" && ext != ".html" && PluginRoute(ps, 3, ext) == Ok(None)
    ensures r.Err? ==> r.error.Wrapped? && r.error.context == RouteContext
  {
    if ext == ".md" then Ok(0)
    else if ext == ".html" then Ok(1)
    else
      match PluginRoute(ps, 3, ext)
      case Err(e) => Err(e)
      case Ok(None) => Ok(2)
      case Ok(Some(k)) => Ok(k)
  }

  /** On the list `ProcessContent` builds, routing never fails, and an asset
      not claimed by any plugin pipeline goes to the copy pipeline. */
  lemma RouteOnBuiltList(plugins: seq<Plugin>, ext: string)
    requires PipelineList(plugins).Ok?
    ensures Route(PipelineList(plugins).value, ext).Ok?
    ensures var ps := PipelineList(plugins).value;
      ext != ".md" && ext != ".html" && (forall i :: 3 <= i < |ps| ==> !ClaimedBy(ps[i], ext)) ==>
      Route(ps, ext) == Ok(2)
  {
    var ps := PipelineList(plugins).value;
    var adapters := PluginPipelines(plugins).value;
    PluginPipelinesDeclared(plugins);
    forall i | 3 <= i < |ps| && ps[i].Grpc? ensures ps[i].plugin.registerPipelines.Ok? {
      assert ps[i] == adapters[i - 3];
      var p := adapters[i - 3].plugin;
      assert Declares(p, adapters[i - 3].name);
    }
    PluginRouteTotal(ps, 3, ext);
  }

  /** The walker's filter: a file, not a directory, whose name does not start
      with `_`, selected for rebuilding. */
  predicate Dispatched(e: WalkEntry, toRebuild: set<string>) {
    e.Visit? && !e.isDir && Base(e.path)[0] != '_' && e.path in toRebuild
  }

  /** Write `data` at `out` when nothing is there; otherwise merge it into the
      bytes already there and write the merge. */
  function WriteOrMerge(disk: Disk, out: string, data: Bytes, merge: (Bytes, Bytes) -> Result<Bytes>)
    : (r: Result<Disk>)
    ensures Stat(disk, out).Some? && IsNotExist(Stat(disk, out).value) ==> r == WriteFile(disk, out, data)
    ensures Stat(disk, out).Some? && !IsNotExist(Stat(disk, out).value) ==> r == Err(Stat(disk, out).value)
    ensures Exists(disk, out) ==>
      match merge(disk.files[out], data)
      case Ok(m) => r == WriteFile(disk, out, m)
      case Err(e) => r == Err(e)
    ensures Stat(disk, out).None? && !Exists(disk, out) ==> r == Err(IsDirectory(out))
    ensures r.Ok? ==> r.value.faults == disk.faults && r.value.files.Keys == disk.files.Keys + {out}
  {
    match Stat(disk, out)
    case Some(e) =>
      // Reading a path `Stat` cannot see fails with the error `Stat` gave.
      if IsNotExist(e) then WriteFile(disk, out, data) else Err(e)
    case None =>
      var existing :- ReadFile(disk, out);
      var merged :- merge(existing, data);
      WriteFile(disk, out, merged)
  }

  /** A merge that yields the new content makes write-or-merge a plain
      write. */
  lemma MergeTransparent(disk: Disk, out: string, data: Bytes, merge: (Bytes, Bytes) -> Result<Bytes>)
    requires forall before, after :: merge(before, after) == Ok(after)
    requires Stat(disk, out).None? || IsNotExist(Stat(disk, out).value)
    ensures WriteOrMerge(disk, out, data, merge) == WriteFile(disk, out, data)
  {
    if Exists(disk, out) {
      assert merge(disk.files[out], data) == Ok(data);
    } else if Stat(disk, out).None? {
      assert IsDir(disk, out) && out !in disk.faults;
    }
  }

  /** What the scheduler works with: the pipelines, the converter and YAML
      decoder, the template engine, the site configuration, the output
      directory and the merge of an old output with a new one. */
  datatype Processor = Processor(
    pipelines: seq<Pipeline>,
    tools: Tools,
    engine: Engine,
    site: Meta,
    outputDir: string,
    merge: (Bytes, Bytes) -> Result<Bytes>)

  /** The first three pipelines are the built-in ones, as `PipelineList`
      makes them. */
  predicate Ready(proc: Processor) {
    |proc.pipelines| >= 3 && proc.pipelines[0].Markdown? && proc.pipelines[1].Html? && proc.pipelines[2].Copy?
  }

  const SliceFailure: Error := Failed("slice bounds out of range")

  /** Lay out an `.html` result with the build driver's layouts and write or
      merge it at `outputDir + path[len("content"):]`. */
  function Finish(proc: Processor, a: Asset, disk: Disk, source: string): (r: Result<Disk>)
    ensures a.content.Err? ==> r == Err(Wrapped("buffer read error for " + source, a.content.error))
    ensures r.Ok? ==> a.content.Ok? && |a.path| >= |ContentDir|
    ensures r.Ok? ==> ProcessLayouts(proc.engine, BuildLayouts(a.path, disk), a.content.value, a.metadata, proc.site).Ok?
    ensures a.content.Ok? ==>
      var laid := ProcessLayouts(proc.engine, BuildLayouts(a.path, disk), a.content.value, a.metadata, proc.site);
      && (laid.Err? ==> r == Err(Wrapped("layout error for " + source, laid.error)))
      && (laid.Ok? && |a.path| < |ContentDir| ==> r == Err(SliceFailure))
      && (laid.Ok? && |a.path| >= |ContentDir| ==>
            var out := Join(proc.outputDir, a.path[|ContentDir|..]);
            && (MkdirAll(disk, Dir(out)).Some? ==> r == Err(MkdirAll(disk, Dir(out)).value))
            && (MkdirAll(disk, Dir(out)).None? ==> r == WriteOrMerge(disk, out, laid.value, proc.merge)))
  {
    var layouts := BuildLayouts(a.path, disk);
    match a.content
    case Err(e) => Err(Wrapped("buffer read error for " + source, e))
    case Ok(data) =>
      match ProcessLayouts(proc.engine, layouts, data, a.metadata, proc.site)
      case Err(e) => Err(Wrapped("layout error for " + source, e))
      case Ok(page) =>
        if |a.path| < |ContentDir| then Err(SliceFailure)
        else
          var out := Join(proc.outputDir, a.path[|ContentDir|..]);
          match MkdirAll(disk, Dir(out))
          case Some(e) => Err(e)
          case None => WriteOrMerge(disk, out, page, proc.merge)
  }

  /** The path the worker's own asset record holds once `Process` returns,
      which is the path its error messages name. The record is passed by
      pointer, and the Markdown pipeline renames it to `.html` in place as
      soon as the conversion succeeds, before it creates the output file;
      every other pipeline leaves the path alone (a plugin's answer is a
      fresh record). */
  function WorkerPath(p: Pipeline, path: string, data: Bytes, tools: Tools): (r: string)
    ensures r != path <==>
      p.Markdown? && Ext(path) == ".md" && |path| >= 3 && Convert(Asset(path, Ok(data), None), tools).Ok?
    ensures r != path ==> r == HtmlPath(path)
  {
    if p.Markdown? && Ext(path) == ".md" && |path| >= 3 && Convert(Asset(path, Ok(data), None), tools).Ok?
    then HtmlPath(path)
    else path
  }

  /** One worker iteration for the asset read from `path`: route, process,
      and finish an `.html` result; errors name the worker's asset path. */
  function Step(proc: Processor, path: string, data: Bytes, disk: Disk): (r: Result<Disk>)
    requires Ready(proc) && |path| >= |ContentDir|
    ensures Route(proc.pipelines, Ext(path)).Err? ==> r == Err(Route(proc.pipelines, Ext(path)).error)
    ensures Route(proc.pipelines, Ext(path)).Ok? ==>
      var p := proc.pipelines[Route(proc.pipelines, Ext(path)).value];
      var processed := Process(p, Asset(path, Ok(data), None), disk, proc.tools);
      var named := WorkerPath(p, path, data, proc.tools);
      && (processed.err.Some? ==> r == Err(Wrapped("pipeline error for " + named, processed.err.value)))
      && (processed.err.None? && Ext(processed.asset.value.path) == ".html" ==>
            r == Finish(proc, processed.asset.value, processed.disk, named))
      && (processed.err.None? && Ext(processed.asset.value.path) != ".html" ==> r == Ok(processed.disk))
  {
    var k :- Route(proc.pipelines, Ext(path));
    var p := proc.pipelines[k];
    var processed := Process(p, Asset(path, Ok(data), None), disk, proc.tools);
    var named := WorkerPath(p, path, data, proc.tools);
    match processed.err
    case Some(e) => Err(Wrapped("pipeline error for " + named, e))
    case None =>
      var a := processed.asset.value;
      if Ext(a.path) == ".html" then Finish(proc, a, processed.disk, named) else Ok(processed.disk)
  }

  /** An asset no plugin claims and that is neither Markdown nor HTML is
      copied byte for byte to its mirrored path, and nothing else changes. */
  lemma StepCopies(proc: Processor, path: string, data: Bytes, disk: Disk)
    requires Ready(proc) && |path| >= |ContentDir|
    requires Route(proc.pipelines, Ext(path)) == Ok(2)
    requires Step(proc, path, data, disk).Ok?
    ensures Step(proc, path, data, disk).value.files == disk.files[MirrorPath(path) := data]
  {
    var processed := Process(Copy, Asset(path, Ok(data), None), disk, proc.tools);
    assert processed.asset.value.path == path;
  }

  /** An HTML page is written twice: the HTML pipeline first mirrors the
      source bytes under `dist`, then `Finish` lays the page out and writes
      or merges it. With `dist` as the output directory, `Finish` therefore
      always finds the mirrored file and merges (see `FinishMerges`). */
  lemma StepHtml(proc: Processor, path: string, data: Bytes, disk: Disk)
    requires Ready(proc) && |path| >= |ContentDir| && Ext(path) == ".html"
    requires Step(proc, path, data, disk).Ok?
    ensures var a := Asset(path, Ok(data), None);
      && ProcessHtml(a, disk).err.None?
      && ProcessHtml(a, disk).disk.files == disk.files[MirrorPath(path) := data]
      && Step(proc, path, data, disk) == Finish(proc, a, ProcessHtml(a, disk).disk, path)
      && (proc.outputDir == OutputDir ==> Join(proc.outputDir, path[|ContentDir|..]) == MirrorPath(path))
  {
  }

  /** A Markdown page is converted and mirrored as `.html` under `dist` by
      its pipeline, then laid out by `Finish` under that new name. */
  lemma StepMarkdown(proc: Processor, path: string, data: Bytes, disk: Disk)
    requires Ready(proc) && |path| >= |ContentDir| && Ext(path) == ".md"
    requires Step(proc, path, data, disk).Ok?
    ensures var processed := ProcessMarkdown(Asset(path, Ok(data), None), disk, proc.tools);
      && processed.err.None?
      && processed.asset.value.path == HtmlPath(path)
      && Step(proc, path, data, disk) == Finish(proc, processed.asset.value, processed.disk, HtmlPath(path))
  {
    HtmlPathRename(path);
  }

  /** Once a Markdown page has converted, its errors name the `.html` path:
      a failure to create the output is a pipeline error for it, and a
      layout failure (here a failing clone of the partials) a layout error
      for it. */
  lemma StepMarkdownErrorsNameHtml(proc: Processor, path: string, data: Bytes, disk: Disk)
    requires Ready(proc) && |path| >= |ContentDir| && Ext(path) == ".md"
    requires Convert(Asset(path, Ok(data), None), proc.tools).Ok?
    ensures var processed := ProcessMarkdown(Asset(path, Ok(data), None), disk, proc.tools);
      && (processed.err.Some? ==>
            Step(proc, path, data, disk) == Err(Wrapped("pipeline error for " + HtmlPath(path), processed.err.value)))
      && (processed.err.None? && proc.engine.clone.Err? ==>
            Step(proc, path, data, disk) == Err(Wrapped("layout error for " + HtmlPath(path), proc.engine.clone.error)))
  {
    HtmlPathRename(path);
  }

  /** A successful `Finish` over an existing output merges the page into it. */
  lemma FinishMerges(proc: Processor, a: Asset, disk: Disk, source: string)
    requires Finish(proc, a, disk, source).Ok?
    requires Exists(disk, Join(proc.outputDir, a.path[|ContentDir|..]))
    ensures var out := Join(proc.outputDir, a.path[|ContentDir|..]);
      var page := ProcessLayouts(proc.engine, BuildLayouts(a.path, disk), a.content.value, a.metadata, proc.site).value;
      && proc.merge(disk.files[out], page).Ok?
      && Finish(proc, a, disk, source).value.files == disk.files[out := proc.merge(disk.files[out], page).value]
  {
  }

  /** A successful `Finish` where no output exists yet writes the page as
      laid out. */
  lemma FinishWritesFresh(proc: Processor, a: Asset, disk: Disk, source: string)
    requires Finish(proc, a, disk, source).Ok?
    requires Stat(disk, Join(proc.outputDir, a.path[|ContentDir|..])).Some?
    ensures var out := Join(proc.outputDir, a.path[|ContentDir|..]);
      var page := ProcessLayouts(proc.engine, BuildLayouts(a.path, disk), a.content.value, a.metadata, proc.site).value;
      Finish(proc, a, disk, source).value.files == disk.files[out := page]
  {
  }

  /** Every visited file lies under `content`, as `filepath.Walk("content")`
      reports them. */
  predicate UnderContent(walk: seq<WalkEntry>) {
    forall k :: 0 <= k < |walk| && walk[k].Visit? ==> |walk[k].path| >= |ContentDir|
  }

  /** The walk over `content` with each dispatched file processed in turn;
      the first walk, read or processing error ends it. */
  function Drive(proc: Processor, walk: seq<WalkEntry>, toRebuild: set<string>, disk: Disk)
    : (r: Result<Disk>)
    requires Ready(proc) && UnderContent(walk)
    ensures (forall k :: 0 <= k < |walk| ==> walk[k].Visit? && !Dispatched(walk[k], toRebuild)) ==>
      r == Ok(disk)
  {
    if walk == [] then Ok(disk)
    else
      assert UnderContent(walk[1..]) by {
        forall k | 0 <= k < |walk| - 1 && walk[1..][k].Visit? ensures |walk[1..][k].path| >= |ContentDir| {
          assert walk[1..][k] == walk[k + 1];
        }
      }
      assert forall k :: 0 <= k < |walk| - 1 ==> walk[1..][k] == walk[k + 1];
      match walk[0]
      case WalkFailed(_, e) => Err(e)
      case Visit(path, isDir) =>
        if !Dispatched(walk[0], toRebuild) then Drive(proc, walk[1..], toRebuild, disk)
        else
          var data :- ReadFile(disk, path);
          var next :- Step(proc, path, data, disk);
          Drive(proc, walk[1..], toRebuild, next)
  }

  /** Walking two stretches is walking the first and, if it succeeded, the
      second from where it left the disk. */
  lemma {:induction false} DriveAppend(proc: Processor, a: seq<WalkEntry>, b: seq<WalkEntry>,
                                       toRebuild: set<string>, disk: Disk)
    requires Ready(proc) && UnderContent(a) && UnderContent(b)
    ensures UnderContent(a + b)
    ensures Drive(proc, a + b, toRebuild, disk) ==
      match Drive(proc, a, toRebuild, disk)
      case Ok(mid) => Drive(proc, b, toRebuild, mid)
      case Err(e) => Err(e)
  {
    forall k | 0 <= k < |a + b| && (a + b)[k].Visit? ensures |(a + b)[k].path| >= |ContentDir| {
      if k < |a| { assert (a + b)[k] == a[k]; } else { assert (a + b)[k] == b[k - |a|]; }
    }
    if a == [] {
      assert a + b == b;
    } else {
      assert (a + b)[0] == a[0];
      assert (a + b)[1..] == a[1..] + b;
      assert UnderContent(a[1..]) by {
        forall k | 0 <= k < |a| - 1 && a[1..][k].Visit? ensures |a[1..][k].path| >= |ContentDir| {
          assert a[1..][k] == a[k + 1];
        }
      }
      match a[0]
      case WalkFailed(_, _) =>
      case Visit(path, _) =>
        if !Dispatched(a[0], toRebuild) {
          DriveAppend(proc, a[1..], b, toRebuild, disk);
        } else {
          match ReadFile(disk, path)
          case Err(_) =>
          case Ok(data) =>
            match Step(proc, path, data, disk)
            case Err(_) =>
            case Ok(next) =>
              DriveAppend(proc, a[1..], b, toRebuild, next);
        }
    }
  }

  /** With nothing selected for rebuilding, a walk without failures writes
      nothing. */
  lemma NothingSelectedWritesNothing(proc: Processor, walk: seq<WalkEntry>, disk: Disk)
    requires Ready(proc) && UnderContent(walk)
    requires forall k :: 0 <= k < |walk| ==> walk[k].Visit?
    ensures Drive(proc, walk, {}, disk) == Ok(disk)
  {
  }

  /** `ProcessContentWithProcessor`: nothing to do without a `content`
      directory; otherwise the walk. */
  function ProcessAll(proc: Processor, walk: seq<WalkEntry>, toRebuild: set<string>, disk: Disk)
    : (r: Result<Disk>)
    requires Ready(proc) && UnderContent(walk)
    ensures Stat(disk, ContentDir).Some? && IsNotExist(Stat(disk, ContentDir).value) ==> r == Ok(disk)
    ensures Stat(disk, ContentDir).None? || !IsNotExist(Stat(disk, ContentDir).value) ==>
      r == Drive(proc, walk, toRebuild, disk)
  {
    match Stat(disk, ContentDir)
    case Some(e) => if IsNotExist(e) then Ok(disk) else Drive(proc, walk, toRebuild, disk)
    case None => Drive(proc, walk, toRebuild, disk)
  }
}

=== FILE: sequencing.dfy ===
/** Running a sequence of phases, each from the state the one before left,
    until the first failure. */
module Sequencing {
  import opened Wrappers

  /** How far a run of phases got: the phases started, in order, the state
      the last of them started from (or the final state), and the error of
      the phase that failed. */
  datatype Progress<Ph, S> = Progress(err: Option<Error>, state: S, ran: seq<Ph>)

  /** Run the phases in order with `step`; the first failure ends the run,
      and no later phase is started. */
  function Fold<Ph, S>(step: (Ph, S) -> Result<S>, phases: seq<Ph>, st: S): (r: Progress<Ph, S>)
    ensures |r.ran| <= |phases| && r.ran == phases[..|r.ran|]
    ensures r.err.None? ==> r.ran == phases
    ensures r.err.Some? ==> r.ran != [] && step(r.ran[|r.ran| - 1], r.state) == Err(r.err.value)
  {
    if phases == [] then Progress(None, st, [])
    else
      match step(phases[0], st)
      case Err(e) => Progress(Some(e), st, [phases[0]])
      case Ok(next) =>
        var rest := Fold(step, phases[1..], next);
        assert phases[..|rest.ran| + 1] == [phases[0]] + phases[1..][..|rest.ran|];
        Progress(rest.err, rest.state, [phases[0]] + rest.ran)
  }

  /** Running two stretches of phases is running the first and, only if it
      completed, the second from the state it left. */
  lemma {:induction false} FoldAppend<Ph, S>(step: (Ph, S) -> Result<S>, a: seq<Ph>, b: seq<Ph>, st: S)
    ensures var first := Fold(step, a, st);
      Fold(step, a + b, st) ==
        if first.err.Some? then first
        else
          var second := Fold(step, b, first.state);
          Progress(second.err, second.state, a + second.ran)
  {
    if a == [] {
      assert a + b == b;
    } else {
      assert (a + b)[0] == a[0];
      assert (a + b)[1..] == a[1..] + b;
      match step(a[0], st)
      case Err(_) =>
      case Ok(next) =>
        FoldAppend(step, a[1..], b, next);
        var tail := Fold(step, a[1..], next);
        var whole := Fold(step, a[1..] + b, next);
        assert Fold(step, a + b, st) == Progress(whole.err, whole.state, [a[0]] + whole.ran);
        assert Fold(step, a, st) == Progress(tail.err, tail.state, [a[0]] + tail.ran);
        if tail.err.None? {
          var second := Fold(step, b, tail.state);
          assert whole.ran == a[1..] + second.ran;
          assert [a[0]] + (a[1..] + second.ran) == a + second.ran;
        }
    }
  }

  /** A phase starts only after every phase before it completed, from the
      state they left; when it is the phase that failed, that state is the
      one the run reports. */
  lemma FoldPrefix<Ph, S>(step: (Ph, S) -> Result<S>, phases: seq<Ph>, st: S, k: nat)
    requires k < |Fold(step, phases, st).ran|
    ensures Fold(step, phases[..k], st).err.None?
    ensures Fold(step, phases, st).err.Some? && k == |Fold(step, phases, st).ran| - 1 ==>
      Fold(step, phases, st).state == Fold(step, phases[..k], st).state
  {
    assert phases == phases[..k] + phases[k..];
    FoldAppend(step, phases[..k], phases[k..], st);
    var before := Fold(step, phases[..k], st);
    if before.err.None? && Fold(step, phases, st).err.Some? && k == |Fold(step, phases, st).ran| - 1 {
      var second := Fold(step, phases[k..], before.state);
      assert |second.ran| == 1;
      assert second.ran == [phases[k]];
      assert second.err.Some?;
    }
  }
}

=== FILE: templates.dfy ===
/** The `html/template` engine as the build sees it, and the content
    processor's template memo. Parsing and executing are parameters; the
    model decides only which sources are parsed into a clone of the partials
    set, which template is executed, with which data, and when a parsed set
    is reused. */
module Templates {
  import opened Wrappers
  import opened ByteStrings

  /** A parsed template set, as a handle the engine interprets. */
  datatype Template = Template(id: nat)

  /** What a layout is executed with. `LayoutData` is the value
      `processLayouts` passes (fields `Site`, `Page`, `Content`); `PageData`
      is the content processor's `templateData` (fields `Global`, `Page`,
      `Content`). A nil page map is `None`. */
  datatype Data =
    | LayoutData(site: Meta, page: Option<Meta>, content: Bytes)
    | PageData(global: Meta, page: Option<Meta>, content: Bytes)

  /** The engine operations on the partials set:
      `clone` is `Partials.Clone()` (the partials never change during a build,
      so every clone has the same outcome); `parseDefault` parses the built-in
      default layout into a set; `parseFiles` is `ParseFiles(paths...)`;
      `execute` runs the set's root template and `executeNamed` the template
      of the given name. */
  datatype Engine = Engine(
    clone: Result<Template>,
    parseDefault: Template -> Result<Template>,
    parseFiles: (Template, seq<string>) -> Result<Template>,
    execute: (Template, Data) -> Result<Bytes>,
    executeNamed: (Template, string, Data) -> Result<Bytes>)

  predicate CommaFree(s: string) {
    forall k :: 0 <= k < |s| ==> s[k] != ','
  }

  /** A list of paths none of which holds a comma. */
  predicate AllCommaFree(l: seq<string>) {
    forall k :: 0 <= k < |l| ==> CommaFree(l[k])
  }

  /** `strings.Join(l, ",")`. */
  function JoinComma(l: seq<string>): (r: string)
    ensures l == [] ==> r == ""
    ensures |l| >= 1 ==> |r| >= |l[0]| && r[..|l[0]|] == l[0]
    ensures |l| >= 2 ==> |r| > |l[0]| && r[|l[0]|] == ','
  {
    if l == [] then "" else if |l| == 1 then l[0] else l[0] + "," + JoinComma(l[1..])
  }

  /** The position of the first comma, or `|s|` when there is none. */
  function CommaIndex(s: string): (r: nat)
    ensures r <= |s|
    ensures r < |s| ==> s[r] == ','
    ensures forall k :: 0 <= k < r ==> s[k] != ','
  {
    if s == [] || s[0] == ',' then 0 else 1 + CommaIndex(s[1..])
  }

  /** `strings.Split(s, ",")`: the pieces between commas. */
  function SplitComma(s: string): (r: seq<string>)
    decreases |s|
    ensures r != []
    ensures AllCommaFree(r)
  {
    var i := CommaIndex(s);
    if i == |s| then [s] else [s[..i]] + SplitComma(s[i + 1..])
  }

  lemma CommaIndexOf(x: string, rest: string)
    requires CommaFree(x)
    ensures CommaIndex(x + rest) >= |x|
    ensures rest != [] && rest[0] == ',' ==> CommaIndex(x + rest) == |x|
  {
    var s := x + rest;
    forall k | 0 <= k < |x| ensures s[k] != ',' {
      assert s[k] == x[k];
    }
    if rest != [] && rest[0] == ',' {
      assert s[|x|] == ',';
    }
  }

  /** A comma-free piece followed by a comma splits off as the first piece. */
  lemma SplitCommaCons(x: string, tail: string)
    requires CommaFree(x)
    ensures SplitComma(x + "," + tail) == [x] + SplitComma(tail)
  {
    var s := x + "," + tail;
    assert s == x + ("," + tail);
    CommaIndexOf(x, "," + tail);
    assert s[..|x|] == x;
    assert s[|x| + 1..] == tail;
  }

  /** Splitting the memo key of a list of comma-free names gives the list
      back. */
  lemma {:induction false} SplitJoin(l: seq<string>)
    requires l != [] && AllCommaFree(l)
    ensures SplitComma(JoinComma(l)) == l
  {
    if |l| == 1 {
      assert JoinComma(l) == l[0];
      CommaIndexOf(l[0], []);
      assert l[0] + [] == l[0];
    } else {
      assert JoinComma(l) == l[0] + "," + JoinComma(l[1..]);
      SplitCommaCons(l[0], JoinComma(l[1..]));
      SplitJoin(l[1..]);
      assert l == [l[0]] + l[1..];
    }
  }

  /** Two non-empty layout lists of comma-free paths share a memo key only
      when they are the same list, so a memo hit is the set parsed from the
      same files in the same order. */
  lemma KeyInjective(a: seq<string>, b: seq<string>)
    requires a != [] && AllCommaFree(a)
    requires b != [] && AllCommaFree(b)
    requires JoinComma(a) == JoinComma(b)
    ensures a == b
  {
    SplitJoin(a);
    SplitJoin(b);
  }

  /** Parsed sets by memo key. */
  type TemplateMemo = map<string, Template>

  /** The template found or parsed, and the memo afterwards. */
  datatype Lookup = Lookup(result: Result<Template>, memo: TemplateMemo)

  /** Parse `layouts` into a clone of the partials set; what a memo miss
      does. */
  function ParseLayouts(e: Engine, layouts: seq<string>): (r: Result<Template>)
    ensures e.clone.Err? ==> r == Err(e.clone.error)
    ensures e.clone.Ok? ==> r == e.parseFiles(e.clone.value, layouts)
  {
    var t :- e.clone;
    e.parseFiles(t, layouts)
  }

  /** `GetTemplate`: the set stored under the comma-joined layout list, or a
      freshly parsed one that is then stored; a clone or parse error is
      returned and nothing is stored. */
  function GetTemplate(memo: TemplateMemo, e: Engine, layouts: seq<string>): (r: Lookup)
    ensures JoinComma(layouts) in memo ==> r == Lookup(Ok(memo[JoinComma(layouts)]), memo)
    ensures JoinComma(layouts) !in memo ==> r.result == ParseLayouts(e, layouts)
    ensures r.result.Err? ==> r.memo == memo
    ensures r.result.Ok? ==> r.memo == memo[JoinComma(layouts) := r.result.value]
  {
    var key := JoinComma(layouts);
    if key in memo then Lookup(Ok(memo[key]), memo)
    else
      match ParseLayouts(e, layouts)
      case Ok(t) => Lookup(Ok(t), memo[key := t])
      case Err(err) => Lookup(Err(err), memo)
  }

  /** Every stored set is what parsing its key's layouts would give. */
  ghost predicate MemoSound(memo: TemplateMemo, e: Engine) {
    forall l: seq<string> :: JoinComma(l) in memo && l != [] && AllCommaFree(l) ==>
      ParseLayouts(e, l) == Ok(memo[JoinComma(l)])
  }

  /** With a sound memo, `GetTemplate` returns exactly what parsing would,
      whether it hits or misses, and the memo stays sound. */
  lemma GetTemplateSound(memo: TemplateMemo, e: Engine, layouts: seq<string>)
    requires MemoSound(memo, e)
    requires layouts != [] && AllCommaFree(layouts)
    ensures GetTemplate(memo, e, layouts).result == ParseLayouts(e, layouts)
    ensures MemoSound(GetTemplate(memo, e, layouts).memo, e)
  {
    var r := GetTemplate(memo, e, layouts);
    var key := JoinComma(layouts);
    forall l: seq<string> | JoinComma(l) in r.memo && l != [] && AllCommaFree(l)
      ensures ParseLayouts(e, l) == Ok(r.memo[JoinComma(l)])
    {
      if JoinComma(l) == key && key !in memo {
        KeyInjective(l, layouts);
      }
    }
  }

  /** A second request for the same layouts is a hit and returns the set the
      first one stored. */
  lemma GetTemplateTwice(memo: TemplateMemo, e: Engine, layouts: seq<string>)
    requires GetTemplate(memo, e, layouts).result.Ok?
    ensures var first := GetTemplate(memo, e, layouts);
      GetTemplate(first.memo, e, layouts) == first
  {
  }
}

=== FILE: wrappers.dfy ===
/** Failure-carrying datatypes shared by every module of the model: Go's
    `(value, error)` pairs become `Result`, nil-able values become `Option`. */
module Wrappers {

  datatype Option<+T> = None | Some(value: T) {

    predicate IsFailure() {
      None?
    }

    function PropagateFailure<U>(): Option<U>
      requires None?
    {
      None
    }

    function Extract(): T
      requires Some?
    {
      value
    }
  }

  /** The errors the build distinguishes. `NotExist` is what `os.IsNotExist`
      recognises; `IsDirectory` is reading or writing a directory as if it
      were a file; `Wrapped` is an error decorated by
      `fmt.Errorf("<context>: %w", cause)`. */
  datatype Error =
    | NotExist(path: string)
    | IsDirectory(path: string)
    | Failed(reason: string)
    | Wrapped(context: string, cause: Error)

  datatype Result<+T> = Ok(value: T) | Err(error: Error) {

    predicate IsFailure() {
      Err?
    }

    function PropagateFailure<U>(): Result<U>
      requires Err?
    {
      Err(error)
    }

    function Extract(): T
      requires Ok?
    {
      value
    }
  }

  /** A decoded YAML or JSON mapping (`map[string]any`); values are kept as text. */
  type Meta = map<string, string>

  /** No two positions of `s` hold the same element. */
  predicate Distinct<T(==)>(s: seq<T>) {
    forall i, j :: 0 <= i < j < |s| ==> s[i] != s[j]
  }

  lemma DistinctTail<T>(s: seq<T>)
    requires s != [] && Distinct(s)
    ensures Distinct(s[1..]) && s[0] !in s[1..]
  {
    var tail := s[1..];
    forall i, j | 0 <= i < j < |tail| ensures tail[i] != tail[j] {
      assert tail[i] == s[i + 1] && tail[j] == s[j + 1];
    }
    forall k | 0 <= k < |tail| ensures tail[k] != s[0] {
      assert tail[k] == s[k + 1];
    }
  }
}
